=== FILE: README.md ===
# Generic host for Unity — a Dafny model

This project models the core of Microsoft.Extensions.Hosting.Unity. The
library runs the .NET generic host (dependency injection, configuration,
hosted services, logging) inside a Unity player. The model covers three
generations of the library: the root package (`Runtime/`), the
`com.cmdexecutor.dotnet-generic-host` package and the
`com.blacksmallriver.generic-host-unity` package.

Unity components cannot take constructor arguments. The library therefore
injects services through a non-public instance method with a configured
name (by default `AwakeServices`). It registers components, prefabs and
ScriptableObjects as factories in the service collection, and drives host
building, starting and stopping from a `HostManager` component.

The modules are:

- `Common`: options, results carrying the .NET exception a member throws, engine object references, lifetimes.
- `Reflection`: picks the injection method out of a type's declared methods.
- `Activation`: service descriptors and what one resolution of a registered factory does, as a trace of engine and container effects.
- `Registration`: the `Add*` verbs of `UnityObjectsConfigurator` and `UnityCollectionBuilder`, `Configure`, and `AddHostedService`.
- `LegacyRegistration`: the two `MonoBehaviourServiceCollectionBuilder` revisions of the root package.
- `HostBuilding`: the generic host builder and both `UnityHostBuilder`s, plus `MonoHostBuilder`, the builder extensions and the shutdown-timeout parse.
- `Hosting`: `MonoHost` construction, start, stop and dispose, and `MonoBehaviourScope`.
- `HostManagement` and `LegacyHostManagement`: the two `HostManager` components, as state machines over their flags.
- `Configuration`: `AppSettings` (`GlobalSettings.cs`), the ScriptableObject configuration provider, and `DisableFileSourcesReloadOnChange`.
- `Lookup`: `ServicesLookup`.
- `Logging`: `UnityLogger` and `UnityLoggerProvider`.

Modelling conventions:

- The dependency-injection container is a map from service type to the object it resolves.
- Closures are first-order datatypes: a factory is a `Plan`, a ConfigureServices delegate a `ServicesCallback`.
- Engine calls, container look-ups and lifecycle notifications become effects in a returned trace.
- Values the environment decides are parameters: whether a build or stop throws, which services are registered, whether a file provider is disposable, and the key comparer.
- The registration pipeline registers the factories as written. Passing `corrected := true` to `RunAction`, `RunActions`, `Configure` or `RunLegacy` selects the corrected factories of the "## Findings" table instead.

## Model

| member | source | states |
|---|---|---|
| Reflection.GetParametersTypes | Runtime/Internals/Reflection.cs:37-52 | Succeeds exactly when no parameter is a primitive, enum or string. The result is the parameter types in declaration order. Otherwise it is NotSupportedException with the library's message. |
| Reflection.TryGetInjectionMethod | Runtime/Internals/Reflection.cs:10-35 | "None" exactly when no declared non-public instance method has the name (ordinal) and is void, concrete, non-virtual, non-generic and parameterised. Otherwise the first such method is chosen, with its parameter types. If that method has an uninjectable parameter, the lookup throws and later candidates are not tried. |
| Reflection.SkippedMethodsNeverSelected | Runtime/Internals/Reflection.cs:12-27 | A public, static, inherited, parameterless or differently named method is never the one selected. |
| Activation.GetHostRoot | Packages/com.cmdexecutor.dotnet-generic-host/Runtime/Internals/UnityObjectsConfigurator.cs:346-356 | The host root is the one stored in the context's property bag. A missing or mistyped entry gives ArgumentException. |
| Activation.RequiredService | Packages/com.cmdexecutor.dotnet-generic-host/Runtime/Internals/UnityObjectsConfigurator.cs:371 | One lookup. It gives the registered object, or InvalidOperationException when nothing is registered. |
| Activation.ResolveAll | Packages/com.cmdexecutor.dotnet-generic-host/Runtime/Internals/UnityObjectsConfigurator.cs:368-372 | Parameter types are resolved in order. The first missing one ends the loop with its exception, after exactly the look-ups before it. On success the instances line up with the types. |
| Activation.InjectServices | Packages/com.cmdexecutor.dotnet-generic-host/Runtime/Internals/UnityObjectsConfigurator.cs:358-375 | A type without an injection method gives no effect. Otherwise every parameter type is resolved in order, then the method is invoked once, with the resolved instances in parameter order. A null target makes the invocation throw TargetException. |
| Activation.SetupLifetime | Packages/com.cmdexecutor.dotnet-generic-host/Runtime/Internals/UnityObjectsConfigurator.cs:377-391 | The application lifetime is resolved and the stopping hook registered. DontDestroyOnLoad is applied only when requested. A missing lifetime throws after the one look-up. |
| Activation.OnStopping | Packages/com.cmdexecutor.dotnet-generic-host/Runtime/Internals/UnityObjectsConfigurator.cs:380-387 | A destroyed component gets nothing. A live one has its coroutines stopped and its invokes cancelled. |
| Activation.Obtain | Packages/com.cmdexecutor.dotnet-generic-host/Runtime/Internals/UnityObjectsConfigurator.cs:31-342 | Each source acquires its component as the verbs do. A given instance is returned untouched. A missing host root fails before any effect. An unloaded prefab fails with NullReferenceException. A created component is the new object of the requested type. |
| Activation.Setup | Packages/com.cmdexecutor.dotnet-generic-host/Runtime/Internals/UnityObjectsConfigurator.cs:93-113 | Setup succeeds exactly when injection succeeds and, if the hook is requested, the lifetime is registered. It never touches the enabled flag, and every injection call precedes the hook. |
| Activation.SetupHooksIffRequested | Packages/com.cmdexecutor.dotnet-generic-host/Runtime/Internals/UnityObjectsConfigurator.cs:74-90 | A successful setup registers the stopping hook exactly when the plan asks for it. DontDestroyOnLoad appears only for a detached singleton. |
| Activation.Activate | Packages/com.cmdexecutor.dotnet-generic-host/Runtime/Internals/UnityObjectsConfigurator.cs:93-113 | One resolution succeeds exactly when obtaining, injecting and (if requested) hooking succeed. It returns the obtained component, and an acquisition failure is passed through unchanged. |
| Activation.DisabledBeforeInjection | Packages/com.cmdexecutor.dotnet-generic-host/Runtime/Internals/UnityObjectsConfigurator.cs:99-101 | A hosted component is disabled immediately after it is obtained, before anything is injected. |
| Activation.EnabledOnlyAtSuccessfulEnd | Packages/com.cmdexecutor.dotnet-generic-host/Runtime/Internals/UnityObjectsConfigurator.cs:101-108 | It is re-enabled only as the last effect of a successful resolution. A failure leaves it disabled. |
| Activation.InjectionBeforeStoppingHook | Packages/com.cmdexecutor.dotnet-generic-host/Runtime/Internals/UnityObjectsConfigurator.cs:102-105 | In every resolution trace, the injection call comes before the stopping-hook registration. |
| Activation.StoppingHookIffRequested | Packages/com.blacksmallriver.generic-host-unity/Runtime/Internals/UnityCollectionBuilder.cs:368-382 | A successful resolution registers the hook exactly when the plan asks for it, and DontDestroyOnLoad only for a detached singleton. |
| Registration.AddHostedWrapper | Packages/com.cmdexecutor.dotnet-generic-host/Runtime/Extensions/HostBuilderExtensions.cs:25 | The TryAddEnumerable registration of `HostedServiceWrapper<T>` is appended only when the same implementation is not already registered. |
| Registration.AddHostedWrapperIdempotent | Packages/com.cmdexecutor.dotnet-generic-host/Runtime/Extensions/HostBuilderExtensions.cs:25 | Adding the wrapper twice equals adding it once. |
| Registration.AddHostedService | Packages/com.cmdexecutor.dotnet-generic-host/Runtime/Extensions/HostBuilderExtensions.cs:36-43 | A singleton of the service is appended first, then the hosted wrapper (at most one). Nothing earlier changes. |
| Registration.PlanOf | Packages/com.cmdexecutor.dotnet-generic-host/Runtime/Internals/UnityObjectsConfigurator.cs:31-342 | Every factory uses the builder's injection-method name. Only the single-type hosted verb holds its component disabled, and only the detached singleton keeps it across scene loads. ScriptableObjects are given instances without the stopping hook. The untyped one searches the object's own type. |
| Registration.PlanOfAsWritten | Packages/com.cmdexecutor.dotnet-generic-host/Runtime/Internals/UnityObjectsConfigurator.cs:214-230 | As written, the untyped ScriptableObject singleton searches the static type ScriptableObject for the injection method. |
| Registration.UntypedScriptableObjectNeverInjectedAsWritten | Packages/com.cmdexecutor.dotnet-generic-host/Runtime/Internals/UnityObjectsConfigurator.cs:223 | As written, that factory never calls an injection method, whatever the object's own type declares. |
| Registration.UntypedScriptableObjectInjectedWhenDeclared | Packages/com.cmdexecutor.dotnet-generic-host/Runtime/Internals/UnityObjectsConfigurator.cs:214-230 | With the object's own type searched, a declared injection method is called once, with every parameter resolved. |
| Registration.RunAction | Packages/com.cmdexecutor.dotnet-generic-host/Runtime/Internals/UnityObjectsConfigurator.cs:31-342 | One deferred action runs. A missing component or ScriptableObject and a blank resources path give ArgumentNullException. Otherwise exactly one registration is appended: hosted verbs through AddHostedService, the rest as one descriptor with the verb's lifetime. Its factory is the as-written one, or the corrected one on request. |
| Registration.CorrectionOnlyChangesUntypedScriptableObject | Packages/com.cmdexecutor.dotnet-generic-host/Runtime/Internals/UnityObjectsConfigurator.cs:214-230 | The corrected factory differs from the as-written one only for the untyped ScriptableObject verb, and there only in the type searched for the injection method. Both succeed or fail together. |
| Registration.NewConfigurator | Packages/com.cmdexecutor.dotnet-generic-host/Runtime/Internals/UnityObjectsConfigurator.cs:14-17 | A new builder holds the injection-method name and no action. |
| Registration.Add | Packages/com.cmdexecutor.dotnet-generic-host/Runtime/Internals/UnityObjectsConfigurator.cs:31-52 | Each verb appends exactly one action and runs nothing. |
| Registration.RunActions | Packages/com.cmdexecutor.dotnet-generic-host/Runtime/Internals/UnityObjectsConfigurator.cs:22-28 | Actions run in insertion order, each with the as-written factory unless the corrected one is requested. The first failure stops the run with its exception. |
| Registration.Configure | Packages/com.blacksmallriver.generic-host-unity/Runtime/Internals/UnityCollectionBuilder.cs:14 | `Configure` and the host's loop over `ConfigureActions` run the builder's actions in order and only add registrations, at least one per action. |
| Registration.ConfigureAfterAdd | Packages/com.cmdexecutor.dotnet-generic-host/Runtime/Internals/UnityObjectsConfigurator.cs:22-28 | Configuring after adding a verb equals configuring without it, then running that verb's action. |
| Registration.ConfiguredScriptableObjectInjection | Packages/com.cmdexecutor.dotnet-generic-host/Runtime/Internals/UnityObjectsConfigurator.cs:214-230 | Through Add and Configure, the as-written untyped ScriptableObject registration never invokes an injection method. The corrected one invokes the object's declared method when its services are registered. |
| Registration.ValidationIsDeferred | Packages/com.cmdexecutor.dotnet-generic-host/Runtime/Internals/UnityObjectsConfigurator.cs:35-36 | Adding a verb with a missing component succeeds; the exception appears only when the actions run. |
| Registration.PlanFollowsVerb | Packages/com.cmdexecutor.dotnet-generic-host/Runtime/Internals/UnityObjectsConfigurator.cs:93-132 | Every factory uses the builder's injection-method name. Only the single-type hosted verb holds its component disabled. |
| Registration.HostedComponentDisabledDuringSetup | Packages/com.cmdexecutor.dotnet-generic-host/Runtime/Internals/UnityObjectsConfigurator.cs:93-113 | For the hosted verb, every resolution disables the component before injection and re-enables it only at the end of a success. |
| LegacyRegistration.LegacyPlanAsWritten | Runtime/Internals/UnityObjectServiceCollectionBuilder.cs:20-233 | Every factory uses the builder's injection-method name and never holds its component disabled or keeps it across scenes. The ScriptableObject verbs create the instance through CreateInstance, search ScriptableObject itself for the injection method and skip SetupLifetime. The other verbs search the created type. The instance singleton hands out the given component and sets up the lifetime only when asked. The transient verbs create a new GameObject, and the singleton and hosted verbs add the component to the host root; all of these set up the lifetime. |
| LegacyRegistration.LegacyPlan | Runtime/Internals/UnityObjectServiceCollectionBuilder.cs:171-233 | The corrected factories search the created type for the injection method. Singleton and transient verbs keep their lifetimes. |
| LegacyRegistration.RunLegacy | Runtime/Internals/UnityObjectServiceCollectionBuilder.cs:20-233 | One ConfigureServices callback. Without an explicit type, the instance singleton throws NullReferenceException exactly when the component is a real null, since there is no null check; a destroyed component still answers GetType. Otherwise it appends the verb's registration, with the as-written factory unless the corrected one is requested. |
| LegacyRegistration.DestroyedComponentRegistered | Runtime/Internals/UnityObjectServiceCollectionBuilder.cs:20-38 | Without an explicit type, a null component throws NullReferenceException, while a destroyed one is registered under its own runtime type as a singleton of that missing object. |
| LegacyRegistration.LegacyCorrectionOnlyChangesScriptableObjects | Runtime/Internals/UnityObjectServiceCollectionBuilder.cs:171-233 | The correction touches only the ScriptableObject verbs. There, as written, ScriptableObject is searched, and corrected, the created type. |
| LegacyRegistration.OldestSetupAlwaysHooks | Runtime/Internals/MonoBehaviourServiceCollectionBuilder.cs:93-115 | The oldest revision always registers the stopping hook after injection. It never holds a component disabled and never keeps one across scene loads. |
| LegacyRegistration.LegacyHostedUsesContainerRoot | Runtime/Internals/UnityObjectServiceCollectionBuilder.cs:40-56 | The hosted verb takes the host root from the container, and never disables its component. |
| LegacyRegistration.ScriptableObjectNeverInjectedAsWritten | Runtime/Internals/UnityObjectServiceCollectionBuilder.cs:178 | As written, a ScriptableObject factory never calls an injection method unless ScriptableObject itself declares one. |
| LegacyRegistration.PaletteIsNotInjectedAsWritten | Runtime/Internals/UnityObjectServiceCollectionBuilder.cs:171-185 | The concrete case: a Palette with `AwakeServices(ILogger)` is created but not injected, while the corrected factory resolves the logger and calls it. |
| LegacyRegistration.ScriptableObjectInjectedWhenDeclared | Runtime/Internals/UnityObjectServiceCollectionBuilder.cs:237-254 | With the created type searched, its injection method is called once with every parameter resolved. |
| HostBuilding.NewHostBuilder | Packages/com.cmdexecutor.dotnet-generic-host/Runtime/Internals/UnityHostBuilder.cs:58 | A new builder is unbuilt, with no callbacks and an empty property bag. |
| HostBuilding.ConfigureServices | Packages/com.cmdexecutor.dotnet-generic-host/Runtime/Internals/UnityHostBuilder.cs:101-104 | The delegate is appended after the earlier ones; nothing else changes. |
| HostBuilding.ConfigureContainer | Packages/com.cmdexecutor.dotnet-generic-host/Runtime/Internals/UnityHostBuilder.cs:106-111 | The container delegate is appended; nothing else changes. |
| HostBuilding.ConfigureAppConfiguration | Packages/com.cmdexecutor.dotnet-generic-host/Runtime/Internals/UnityHostBuilder.cs:76 | The app-configuration delegate is appended; nothing else changes. |
| HostBuilding.RunAppConfig | Packages/com.cmdexecutor.dotnet-generic-host/Runtime/Internals/UnityHostBuilder.cs:76 | App-configuration delegates run in registration order over one context. |
| HostBuilding.SetApplicationNameExt | Packages/com.cmdexecutor.dotnet-generic-host/Runtime/Extensions/HostBuilderExtensions.cs:63-67 | Appends one app-configuration delegate that sets the application name. |
| HostBuilding.SetEnvironmentNameExt | Packages/com.cmdexecutor.dotnet-generic-host/Runtime/Extensions/HostBuilderExtensions.cs:75-79 | Appends one app-configuration delegate that sets the environment name. |
| HostBuilding.LastNameWins | Packages/com.cmdexecutor.dotnet-generic-host/Runtime/Extensions/HostBuilderExtensions.cs:63-79 | The last name set before the build is the one the context ends with. |
| HostBuilding.RunServicesCallback | Packages/com.cmdexecutor.dotnet-generic-host/Runtime/Extensions/HostBuilderExtensions.cs:104-111 | One ConfigureServices delegate runs. The global-settings delegate registers the settings singleton only when the property bag's source is for that settings type. |
| HostBuilding.RunServicesCallbacks | Packages/com.cmdexecutor.dotnet-generic-host/Runtime/Internals/UnityHostBuilder.cs:101-104 | Delegates run in order; the first exception ends the build. |
| HostBuilding.BuildInternal | Packages/com.cmdexecutor.dotnet-generic-host/Runtime/Internals/UnityHostBuilder.cs:60-114 | A second build throws "Build can only be called once.". The first build sets the flag before anything runs, so it stays set if the build fails. It succeeds exactly when the services delegates do, run after the app configuration on the defaults. The defaults stay a prefix and the container delegates' descriptors come last. |
| HostBuilding.BuildOnce | Packages/com.cmdexecutor.dotnet-generic-host/Runtime/Internals/UnityHostBuilder.cs:62-67 | Whatever the first build did, a second one throws. |
| HostBuilding.BuildRunsLastDelegateLast | Packages/com.cmdexecutor.dotnet-generic-host/Runtime/Internals/UnityHostBuilder.cs:101-104 | The services delegate registered last runs last, on the collection the earlier ones produced, and before the container delegates. |
| HostBuilding.ContainerDelegateRunsLast | Packages/com.cmdexecutor.dotnet-generic-host/Runtime/Internals/UnityHostBuilder.cs:93-111 | A container delegate adds its descriptors at the very end of a successful build and does not change whether it succeeds. Its order relative to services delegates makes no difference. |
| HostBuilding.UnityDefaults | Packages/com.cmdexecutor.dotnet-generic-host/Runtime/Internals/UnityHostBuilder.cs:150-184 | The host's own defaults come first. The container then hands out UnityLifetime as IHostLifetime, the MonoHost factory as IHost, and an application lifetime. |
| HostBuilding.ConfigurationValue | Packages/com.cmdexecutor.dotnet-generic-host/Runtime/Internals/UnityHostBuilder.cs:188 | A key is found exactly when some entry has it, ignoring case, and the value is that of the last such entry. |
| HostBuilding.ConfigurationValueIgnoresCase | Packages/com.cmdexecutor.dotnet-generic-host/Runtime/Internals/UnityHostBuilder.cs:188 | Keys equal ignoring case look up the same value. |
| HostBuilding.ConfiguredTimeout | Packages/com.cmdexecutor.dotnet-generic-host/Runtime/Internals/UnityHostBuilder.cs:188 | The value read for "shutdownTimeoutSeconds" is the one for every casing of that key. |
| HostBuilding.LastFor | Packages/com.cmdexecutor.dotnet-generic-host/Runtime/Internals/UnityHostBuilder.cs:150-184 | The registration the container hands out for a type is one registered for it, and there is none exactly when no descriptor has that type. |
| HostBuilding.LastForAppend | Packages/com.cmdexecutor.dotnet-generic-host/Runtime/Internals/UnityHostBuilder.cs:150-184 | Registrations of other types added later do not change what is handed out for a type. |
| HostBuilding.EffectiveShutdownTimeoutAppend | Packages/com.cmdexecutor.dotnet-generic-host/Runtime/Internals/UnityHostBuilder.cs:186-193 | Registrations without a HostOptions callback added later do not change the shutdown timeout. |
| HostBuilding.HostDefaults | Packages/com.cmdexecutor.dotnet-generic-host/Runtime/Internals/UnityHostBuilder.cs:150-184 | The library's own defaults hand out the application lifetime and set no shutdown timeout. |
| HostBuilding.UnityDefaultsTimeout | Packages/com.cmdexecutor.dotnet-generic-host/Runtime/Internals/UnityHostBuilder.cs:186-193 | With the Unity defaults alone, the shutdown timeout is the configured value when it parses, else the given default. |
| HostBuilding.DefaultsDecideUnlessOverridden | Packages/com.cmdexecutor.dotnet-generic-host/Runtime/Internals/UnityHostBuilder.cs:93-104 | In a successful build the defaults are a prefix. What they decide about one service type or the shutdown timeout holds unless a later registration changes it. |
| HostBuilding.UnityDefaultsDecideTheBuild | Packages/com.cmdexecutor.dotnet-generic-host/Runtime/Internals/UnityHostBuilder.cs:150-193 | In a successful build with the Unity defaults, the host lifetime is UnityLifetime unless a delegate registers another. The shutdown timeout is the configured one unless a delegate adds a HostOptions callback. |
| HostBuilding.ParseIntNone | Packages/com.cmdexecutor.dotnet-generic-host/Runtime/Internals/UnityHostBuilder.cs:188 | An accepted text is all digits, its value fits a non-negative int, and it is exactly the value's decimal digits after any leading zeros. Every non-empty digit string whose value fits is accepted. |
| HostBuilding.CanonicalDigits | Packages/com.cmdexecutor.dotnet-generic-host/Runtime/Internals/UnityHostBuilder.cs:188 | Every digit string is its value's decimal text, preceded by leading zeros. |
| HostBuilding.ParseToDigitsRoundTrip | Packages/com.cmdexecutor.dotnet-generic-host/Runtime/Internals/UnityHostBuilder.cs:188 | Every non-negative int parses back from its decimal text. |
| HostBuilding.ParseIgnoresLeadingZero | Packages/com.cmdexecutor.dotnet-generic-host/Runtime/Internals/UnityHostBuilder.cs:188 | A leading zero changes neither acceptance nor value. |
| HostBuilding.ApplyShutdownTimeout | Packages/com.cmdexecutor.dotnet-generic-host/Runtime/Internals/UnityHostBuilder.cs:186-193 | The configured value replaces the timeout only when it is present, non-empty and parses. Otherwise the timeout is kept. |
| HostBuilding.ShutdownTimeoutExamples | Packages/com.cmdexecutor.dotnet-generic-host/Runtime/Internals/UnityHostBuilder.cs:186-193 | "n" sets n seconds; "-n", " n" and "n.0" leave the timeout alone. |
| HostBuilding.NewUnityHostBuilder | Packages/com.blacksmallriver.generic-host-unity/Runtime/Internals/UnityHostBuilder.cs:13-16 | A new Unity builder has no delegates and an empty configurator. |
| HostBuilding.ConfigureUnityObjects | Packages/com.blacksmallriver.generic-host-unity/Runtime/Internals/UnityHostBuilder.cs:23-31 | A null delegate throws ArgumentNullException("configureDelegate"). Otherwise the delegate is appended. |
| HostBuilding.UnityBuild | Packages/com.cmdexecutor.dotnet-generic-host/Runtime/Internals/UnityHostBuilder.cs:42-56 | Build appends the ScopeRoot registration, then the delegate that runs the Unity-object delegates and Configure with the as-written factories, and then builds. A second build throws. |
| HostBuilding.UnityBuildOrder | Packages/com.blacksmallriver.generic-host-unity/Runtime/Internals/UnityHostBuilder.cs:33-47 | In a successful build, ScopeRoot is registered after every earlier delegate and before any Unity object. The Unity objects are the delegates' verbs in order, and the container delegates' descriptors follow them. |
| HostBuilding.NewMonoHostBuilder | Packages/com.blacksmallriver.generic-host-unity/Runtime/Internals/MonoHostBuilder.cs:17-26 | Wraps a host builder with an empty collection builder and no delegates. |
| HostBuilding.MonoConfigureUnityObjects | Packages/com.blacksmallriver.generic-host-unity/Runtime/Internals/MonoHostBuilder.cs:28-33 | The delegate is appended without a null check. |
| HostBuilding.MonoConfigureServices | Packages/com.blacksmallriver.generic-host-unity/Runtime/Internals/MonoHostBuilder.cs:35-40 | Forwards to the wrapped builder. |
| HostBuilding.MonoConfigureAppConfiguration | Packages/com.blacksmallriver.generic-host-unity/Runtime/Internals/MonoHostBuilder.cs:35-40 | Forwards to the wrapped builder. |
| HostBuilding.MonoBuildAsWritten | Packages/com.blacksmallriver.generic-host-unity/Runtime/Internals/MonoHostBuilder.cs:42-54 | As written: ScopeRoot, then the collection builder's actions, then the wrapped build. The stored delegates are never read. |
| HostBuilding.MonoDelegatesIgnoredAsWritten | Packages/com.blacksmallriver.generic-host-unity/Runtime/Internals/MonoHostBuilder.cs:42-54 | As written, adding a Unity-object delegate makes no difference to the build. |
| HostBuilding.MonoSingletonNeverRegisteredAsWritten | Packages/com.blacksmallriver.generic-host-unity/Runtime/Internals/MonoHostBuilder.cs:28-33 | The concrete case: a delegate adding a singleton, and no registration of it after the build. |
| HostBuilding.MonoBuild | Packages/com.blacksmallriver.generic-host-unity/Runtime/Internals/MonoHostBuilder.cs:42-54 | Corrected: the stored delegates fill the collection builder, skipping null ones, before its actions run. |
| HostBuilding.MonoBuildRunsDelegates | Packages/com.blacksmallriver.generic-host-unity/Runtime/Internals/MonoHostBuilder.cs:45-51 | A delegate's verbs run after those already added, and after ScopeRoot. |
| HostBuilding.MonoSingletonRegistered | Packages/com.blacksmallriver.generic-host-unity/Runtime/Internals/MonoHostBuilder.cs:42-54 | The same input, corrected: the singleton is registered right after ScopeRoot. |
| HostBuilding.UseGlobalSettingsAsWritten | Packages/com.cmdexecutor.dotnet-generic-host/Runtime/Extensions/HostBuilderExtensions.cs:88-112 | As written, the guard reads a key that only the build records. |
| HostBuilding.UseGlobalSettingsTwiceAcceptedAsWritten | Packages/com.cmdexecutor.dotnet-generic-host/Runtime/Extensions/HostBuilderExtensions.cs:93-103 | Two calls on an unbuilt builder are both accepted. |
| HostBuilding.UseGlobalSettings | Packages/com.cmdexecutor.dotnet-generic-host/Runtime/Extensions/HostBuilderExtensions.cs:88-112 | Corrected: the key is recorded at the call, so a builder already holding it throws InvalidOperationException. Otherwise the source and the settings registration are added. |
| HostBuilding.UseGlobalSettingsOnce | Packages/com.cmdexecutor.dotnet-generic-host/Runtime/Extensions/HostBuilderExtensions.cs:93-94 | A second call always throws. |
| HostBuilding.UseGlobalSettingsRegistersSettings | Packages/com.cmdexecutor.dotnet-generic-host/Runtime/Extensions/HostBuilderExtensions.cs:104-111 | On a fresh builder, the build registers the settings object as a singleton of the settings type, last. |
| HostBuilding.UseMonoBehaviourServiceCollection | Runtime/Extensions/HostBuilderExtensions.cs:42-53 | A builder already holding the key throws InvalidOperationException. Otherwise exactly one builder is stored under the key. |
| HostBuilding.UseMonoBehaviourServiceCollectionOnce | Runtime/Extensions/HostBuilderExtensions.cs:44-47 | A second call always throws. |
| HostBuilding.LegacyAdd | Runtime/Internals/UnityObjectServiceCollectionBuilder.cs:20-38 | A legacy verb appends one ConfigureServices callback straight away. |
| HostBuilding.LegacyAddAll | Runtime/Internals/UnityObjectServiceCollectionBuilder.cs:20-233 | Verbs append one callback each, in call order. |
| HostBuilding.ConfigureMonoBehaviours | Runtime/Extensions/HostBuilderExtensions.cs:22-33 | Without a registered builder it throws ArgumentException; a value of the wrong type throws InvalidCastException. A null delegate changes nothing. Otherwise each verb appends one callback, in order. |
| HostBuilding.SuppressStatusMessagesExt | Packages/com.cmdexecutor.dotnet-generic-host/Runtime/Extensions/HostBuilderExtensions.cs:51-55 | Appends one ConsoleLifetimeOptions callback. The last call decides the effective value. |
| HostBuilding.AddHostedServiceExt | Packages/com.cmdexecutor.dotnet-generic-host/Runtime/Extensions/HostBuilderExtensions.cs:20-27 | Appends a type registration of the service followed by the hosted wrapper. |
| Hosting.NewMonoHost | Packages/com.cmdexecutor.dotnet-generic-host/Runtime/Internals/Hosting/MonoHost.cs:21-44 | Arguments are checked in source order: a null application lifetime or services throws ArgumentNullException, a foreign lifetime throws ArgumentException, then a null logger, host lifetime or options. A valid host starts with no resolved services and stop not called. |
| Hosting.StartServices | Packages/com.cmdexecutor.dotnet-generic-host/Runtime/Internals/Hosting/MonoHost_UniTask.cs:28-37 | Services start in order. The first failure ends the loop, as does a BackgroundService after its start completes. Exactly the clean prefix starts before it. |
| Hosting.Start | Packages/com.cmdexecutor.dotnet-generic-host/Runtime/Internals/Hosting/MonoHost_UniTask.cs:16-43 | Waits for the lifetime and throws OperationCanceledException if cancelled. Then it resolves the hosted services; if that throws, the exception propagates and nothing is recorded or started. Otherwise it records the services and starts them in order. The application is notified only when all started. |
| Hosting.Stop | Packages/com.cmdexecutor.dotnet-generic-host/Runtime/Internals/Hosting/MonoHost_UniTask.cs:45-96 | Marks stop called and stops the services in reverse order, collecting failures. It always notifies Stopped and stops the lifetime. It throws one AggregateException of the failures in order if there are any. |
| Hosting.StopFailsIffSomeStopFailed | Packages/com.cmdexecutor.dotnet-generic-host/Runtime/Internals/Hosting/MonoHost_UniTask.cs:87-92 | Stop throws exactly when some service's stop or the lifetime's stop failed. |
| Hosting.StopWithoutServicesStopsNone | Packages/com.cmdexecutor.dotnet-generic-host/Runtime/Internals/Hosting/MonoHost_UniTask.cs:58 | Without a start that resolved services, no service is stopped. |
| Hosting.StopMirrorsStart | Packages/com.cmdexecutor.dotnet-generic-host/Runtime/Internals/Hosting/MonoHost_UniTask.cs:58-73 | After a successful start, stop visits the services in exactly the reverse of the start order. |
| Hosting.StopAfterFailedStart | Packages/com.cmdexecutor.dotnet-generic-host/Runtime/Internals/Hosting/MonoHost_UniTask.cs:58-73 | After a start failed part-way, stop still visits every resolved service, including those never started. |
| Hosting.CancelledStartStopsNothing | Packages/com.cmdexecutor.dotnet-generic-host/Runtime/Internals/Hosting/MonoHost_UniTask.cs:23-26 | A cancelled start records no services, so the stop after it stops none. |
| Hosting.FailedResolutionStopsNothing | Packages/com.cmdexecutor.dotnet-generic-host/Runtime/Internals/Hosting/MonoHost_UniTask.cs:26-58 | When resolving the hosted services throws, start fails with that exception, starts no service and records none, so the stop after it stops none. |
| Hosting.StopFailuresAppend | Packages/com.cmdexecutor.dotnet-generic-host/Runtime/Internals/Hosting/MonoHost_UniTask.cs:60-72 | Failures are collected in attempt order: two runs of services concatenate. |
| Hosting.Dispose | Packages/com.cmdexecutor.dotnet-generic-host/Runtime/Internals/Hosting/MonoHost_UniTask.cs:100-131 | Disposes the content-root provider, then the default provider only if it was replaced, then the service provider last. Objects that are not disposable are skipped. |
| Hosting.DisposeDefaultProviderOnce | Packages/com.cmdexecutor.dotnet-generic-host/Runtime/Internals/Hosting/MonoHost_UniTask.cs:103-106 | When the environment keeps the default provider, it is disposed once, not twice. |
| Hosting.NewMonoBehaviourScope | Runtime/Internals/Scoped/MonoBehaviourScope.cs:14-18 | A null scope throws ArgumentNullException. Otherwise the ScopeRoot is required from the scope's provider. |
| Hosting.DisposeScope | Runtime/Internals/Scoped/MonoBehaviourScope.cs:22-26 | The service scope is disposed first, then the ScopeRoot. |
| Hosting.ServiceProvider | Runtime/Internals/Scoped/MonoBehaviourScope.cs:20 | A scope's provider is the one of the service scope it wraps, and so the provider its ScopeRoot was resolved from (see ScopeDisposesItsOwnRoot). |
| Hosting.ScopeDisposesItsOwnRoot | Runtime/Internals/Scoped/MonoBehaviourScope.cs:17-25 | The ScopeRoot disposed is the one the scope's own provider resolved. |
| HostManagement.NewManager | Packages/com.cmdexecutor.dotnet-generic-host/Runtime/HostManager.cs:66-67 | A new manager has nothing built, started or hooked and no token fired. It keeps the inspector's listeners and the runtime ones, and it satisfies the invariant. |
| HostManagement.Services | Packages/com.cmdexecutor.dotnet-generic-host/Runtime/HostManager.cs:101-110 | Only a built host's provider is handed out; otherwise it throws InvalidOperationException. |
| HostManagement.DoBuildHost | Packages/com.cmdexecutor.dotnet-generic-host/Runtime/HostManager.cs:234-297 | The hostBuilding listeners run first; if one throws, the builder is untouched. Otherwise the ServicesLookup delegate is added and Build is entered, which spends the builder, and a spent builder throws "Build can only be called once.". A failure in Build leaves no host; a failed lifetime lookup leaves a host that is not hooked; a failing hostBuilt listener comes after hooking. Every failure clears the built flag and keeps the runtime listeners. Hooking registers on the new host's tokens, none fired yet. Success removes the built event's runtime listeners and keeps the inspector's. |
| HostManagement.BuildManually | Packages/com.cmdexecutor.dotnet-generic-host/Runtime/HostManager.cs:169-184 | Already built, or building on Awake: only a warning. Otherwise the build. |
| HostManagement.Awake | Packages/com.cmdexecutor.dotnet-generic-host/Runtime/HostManager.cs:119-160 | A fresh builder each time; it builds straight away exactly when configured to. |
| HostManagement.DoStartHost | Packages/com.cmdexecutor.dotnet-generic-host/Runtime/HostManager.cs:339-359 | A second start only warns. Otherwise it sets started and fires the start without awaiting it. |
| HostManagement.DoStartHostAsync | Packages/com.cmdexecutor.dotnet-generic-host/Runtime/HostManager.cs:361-379 | The start is awaited. A failure clears started and rethrows. |
| HostManagement.StartManually | Packages/com.cmdexecutor.dotnet-generic-host/Runtime/HostManager.cs:190-196 | Throws unless built; otherwise it starts. |
| HostManagement.UnityStart | Packages/com.cmdexecutor.dotnet-generic-host/Runtime/HostManager.cs:311-323 | Starts a built host. Warns when a host meant to build on Awake is not built. |
| HostManagement.StopManually | Packages/com.cmdexecutor.dotnet-generic-host/Runtime/HostManager.cs:202-230 | Throws only when neither built nor started. Otherwise, when a host exists, it cancels the start token before stopping. |
| HostManagement.OnApplicationQuitting | Packages/com.cmdexecutor.dotnet-generic-host/Runtime/HostManager.cs:299-307 | Cancels the start token, stops the host, then disposes it. A failing stop ends the handler before the dispose. |
| HostManagement.Fire | Packages/com.cmdexecutor.dotnet-generic-host/Runtime/HostManager.cs:254-285 | Before the lifetime is hooked, or once the event's token has fired, nothing happens. Otherwise the inspector's and runtime listeners are invoked, the token is marked fired, and only the inspector's listeners remain. The stopped notification quits the application first when bound to Unity's lifetime, since the quit callback is registered later and token callbacks run latest first. |
| HostManagement.EventsFireOnce | Packages/com.cmdexecutor.dotnet-generic-host/Runtime/HostManager.cs:254-273 | A lifetime token fires once, so a second notification of one event invokes nobody and changes nothing. The inspector's listeners are still registered. |
| HostManagement.BuiltEventFiresOnce | Packages/com.cmdexecutor.dotnet-generic-host/Runtime/HostManager.cs:289-290 | With a fresh builder and no failure the build succeeds. Only the inspector's built listeners remain, and a later manual build only warns, so the event is not invoked again for this host. |
| HostManagement.NextHostReachesPersistentListeners | Packages/com.cmdexecutor.dotnet-generic-host/Runtime/HostManager.cs:254-273 | After a host has notified an event, the next host, built by a fresh builder, reaches only the inspector's listeners of that event: the runtime ones were removed. |
| HostManagement.OperationsKeepInv | Packages/com.cmdexecutor.dotnet-generic-host/Runtime/HostManager.cs:169-323 | Every operation and notification, however it ends, keeps the invariant: started implies built, built implies a hooked host and a spent builder, hooking implies a host, and no token fires before hooking. |
| HostManagement.BuildKeepsInv | Packages/com.cmdexecutor.dotnet-generic-host/Runtime/HostManager.cs:169-184 | A build attempt through BuildManually or Awake, however it ends, keeps the invariant. |
| HostManagement.StartStopKeepInv | Packages/com.cmdexecutor.dotnet-generic-host/Runtime/HostManager.cs:190-230 | Starting, stopping and the quitting handler keep the invariant. |
| HostManagement.StopManuallyThrowsIffNotBuilt | Packages/com.cmdexecutor.dotnet-generic-host/Runtime/HostManager.cs:204-205 | Under the invariant, StopManually throws exactly when the host is not built. |
| HostManagement.BuildRetry | Packages/com.cmdexecutor.dotnet-generic-host/Runtime/HostManager.cs:238-246 | A throwing hostBuilding listener leaves the builder fresh: a second BuildManually succeeds, and a third only warns. |
| HostManagement.NoRetryAfterBuildFailure | Packages/com.cmdexecutor.dotnet-generic-host/Runtime/HostManager.cs:238-296 | A failure once Build has been entered spends the builder. The next attempt that gets past the listeners throws "Build can only be called once.", whatever else would happen. |
| HostManagement.SpentBuilderNeverBuilds | Packages/com.cmdexecutor.dotnet-generic-host/Runtime/HostManager.cs:169-184 | Once the builder is spent without a host being built, no sequence of further attempts builds one. |
| HostManagement.FailedStartCanBeRetried | Packages/com.cmdexecutor.dotnet-generic-host/Runtime/HostManager.cs:361-379 | A failed awaited start clears started, so the next start tries again. |
| HostManagement.OnValidate | Packages/com.cmdexecutor.dotnet-generic-host/Runtime/HostManager.cs:384-398 | An empty injection name becomes "AwakeServices". An empty application name becomes the product name, or "Unity Application". A timeout of at most 100 ms becomes 5000 ms. Acceptable values are kept. |
| HostManagement.OnValidateIdempotent | Packages/com.cmdexecutor.dotnet-generic-host/Runtime/HostManager.cs:384-398 | Validating validated settings changes nothing, whatever the product name. |
| LegacyHostManagement.LegacyBuildHost | Runtime/HostManager.cs:115-157 | No building event: Build is entered at once and spends the builder, and a spent builder throws "Build can only be called once.". Failures in Build, in the lifetime lookup or in a hostBuilt listener leave no host, an unhooked host or a hooked one, and all clear the built flag. Hooking registers on the new host's tokens, none fired yet. All listeners are kept. |
| LegacyHostManagement.LegacyBuildManually | Runtime/HostManager.cs:96-111 | Same guards as the newer manager, over this build. |
| LegacyHostManagement.LegacyNoRetryAfterFailure | Runtime/HostManager.cs:96-157 | Any failed build spends the builder, so the next manual build throws "Build can only be called once." and builds nothing. |
| LegacyHostManagement.WantsToQuit | Runtime/HostManager.cs:133-138 | The quit-request handler always lets Unity quit. It stops the host exactly when it was added, that is when the lifetime is hooked and bound to Unity's lifetime. |
| LegacyHostManagement.QuitRequestStopsHost | Runtime/HostManager.cs:133-146 | Bound to Unity's lifetime, a quit request stops the host, and the stopped notification quits Unity before the listeners run. |
| LegacyHostManagement.LegacyStartHost | Runtime/HostManager.cs:189-207 | The private synchronous start, which no code path of this revision calls. A second start only warns; a failing start clears the flag and rethrows. |
| LegacyHostManagement.OnDisable | Runtime/HostManager.cs:177-183 | Stops the host exactly when it exists, is built and is started. |
| LegacyHostManagement.LegacyFire | Runtime/HostManager.cs:124-146 | Before hooking, or once the event's token has fired, nothing happens. Otherwise the listeners are invoked and kept, and the token is marked fired. The stopped notification quits first when bound to Unity's lifetime. |
| LegacyHostManagement.LegacyFireKeepsListeners | Runtime/HostManager.cs:124-131 | The two managers emit the same effects and fire the same tokens. The newer one differs only in removing the runtime listeners. |
| LegacyHostManagement.LegacyOperationsKeepInv | Runtime/HostManager.cs:96-207 | The older manager's build, start, disable and notifications keep the same invariant, however they end. |
| LegacyHostManagement.DisableStopsOnlyStartedHost | Runtime/HostManager.cs:177-183 | Disabling stops the host exactly when it was started. |
| LegacyHostManagement.LegacyOnValidate | Runtime/HostManager.cs:232-236 | Only the injection name is normalised; an empty one becomes "AwakeServices". |
| LegacyHostManagement.OnValidateAgrees | Runtime/HostManager.cs:232-236 | Both managers normalise the injection name identically. |
| Configuration.NewAppSettings | Runtime/Configuration/GlobalSettings.cs:24-33 | Succeeds exactly when the property names are unique. Otherwise it throws ArgumentException, as ToDictionary does. |
| Configuration.TryGet | Runtime/Configuration/GlobalSettings.cs:45-59 | An unknown key answers false. A property without a get method throws ArgumentException "Property get method not found.", and only such a property throws. Otherwise it gives a value exactly when the property's value is not null, and that value is the property's string form. |
| Configuration.Set | Runtime/Configuration/GlobalSettings.cs:61-68 | An unknown key changes nothing. Otherwise it succeeds exactly when the conversion succeeds and the property has a set method. A conversion error (InvalidCast, Format, Overflow) comes out unchanged, and a get-only property throws ArgumentException "Property set method not found.". Only that property changes. |
| Configuration.SetThenTryGet | Runtime/Configuration/GlobalSettings.cs:45-68 | What Set stores, the converted value, TryGet returns when the property has a get method; a set-only property still throws on TryGet. Every other key reads as before, and names stay unique. |
| Configuration.ChildPrefix | Runtime/Configuration/GlobalSettings.cs:89 | The prefix is empty for a null parent, else the parent followed by ":". |
| Configuration.Segment | Runtime/Configuration/GlobalSettings.cs:98-102 | The text from the prefix end up to the next ":" or the end of the key. It contains no delimiter, and is followed by one or by the end. |
| Configuration.SegmentOfChild | Runtime/Configuration/GlobalSettings.cs:98-102 | prefix + child + (nothing or ":…") segments back to the child. |
| Configuration.ChildSegments | Runtime/Configuration/GlobalSettings.cs:92-93 | Every segment comes from a name that starts with the prefix (ignoring case). Every such name contributes its segment. |
| Configuration.ChildSegmentsAppend | Runtime/Configuration/GlobalSettings.cs:92-93 | Segments keep the names' order and multiplicity: the segments of two lists of names are those of the first followed by those of the second, and one name contributes its segment exactly once when it starts with the prefix, else nothing. |
| Configuration.EqualsIgnoreCaseIsUpperEquality | Runtime/Configuration/GlobalSettings.cs:92 | Equality ignoring case holds exactly when the ordinal upper-cased strings are equal. |
| Configuration.IgnoreCaseIsEquivalence | Runtime/Configuration/GlobalSettings.cs:92 | Equality ignoring case is reflexive, symmetric and transitive. |
| Configuration.StartsWithIgnoresCase | Runtime/Configuration/GlobalSettings.cs:92 | Re-casing the key or the prefix does not change whether the key starts with the prefix. |
| Configuration.SortKeys | Runtime/Configuration/GlobalSettings.cs:95 | The result is sorted by the comparer and is a permutation of the input. |
| Configuration.GetChildKeys | Runtime/Configuration/GlobalSettings.cs:87-96 | Sorted by the key comparer, and a permutation of the matching segments plus the earlier keys, with duplicates kept. |
| Configuration.ChildKeyOfProperty | Runtime/Configuration/GlobalSettings.cs:87-96 | A property "parent:child…" yields "child" among the parent's child keys. |
| Configuration.OnReload | Runtime/Configuration/GlobalSettings.cs:114-118 | The previous token fires, running exactly the callbacks registered on it, and a fresh token with no callbacks replaces it. |
| Configuration.Subscribe | Runtime/Configuration/GlobalSettings.cs:70 | A callback registered through GetReloadToken waits on the current token, and nothing else changes. |
| Configuration.TokensFireOnce | Runtime/Configuration/GlobalSettings.cs:114-118 | Over any number of reloads, no token fires twice. |
| Configuration.SubscriberNotifiedOnce | Runtime/Configuration/GlobalSettings.cs:70-118 | A callback registered on the provider's token runs exactly once, however many reloads follow. |
| Configuration.LaterReloadsNotifyNobody | Runtime/Configuration/GlobalSettings.cs:114-118 | Once a reload has run the registered callbacks, further reloads run none, until a new callback registers. |
| Configuration.Load | Runtime/Configuration/ScriptableObjectConfigurationProvider.cs:27-43 | Only fields carrying a configuration key contribute. Data is only appended to, keys stay unique ignoring case, and each new entry is a keyed field's value. Only NullReferenceException is thrown, and never when every keyed field has a value. |
| Configuration.LoadFirstKeyWins | Runtime/Configuration/ScriptableObjectConfigurationProvider.cs:27-43 | A successful Load appends, in field order, one entry per keyed field with a value whose key is held neither by Data nor by an earlier keyed field. It warns, in field order, about exactly the keys of the keyed fields whose key is already held. |
| Configuration.FirstKeyWins | Runtime/Configuration/ScriptableObjectConfigurationProvider.cs:35-41 | When two keyed fields share a key ignoring case and Data does not hold it, the earlier field's value is stored, and the later field's key is skipped with a warning. |
| Configuration.LoadThrowsExactly | Runtime/Configuration/ScriptableObjectConfigurationProvider.cs:27-43 | Load throws exactly when some keyed field with a null value is reached before its key is held, by Data or by an earlier keyed field. |
| Configuration.LoadAgainAddsNothing | Runtime/Configuration/ScriptableObjectConfigurationProvider.cs:35-39 | When every key is already present, Load adds nothing. |
| Configuration.LoadIdempotent | Runtime/Configuration/ScriptableObjectConfigurationProvider.cs:27-43 | A second Load adds and overwrites nothing. |
| Configuration.DisableFileSourcesReloadOnChange | Runtime/Internals/Extensions/ConfigurationBuilderExtensions.cs:14-21 | Same length and order. File sources lose reload-on-change and nothing else; other sources are untouched. |
| Configuration.DisableReloadIdempotent | Runtime/Internals/Extensions/ConfigurationBuilderExtensions.cs:16-20 | Afterwards no file source reloads on change, and applying it twice equals once. |
| Lookup.NewServicesLookup | Packages/com.blacksmallriver.generic-host-unity/Runtime/Internals/ServicesLookup.cs:32-39 | One description per descriptor, in order, copying the service type, implementation type and lifetime. |
| Lookup.GetDescriptions | Packages/com.blacksmallriver.generic-host-unity/Runtime/Internals/ServicesLookup.cs:30 | Only descriptions of the type, every one of them, as many as registered. |
| Lookup.GetDescriptionsKeepsOrder | Packages/com.blacksmallriver.generic-host-unity/Runtime/Internals/ServicesLookup.cs:30 | Filtering a concatenation concatenates the filtered parts, so order is kept. |
| Lookup.GetDescriptionsDescribesRegistered | Packages/com.blacksmallriver.generic-host-unity/Runtime/Internals/ServicesLookup.cs:29-38 | Filtering the lookup equals describing the descriptors registered for that type. |
| Lookup.CountsAddUp | Packages/com.blacksmallriver.generic-host-unity/Runtime/Internals/ServicesLookup.cs:29-30 | Descriptions of a type plus the others number the whole lookup. |
| Logging.IsEnabled | Packages/com.blacksmallriver.generic-host-unity/Runtime/Logging/UnityLogger.cs:27 | Every level is enabled. |
| Logging.LogMessage | Packages/com.blacksmallriver.generic-host-unity/Runtime/Logging/UnityLogger.cs:33-83 | A nonzero configured event id drops other ids, before the level is looked at. None writes nothing, and an unknown level throws ArgumentOutOfRangeException. Information, Debug and Trace go to Log, Warning to LogWarning, Error and Critical to LogError. The text is "<color=C>TAG [name] - msg</color>". |
| Logging.TagsAndColours | Packages/com.blacksmallriver.generic-host-unity/Runtime/Logging/UnityLogger.cs:48-77 | INFO green, DEBUG white, TRACE gray, WARN yellow, ERROR red, FATAL purple. |
| Logging.FormatIdentifiesLevel | Packages/com.blacksmallriver.generic-host-unity/Runtime/Logging/UnityLogger.cs:50-75 | Two levels never produce the same line. |
| Logging.UnfilteredLoggerWritesEveryLevel | Packages/com.blacksmallriver.generic-host-unity/Runtime/Logging/UnityLogger.cs:43-44 | With event id 0, every level from Trace to Critical writes a line. |
| Logging.NewProvider | Packages/com.blacksmallriver.generic-host-unity/Runtime/Logging/UnityLoggerProvider.cs:14-18 | Starts from the current configuration, with an empty cache, following changes. |
| Logging.CreateLogger | Packages/com.blacksmallriver.generic-host-unity/Runtime/Logging/UnityLoggerProvider.cs:20 | A cached category returns its logger unchanged. A new one gets a logger with the current configuration, added to the cache. A null category throws. |
| Logging.OnChange | Packages/com.blacksmallriver.generic-host-unity/Runtime/Logging/UnityLoggerProvider.cs:17 | Only the current configuration changes, and only while subscribed. |
| Logging.Dispose | Packages/com.blacksmallriver.generic-host-unity/Runtime/Logging/UnityLoggerProvider.cs:22-26 | The cache is emptied and changes are no longer followed. |
| Logging.CreateLoggerTwiceSame | Packages/com.blacksmallriver.generic-host-unity/Runtime/Logging/UnityLoggerProvider.cs:20 | Asking twice for one category gives the same logger and provider. |
| Logging.ChangeReachesOnlyNewLoggers | Packages/com.blacksmallriver.generic-host-unity/Runtime/Logging/UnityLoggerProvider.cs:17-20 | After a change, a cached logger keeps its old configuration, while a new category gets the new one. |
| Logging.DisposeForgetsLoggers | Packages/com.blacksmallriver.generic-host-unity/Runtime/Logging/UnityLoggerProvider.cs:22-26 | After Dispose, a logger is created afresh with the configuration of disposal time, and later changes are ignored. |

## Left out

- Unity engine calls: GameObject creation, AddComponent, Instantiate, Resources.Load, DontDestroyOnLoad, coroutines and Application.quitting appear only as effects in a trace. Whether a prefab loads is a parameter.
- The dependency-injection container: resolution is a map look-up. Singleton caching, scope lifetimes and TryAddEnumerable beyond the hosted wrapper are not modelled.
- Reflection into the host builder's private members (`UnityHostBuilder.cs` of the cmdexecutor package, lines 199-214): only the build order it drives is modelled.
- Async and timing: UniTask/Task awaits are sequential steps and cancellation tokens are booleans. The start and graceful-shutdown timeouts, linked tokens and `Debugger.IsAttached` filters are not modelled.
- `UnityLifetime.cs`: its blocking waits and event plumbing are concurrency; the lifetime's wait and stop outcomes are parameters.
- File and JSON I/O: `GlobalSettings` Load/Save and the global-settings configuration sources.
- `BeforeLoad` and `BeforeSave`: they default to the identity on the JSON text, which only the left-out Load/Save use.
- Library wrappers: the default-builder glue in both `UnityHost.cs` files, the logging glue in `UnityLoggerExtensions` and `HostingLoggerExtensions`, and the ScriptableObject configuration source files.
- The Type-level `TryGetInjectionMethod` used by the newer builders is not part of this model. It is assumed to apply the same filter as `Runtime/Internals/Reflection.cs`.
- Reflection.TryGetInjectionMethod: reflection's method order is taken as a given sequence.
- Configuration.ChildSegments: ordinal-ignore-case comparison folds ASCII letters only. Non-ASCII upper-casing is not modelled.
- Configuration.SortKeys: `OrderBy` with `ConfigurationKeyComparer` is a stable insertion sort over a comparer given as a total preorder. Sortedness and permutation are proved; stability is not stated.
- Configuration.Set: `Convert.ChangeType` is a parameter; which inputs it rejects, and with which exception, is not modelled.
- Configuration.Load: field values are their string forms, and the declared-instance-field filter of the constructor is taken as the given field list. Keys are compared ignoring case by folding ASCII letters only, whereas OrdinalIgnoreCase also folds non-ASCII letters ("ä" and "Ä"); two keys differing only there count as distinct here.
- Configuration.LoadFirstKeyWins: keys are compared by folding ASCII letters only, as for Load.
- Configuration.FirstKeyWins: keys are compared by folding ASCII letters only, as for Load.
- Configuration.LoadThrowsExactly: "held ignoring case" folds ASCII letters only, as for Load.
- Configuration.LoadAgainAddsNothing: "present ignoring case" folds ASCII letters only, as for Load.
- Configuration.LoadIdempotent: keys are matched folding ASCII letters only, as for Load.
- Configuration.EqualsIgnoreCaseIsUpperEquality: the upper-casing it is compared with is ASCII-only too, so non-ASCII case pairs are not equal here.
- Configuration.StartsWithIgnoresCase: re-casing covers ASCII letters only.
- Configuration.GetChildKeys: the prefix match folds ASCII letters only, as for ChildSegments.
- Logging.LogMessage: the formatter's output is a parameter. `UnityLoggerConfiguration.LogLevels` is not read by the logger and is not modelled.
- Logging.Dispose: the change subscription is a flag.
- HostManagement.DoStartHost: the start is fired without being awaited, so its outcome is not modelled.
- HostManagement.DoBuildHost: where a fresh build fails is a parameter, and the `ServicesLookup` delegate is an effect without its descriptor. Re-entrant calls from listeners are not modelled. After a second host is built, the first host's tokens keep their callbacks; the model tracks only the hooked host's tokens.
- HostManagement.OnApplicationQuitting: the graceful-shutdown timeout token is not modelled.
- Hosting.NewMonoHost: a null `Options.Value` is folded into the options-missing case.
- Hosting.Start: logging calls are not modelled; what resolving the hosted services answers, the services or the exception, is a parameter.
- HostBuilding.ParseIntNone: .NET's acceptance of trailing NUL characters in `int.TryParse` is not modelled.
- HostBuilding.UnityBuild: the blacksmallriver package builds through the library's `HostBuilder.Build`. Its defaults are a parameter, like the cmdexecutor package's Unity defaults.
- HostBuilding.AddHostedServiceExt: the root package's `AddHostedService` is taken to register the same pair.
- Activation.Obtain: a destroyed Unity object is treated like null (`Missing`).
- Activation.InjectServices: a destroyed but non-null target is treated like null, although the source throws only for a real null.
- HostBuilding.BuildInternal: only the default service-provider factory is modelled, whose container builder is the service collection itself. Custom factories are not modelled.
- HostBuilding.ConfigurationValue: the built configuration is a flat list of entries in provider order, a later one overriding an earlier one. Providers and sections are not modelled. Keys are matched folding ASCII letters only, whereas the configuration's OrdinalIgnoreCase look-up also folds non-ASCII letters.
- HostBuilding.ConfigurationValueIgnoresCase: "equal ignoring case" folds ASCII letters only, as for ConfigurationValue.
- HostBuilding.ConfiguredTimeout: the key is matched folding ASCII letters only, as for ConfigurationValue.
- HostBuilding.UnityDefaults: `AddOptions` and `AddLogging` are abbreviated to the HostOptions callback and one logger-factory registration.
- LegacyHostManagement.LegacyStartHost: the private synchronous start has no caller in its revision; it is modelled for completeness.

## Findings

| source | as written | input that shows it | evidently intended | confidence | as-written member | corrected member |
|---|---|---|---|---|---|---|
| Packages/com.blacksmallriver.generic-host-unity/Runtime/Internals/MonoHostBuilder.cs:42-54 | `Build` never reads the delegates stored by `ConfigureUnityObjects` | a fresh builder, `ConfigureUnityObjects(b => b.AddMonoBehaviourSingleton<T>())`, then `Build` | the stored delegates add their verbs to the collection builder before its actions run | high, not executed | HostBuilding.MonoBuildAsWritten (MonoDelegatesIgnoredAsWritten, MonoSingletonNeverRegisteredAsWritten) | HostBuilding.MonoBuild (MonoBuildRunsDelegates, MonoSingletonRegistered) |
| Packages/com.cmdexecutor.dotnet-generic-host/Runtime/Extensions/HostBuilderExtensions.cs:93-103 | the "already used" guard reads a property key that only the app-configuration callback writes, during the build | `UseGlobalSettings<A>()` then `UseGlobalSettings<B>()` on an unbuilt builder: neither throws | the second call throws InvalidOperationException | medium, not executed | HostBuilding.UseGlobalSettingsAsWritten (UseGlobalSettingsTwiceAcceptedAsWritten) | HostBuilding.UseGlobalSettings (UseGlobalSettingsOnce, UseGlobalSettingsRegistersSettings) |
| Runtime/Internals/UnityObjectServiceCollectionBuilder.cs:178 | `InjectServices(component, …)` on the result of `ScriptableObject.CreateInstance`, typed ScriptableObject, so the generic overload searches ScriptableObject for the injection method | `AddScriptableObjectSingleton<Palette>()` where Palette declares `AwakeServices(ILogger)` | the created type (`typeof(T)`) is searched, so AwakeServices is called | medium, not executed | LegacyRegistration.LegacyPlanAsWritten (ScriptableObjectNeverInjectedAsWritten, PaletteIsNotInjectedAsWritten) | LegacyRegistration.LegacyPlan (ScriptableObjectInjectedWhenDeclared), used by LegacyRegistration.RunLegacy when corrected (LegacyCorrectionOnlyChangesScriptableObjects) |
| Packages/com.cmdexecutor.dotnet-generic-host/Runtime/Internals/UnityObjectsConfigurator.cs:223 | `InjectServices(scriptableObject, …)` with the parameter typed ScriptableObject, so the object's own type is never searched | `AddScriptableObjectSingleton(palette, typeof(Palette))` where Palette declares `AwakeServices(ILogger)` | the object's runtime type is searched | medium, not executed | Registration.PlanOfAsWritten (UntypedScriptableObjectNeverInjectedAsWritten) | Registration.PlanOf (UntypedScriptableObjectInjectedWhenDeclared), used by Registration.Configure when corrected (ConfiguredScriptableObjectInjection) |

=== FILE: activation.dfy ===
/**
 * Service descriptors and what one resolution of a registered factory does.
 *
 * Every registration verb ends in a factory closure of the shape
 *   obtain the component; [disable it]; inject services; [hook the stopping
 *   signal; [DontDestroyOnLoad]]; [enable it]; return it
 * so a factory is described here by a first-order `Plan`, and running it
 * against a container yields the trace of engine effects it causes together
 * with the component it returns or the exception it throws.
 */
module Activation {
  import opened Common
  import Reflection

  /** Where an instantiated prefab copy is parented. */
  datatype PrefabParent = UnderHostRoot | Unparented | UnderScopeRoot

  /** Where the component a factory returns comes from. */
  datatype Source =
    | Given(component: ObjRef)                                // an instance handed to the verb
    | OnContextRoot(componentType: TypeName)                  // GetHostRoot(context).AddComponent<T>()
    | OnContainerRoot(componentType: TypeName)                // GetRequiredService<IMonoBehaviourHostRoot>().AddComponent<T>()
    | OnNewGameObject(objectName: string, componentType: TypeName)
    | FromPrefab(componentType: TypeName, prefabLoaded: bool, parent: PrefabParent)
    | NewScriptableObject(componentType: TypeName)            // ScriptableObject.CreateInstance(type)

  /** The steps one factory resolution performs. */
  datatype Plan = Plan(
    source: Source,
    injectType: TypeName,          // the type whose declared methods are searched
    injectionMethodName: string,
    holdDisabled: bool,            // enabled = false before setup, = true after it
    lifetimeHook: bool,            // SetupLifetime is called
    dontDestroyOnLoad: bool)       // SetupLifetime(..., dontDestroyOnLoad: true)

  /** A setting applied through `services.Configure<TOptions>(...)`. */
  datatype OptionSetting =
    | SuppressStatusMessages(suppress: bool)        // ConsoleLifetimeOptions
    | ShutdownTimeoutFrom(configured: Option<string>) // HostOptions from "shutdownTimeoutSeconds"

  /** How a descriptor produces its service. */
  datatype Body =
    | ByType(implementationType: TypeName)
    | ByFactory(plan: Plan)                 // a factory of this project
    | ByOpaqueFactory(what: string)         // a library factory the model does not look into
    | ByInstance(what: string)
    | ConfigureOptions(setting: OptionSetting)

  /** Microsoft.Extensions.DependencyInjection.ServiceDescriptor. */
  datatype Descriptor = Descriptor(serviceType: TypeName, body: Body, lifetime: Lifetime) {
    /** `ServiceDescriptor.ImplementationType`: set only for type registrations. */
    function ImplementationType(): Option<TypeName> {
      if body.ByType? then Some(body.implementationType) else None
    }
  }

  /** Engine effects a factory resolution causes, in order. */
  datatype Effect =
    | CreateGameObject(objectName: string)
    | AddComponentToHostRoot(rootId: nat, componentType: TypeName)
    | AddComponentToNewObject(componentType: TypeName)
    | InstantiatePrefab(componentType: TypeName, parent: PrefabTarget)
    | CreateScriptableObject(componentType: TypeName)
    | Resolve(serviceType: TypeName)                  // a container lookup
    | Invoke(methodName: string, args: seq<nat>)      // the injection method, once
    | SetEnabled(enabled: bool)
    | RegisterStoppingHook
    | MarkDontDestroyOnLoad
    | StopAllCoroutines
    | CancelInvoke

  datatype PrefabTarget = AtHostRoot(rootId: nat) | AtSceneRoot | AtScopeRoot(scopeRootId: nat)

  /**
   * What a resolution sees: the container (service type to the id of the
   * object it resolves to), the declared methods of each type, the builder
   * context's property bag, and the id Unity gives a new component.
   */
  datatype Env = Env(
    services: map<TypeName, nat>,
    declaredMethods: map<TypeName, seq<Reflection.MethodInfo>>,
    contextProperties: map<string, PropValue>,
    created: nat)

  /** The trace of one resolution and the component it returns or the exception it throws. */
  datatype Activation = Activation(trace: seq<Effect>, result: Result<ObjRef>)

  /** A step of a resolution: its effects and its outcome. */
  datatype Step<T> = Step(effects: seq<Effect>, outcome: Result<T>)

  /** Key of the host root in the builder context's property bag (`Constants.MonoBehaviourHostRootInstanceKey`). */
  const HostRootKey: string := "MonoBehaviourHostRootInstance"
  const HostApplicationLifetimeType: TypeName := "IHostApplicationLifetime"
  const HostRootServiceType: TypeName := "IMonoBehaviourHostRoot"
  const ScopeRootType: TypeName := "ScopeRoot"
  const NoServiceMessage: string := "No service for type"

  /** `GetHostRoot`: the host root in the context's property bag, or ArgumentException. */
  function GetHostRoot(props: map<string, PropValue>): (r: Result<nat>)
    ensures r.Ok? <==> HostRootKey in props && props[HostRootKey].HostRootValue?
    ensures r.Ok? ==> r.value == props[HostRootKey].rootId
    ensures r.Err? ==> r.error.Argument?
  {
    if HostRootKey in props && props[HostRootKey].HostRootValue? then Ok(props[HostRootKey].rootId)
    else Err(Argument("HostBuilderContext does not contain IMonoBehaviourHostRoot"))
  }

  /** `GetRequiredService`: the resolved object, or InvalidOperationException. */
  function RequiredService(services: map<TypeName, nat>, t: TypeName): (r: Step<nat>)
    ensures r.effects == [Resolve(t)]
    ensures r.outcome.Ok? <==> t in services
    ensures r.outcome.Ok? ==> r.outcome.value == services[t]
  {
    Step([Resolve(t)], if t in services then Ok(services[t]) else Err(InvalidOperation(NoServiceMessage)))
  }

  /** `effects` is one `Resolve` per type of a prefix of `types`, in order. */
  predicate ResolvesPrefix(effects: seq<Effect>, types: seq<TypeName>) {
    && |effects| <= |types|
    && forall j :: 0 <= j < |effects| ==> effects[j] == Resolve(types[j])
  }

  /**
   * The loop of `InjectServices`: each parameter type resolved through
   * GetRequiredService in declaration order; the first missing service ends
   * the loop with its exception.
   */
  function ResolveAll(services: map<TypeName, nat>, types: seq<TypeName>): (r: Step<seq<nat>>)
    ensures ResolvesPrefix(r.effects, types)
    ensures r.outcome.Ok? <==> forall k :: 0 <= k < |types| ==> types[k] in services
    ensures r.outcome.Ok? ==> |r.effects| == |types|
    ensures r.outcome.Ok? ==>
      |r.outcome.value| == |types| && forall k :: 0 <= k < |types| ==> r.outcome.value[k] == services[types[k]]
    ensures r.outcome.Err? ==>
      && 0 < |r.effects|
      && types[|r.effects| - 1] !in services
      && (forall k :: 0 <= k < |r.effects| - 1 ==> types[k] in services)
      && r.outcome.error == InvalidOperation(NoServiceMessage)
  {
    if |types| == 0 then Step([], Ok([]))
    else if types[0] !in services then Step([Resolve(types[0])], Err(InvalidOperation(NoServiceMessage)))
    else
      var rest := ResolveAll(services, types[1..]);
      var effects := [Resolve(types[0])] + rest.effects;
      if rest.outcome.Err? then Step(effects, rest.outcome)
      else Step(effects, Ok([services[types[0]]] + rest.outcome.value))
  }

  /** The declared methods reflection reports for a type (none for a type it knows nothing of). */
  function MethodsOf(env: Env, t: TypeName): seq<Reflection.MethodInfo> {
    if t in env.declaredMethods then env.declaredMethods[t] else []
  }

  /** The injection method found for `injectType`, if any. */
  function FindInjection(env: Env, injectType: TypeName, methodName: string): Result<Option<Reflection.InjectMethod>> {
    Reflection.TryGetInjectionMethod(MethodsOf(env, injectType), methodName)
  }

  /** Every service type is registered. */
  predicate AllRegistered(services: map<TypeName, nat>, types: seq<TypeName>) {
    forall k :: 0 <= k < |types| ==> types[k] in services
  }

  /**
   * `InjectServices`: no effect when the type has no injection method;
   * otherwise every parameter type resolved in order and the method invoked
   * once on the component with the resolved instances, in parameter order.
   */
  function InjectServices(env: Env, injectType: TypeName, methodName: string, target: ObjRef): (r: Step<()>)
    ensures FindInjection(env, injectType, methodName) == Ok(None) ==> r == Step([], Ok(()))
    ensures FindInjection(env, injectType, methodName).Err? ==>
      r == Step([], Err(NotSupported(Reflection.UnsupportedParameterMessage)))
    ensures FindInjection(env, injectType, methodName).Ok? && FindInjection(env, injectType, methodName).value.Some? ==>
      var inject := FindInjection(env, injectType, methodName).value.value;
      && (r.outcome.Ok? <==> AllRegistered(env.services, inject.types) && target.Live?)
      && (r.outcome.Ok? ==>
            && |r.effects| == |inject.types| + 1
            && ResolvesPrefix(r.effects[..|inject.types|], inject.types)
            && r.effects[|inject.types|].Invoke?
            && r.effects[|inject.types|].methodName == methodName
            && |r.effects[|inject.types|].args| == |inject.types|
            && forall k :: 0 <= k < |inject.types| ==> r.effects[|inject.types|].args[k] == env.services[inject.types[k]])
      && (r.outcome.Err? ==> ResolvesPrefix(r.effects, inject.types))
    ensures forall k :: 0 <= k < |r.effects| ==> r.effects[k].Resolve? || (r.effects[k].Invoke? && k == |r.effects| - 1)
  {
    match FindInjection(env, injectType, methodName)
    case Err(e) => Step([], Err(e))
    case Ok(None) => Step([], Ok(()))
    case Ok(Some(inject)) =>
      var resolved := ResolveAll(env.services, inject.types);
      if resolved.outcome.Err? then Step(resolved.effects, Err(resolved.outcome.error))
      else if target.Missing? then Step(resolved.effects, Err(Target))
      else
        assert resolved.effects == (resolved.effects + [Invoke(inject.info.name, resolved.outcome.value)])[..|inject.types|];
        Step(resolved.effects + [Invoke(inject.info.name, resolved.outcome.value)], Ok(()))
  }

  /**
   * `SetupLifetime`: the stopping hook is registered on the application
   * lifetime, then, for a detached singleton, the object is kept across
   * scene loads.
   */
  function SetupLifetime(env: Env, dontDestroyOnLoad: bool): (r: Step<()>)
    ensures r.outcome.Ok? <==> HostApplicationLifetimeType in env.services
    ensures r.outcome.Ok? ==>
      r.effects == [Resolve(HostApplicationLifetimeType), RegisterStoppingHook]
                   + (if dontDestroyOnLoad then [MarkDontDestroyOnLoad] else [])
    ensures r.outcome.Err? ==> r.effects == [Resolve(HostApplicationLifetimeType)]
  {
    var lifetime := RequiredService(env.services, HostApplicationLifetimeType);
    if lifetime.outcome.Err? then Step(lifetime.effects, Err(lifetime.outcome.error))
    else Step(lifetime.effects + [RegisterStoppingHook] + (if dontDestroyOnLoad then [MarkDontDestroyOnLoad] else []), Ok(()))
  }

  /** The stopping hook: nothing for a destroyed component, otherwise stop its coroutines and pending invokes. */
  function OnStopping(component: ObjRef): (r: seq<Effect>)
    ensures component.Missing? <==> r == []
    ensures component.Live? ==> r == [StopAllCoroutines, CancelInvoke]
  {
    if component.Missing? then [] else [StopAllCoroutines, CancelInvoke]
  }

  /** Effects that only acquire a component or look a service up. */
  predicate Acquires(e: Effect) {
    e.CreateGameObject? || e.AddComponentToHostRoot? || e.AddComponentToNewObject?
    || e.InstantiatePrefab? || e.CreateScriptableObject? || e.Resolve?
  }

  /** Obtaining the component: creating, attaching or instantiating it, or taking the given one. */
  function Obtain(env: Env, source: Source): (r: Step<ObjRef>)
    ensures source.Given? ==> r == Step([], Ok(source.component))
    ensures forall k :: 0 <= k < |r.effects| ==> Acquires(r.effects[k])
    ensures source.FromPrefab? && !source.prefabLoaded ==> r.outcome.Err?
    ensures (source.OnContextRoot? || (source.FromPrefab? && source.parent.UnderHostRoot?)) ==>
      (GetHostRoot(env.contextProperties).Err? ==> r == Step([], Err(GetHostRoot(env.contextProperties).error)))
    ensures r.outcome.Ok? && !source.Given? ==> r.outcome.value == Live(env.created, source.componentType)
  {
    match source
    case Given(c) => Step([], Ok(c))
    case OnContextRoot(t) =>
      (match GetHostRoot(env.contextProperties)
       case Err(e) => Step([], Err(e))
       case Ok(root) => Step([AddComponentToHostRoot(root, t)], Ok(Live(env.created, t))))
    case OnContainerRoot(t) =>
      var root := RequiredService(env.services, HostRootServiceType);
      if root.outcome.Err? then Step(root.effects, Err(root.outcome.error))
      else Step(root.effects + [AddComponentToHostRoot(root.outcome.value, t)], Ok(Live(env.created, t)))
    case OnNewGameObject(n, t) =>
      Step([CreateGameObject(n), AddComponentToNewObject(t)], Ok(Live(env.created, t)))
    case FromPrefab(t, loaded, parent) =>
      (match parent
       case UnderHostRoot =>
         (match GetHostRoot(env.contextProperties)
          case Err(e) => Step([], Err(e))
          case Ok(root) =>
            if !loaded then Step([], Err(NullReference))
            else Step([InstantiatePrefab(t, AtHostRoot(root))], Ok(Live(env.created, t))))
       case Unparented =>
         if !loaded then Step([], Err(NullReference))
         else Step([InstantiatePrefab(t, AtSceneRoot)], Ok(Live(env.created, t)))
       case UnderScopeRoot =>
         // GetService, not GetRequiredService: a missing ScopeRoot is a null dereference
         var scope := Step([Resolve(ScopeRootType)], if ScopeRootType in env.services then Ok(env.services[ScopeRootType]) else Err(NullReference));
         if !loaded || scope.outcome.Err? then Step(scope.effects, Err(NullReference))
         else Step(scope.effects + [InstantiatePrefab(t, AtScopeRoot(scope.outcome.value))], Ok(Live(env.created, t))))
    case NewScriptableObject(t) =>
      Step([CreateScriptableObject(t)], Ok(Live(env.created, t)))
  }

  /** In `trace`, every call of the injection method comes before every registration of the stopping hook. */
  predicate InjectsBeforeHook(trace: seq<Effect>) {
    forall i, j :: 0 <= i < |trace| && 0 <= j < |trace| && trace[i].Invoke? && trace[j] == RegisterStoppingHook ==> i < j
  }

  /** Injection followed, when the plan asks for it, by `SetupLifetime`. */
  function Setup(env: Env, plan: Plan, component: ObjRef): (r: Step<()>)
    ensures r.outcome.Ok? <==>
      && InjectServices(env, plan.injectType, plan.injectionMethodName, component).outcome.Ok?
      && (plan.lifetimeHook ==> HostApplicationLifetimeType in env.services)
    ensures forall k :: 0 <= k < |r.effects| ==> !r.effects[k].SetEnabled?
    ensures InjectsBeforeHook(r.effects)
  {
    var injected := InjectServices(env, plan.injectType, plan.injectionMethodName, component);
    if injected.outcome.Err? || !plan.lifetimeHook then injected
    else
      var hooked := SetupLifetime(env, plan.dontDestroyOnLoad);
      HookAfterInjection(injected.effects, hooked.effects);
      Step(injected.effects + hooked.effects, hooked.outcome)
  }

  lemma HookAfterInjection(a: seq<Effect>, b: seq<Effect>)
    requires forall k :: 0 <= k < |a| ==> a[k] != RegisterStoppingHook
    requires forall k :: 0 <= k < |b| ==> !b[k].Invoke?
    ensures InjectsBeforeHook(a + b)
  {
    var t := a + b;
    assert forall k :: 0 <= k < |a| ==> t[k] == a[k];
    assert forall k :: |a| <= k < |t| ==> t[k] == b[k - |a|];
  }

  /** The setup registers the stopping hook exactly when the plan asks for it, and keeps the object across scene loads only for a detached singleton. */
  lemma SetupHooksIffRequested(env: Env, plan: Plan, component: ObjRef)
    ensures var r := Setup(env, plan, component);
      r.outcome.Ok? ==> (RegisterStoppingHook in r.effects <==> plan.lifetimeHook)
    ensures var r := Setup(env, plan, component);
      MarkDontDestroyOnLoad in r.effects ==> plan.lifetimeHook && plan.dontDestroyOnLoad && r.outcome.Ok?
  {
  }

  /**
   * The trace of a resolution from its parts: the component is obtained,
   * disabled if it is a hosted service, set up, and enabled again.
   */
  function Assemble(obtained: Step<ObjRef>, holdDisabled: bool, setup: Step<()>): Activation {
    if obtained.outcome.Err? then Activation(obtained.effects, Err(obtained.outcome.error))
    else
      var disable := if holdDisabled then [SetEnabled(false)] else [];
      var enable := if holdDisabled && setup.outcome.Ok? then [SetEnabled(true)] else [];
      Activation(obtained.effects + disable + setup.effects + enable,
                 if setup.outcome.Ok? then obtained.outcome else Err(setup.outcome.error))
  }

  /** One resolution of a registered factory. */
  function Activate(env: Env, plan: Plan): (a: Activation)
    ensures a.result.Ok? <==>
      && Obtain(env, plan.source).outcome.Ok?
      && InjectServices(env, plan.injectType, plan.injectionMethodName, Obtain(env, plan.source).outcome.value).outcome.Ok?
      && (plan.lifetimeHook ==> HostApplicationLifetimeType in env.services)
    ensures a.result.Ok? ==> a.result == Obtain(env, plan.source).outcome
    ensures a.result.Err? && Obtain(env, plan.source).outcome.Err? ==> a.result == Obtain(env, plan.source).outcome
  {
    var obtained := Obtain(env, plan.source);
    Assemble(obtained, plan.holdDisabled, Setup(env, plan, if obtained.outcome.Ok? then obtained.outcome.value else Missing))
  }

  /** A hosted component is disabled right after it is obtained, before anything is injected into it. */
  lemma DisabledBeforeInjection(env: Env, plan: Plan)
    requires plan.holdDisabled && Obtain(env, plan.source).outcome.Ok?
    ensures var n := |Obtain(env, plan.source).effects|;
      && n < |Activate(env, plan).trace|
      && Activate(env, plan).trace[n] == SetEnabled(false)
      && forall k :: 0 <= k < n ==> Acquires(Activate(env, plan).trace[k])
  {
  }

  /** It is enabled again only as the last step of a successful resolution: a failure leaves it disabled. */
  lemma EnabledOnlyAtSuccessfulEnd(env: Env, plan: Plan)
    ensures var a := Activate(env, plan);
      forall k :: 0 <= k < |a.trace| && a.trace[k] == SetEnabled(true) ==>
        plan.holdDisabled && a.result.Ok? && k == |a.trace| - 1
    ensures var a := Activate(env, plan);
      plan.holdDisabled && a.result.Ok? ==> a.trace[|a.trace| - 1] == SetEnabled(true)
  {
  }

  /** Effects that neither call the injection method nor register the stopping hook do not disturb their order. */
  lemma FramedInjectsBeforeHook(x: seq<Effect>, y: seq<Effect>, z: seq<Effect>)
    requires forall k :: 0 <= k < |x| ==> !x[k].Invoke? && x[k] != RegisterStoppingHook
    requires forall k :: 0 <= k < |z| ==> !z[k].Invoke? && z[k] != RegisterStoppingHook
    requires InjectsBeforeHook(y)
    ensures InjectsBeforeHook(x + y + z)
  {
    var t := x + y + z;
    assert forall k :: 0 <= k < |x| ==> t[k] == x[k];
    assert forall k :: |x| <= k < |x| + |y| ==> t[k] == y[k - |x|];
    assert forall k :: |x| + |y| <= k < |t| ==> t[k] == z[k - |x| - |y|];
  }

  /** The injection method runs before the stopping hook is registered. */
  lemma InjectionBeforeStoppingHook(env: Env, plan: Plan)
    ensures InjectsBeforeHook(Activate(env, plan).trace)
  {
    var obtained := Obtain(env, plan.source);
    var setup := Setup(env, plan, if obtained.outcome.Ok? then obtained.outcome.value else Missing);
    assert Activate(env, plan) == Assemble(obtained, plan.holdDisabled, setup);
    assert forall k :: 0 <= k < |obtained.effects| ==> Acquires(obtained.effects[k]);
    if obtained.outcome.Err? {
      FramedInjectsBeforeHook(obtained.effects, [], []);
      assert obtained.effects + [] + [] == obtained.effects;
    } else {
      var disable := if plan.holdDisabled then [SetEnabled(false)] else [];
      var enable := if plan.holdDisabled && setup.outcome.Ok? then [SetEnabled(true)] else [];
      FramedInjectsBeforeHook(obtained.effects + disable, setup.effects, enable);
    }
  }

  /** A successful resolution registers the stopping hook exactly when the plan asks for it; DontDestroyOnLoad only for a detached singleton. */
  lemma StoppingHookIffRequested(env: Env, plan: Plan)
    ensures var a := Activate(env, plan);
      a.result.Ok? ==> (RegisterStoppingHook in a.trace <==> plan.lifetimeHook)
    ensures MarkDontDestroyOnLoad in Activate(env, plan).trace ==>
      plan.lifetimeHook && plan.dontDestroyOnLoad && Activate(env, plan).result.Ok?
  {
    var obtained := Obtain(env, plan.source);
    var setup := Setup(env, plan, if obtained.outcome.Ok? then obtained.outcome.value else Missing);
    assert Activate(env, plan) == Assemble(obtained, plan.holdDisabled, setup);
    assert forall k :: 0 <= k < |obtained.effects| ==> Acquires(obtained.effects[k]);
    SetupHooksIffRequested(env, plan, if obtained.outcome.Ok? then obtained.outcome.value else Missing);
  }
}

=== FILE: common.dfy ===
/**
 * Vocabulary shared by every part of the model: optional values, results
 * carrying the .NET exception a member would throw, references to engine
 * objects, and the service lifetimes of the dependency-injection container.
 */
module Common {

  /** The name of a .NET type (`typeof(T)`), compared by equality. */
  type TypeName = string

  datatype Option<+T> = None | Some(value: T)

  /** The exception kinds the modelled code throws or lets propagate. */
  datatype Error =
    | ArgumentNull(param: string)
    | Argument(message: string)
    | ArgumentOutOfRange(param: string)
    | InvalidOperation(message: string)
    | InvalidCast
    | NotSupported(message: string)
    | NullReference
    | OperationCanceled
    | Target                          // MethodInfo.Invoke on a null target
    | Aggregate(inner: seq<Error>)
    | Raised(code: nat)               // thrown by user code or a library the model does not see

  /** Either the value a member returns or the exception it throws. */
  datatype Result<+T> = Ok(value: T) | Err(error: Error) {
    predicate IsFailure() { Err? }
    function PropagateFailure<U>(): Result<U>
      requires Err?
    {
      Err(error)
    }
    function Extract(): T
      requires Ok?
    {
      value
    }
  }

  /**
   * A reference to a Unity object. `Missing` is what Unity's overloaded
   * `!obj` test treats as absent: a null reference or a destroyed object.
   */
  datatype ObjRef = Missing | Live(id: nat, runtimeType: TypeName)

  /** A value stored in the host builder's property bag (`Properties`). */
  datatype PropValue =
    | HostRootValue(rootId: nat)                               // an IMonoBehaviourHostRoot
    | MonoBehaviourBuilderValue(injectionMethodName: string)   // the legacy registration builder
    | GlobalSettingsSourceValue(settingsType: TypeName)        // GlobalSettingsConfigurationSource<T>
    | OtherValue(id: nat)

  /** Microsoft.Extensions.DependencyInjection.ServiceLifetime. */
  datatype Lifetime = Singleton | Scoped | Transient

  /** `char.IsWhiteSpace`: the Unicode space separators, line and paragraph separators, and U+0009-U+000D, U+0085. */
  predicate IsWhiteSpace(c: char) {
    || ('\U{0009}' <= c <= '\U{000D}') || c == ' ' || c == '\U{0085}' || c == '\U{00A0}' || c == '\U{1680}'
    || ('\U{2000}' <= c <= '\U{200A}') || c == '\U{2028}' || c == '\U{2029}' || c == '\U{202F}' || c == '\U{205F}'
    || c == '\U{3000}'
  }

  /** `string.IsNullOrWhiteSpace`; `None` is the null string. */
  predicate IsNullOrWhiteSpace(s: Option<string>) {
    s.None? || forall i :: 0 <= i < |s.value| ==> IsWhiteSpace(s.value[i])
  }

  /** `int.MaxValue` of the CLR. */
  const IntMax: int := 0x7FFF_FFFF
}

=== FILE: configuration.dfy ===
/**
 * Configuration helpers: the `AppSettings` configuration provider over a
 * settings object's properties, the ScriptableObject configuration
 * provider, and the switch that turns off reload-on-change for file sources.
 *
 * Property and field values are held in their string form (`None` is
 * null); the configuration key comparer and `Convert.ChangeType` are
 * parameters.
 */
module Configuration {
  import opened Common

  const KeyDelimiter: char := ':'

  // ---------------------------------------------------------------- ordinal case-insensitive comparison

  /** Ordinal upper-casing, for the ASCII letters. */
  function FoldCase(c: char): char {
    if 'a' <= c <= 'z' then ((c as int) - 32) as char else c
  }

  predicate EqualsIgnoreCase(a: string, b: string) {
    |a| == |b| && forall i :: 0 <= i < |a| ==> FoldCase(a[i]) == FoldCase(b[i])
  }

  predicate StartsWithIgnoreCase(s: string, prefix: string) {
    |prefix| <= |s| && EqualsIgnoreCase(s[..|prefix|], prefix)
  }

  lemma StartsWithIgnoreCaseExact(prefix: string, rest: string)
    ensures StartsWithIgnoreCase(prefix + rest, prefix)
  {
    assert (prefix + rest)[..|prefix|] == prefix;
  }

  /** Ordinal upper-casing of a whole string: the independent reading of the comparison. */
  function ToUpper(s: string): (r: string)
    ensures |r| == |s| && forall i :: 0 <= i < |s| ==> r[i] == FoldCase(s[i])
  {
    seq(|s|, i requires 0 <= i < |s| => FoldCase(s[i]))
  }

  /** Two strings are equal without regard to case exactly when their upper-cased forms are equal. */
  lemma EqualsIgnoreCaseIsUpperEquality(a: string, b: string)
    ensures EqualsIgnoreCase(a, b) <==> ToUpper(a) == ToUpper(b)
  {
    if ToUpper(a) == ToUpper(b) {
      forall i | 0 <= i < |a| ensures FoldCase(a[i]) == FoldCase(b[i]) {
        assert ToUpper(a)[i] == ToUpper(b)[i];
      }
    }
  }

  /** A letter and its other case fold to the same character; nothing else folds onto a lower-case letter. */
  lemma FoldCaseMatchesLetters(c: char)
    ensures 'a' <= c <= 'z' ==> FoldCase(c) == FoldCase(((c as int) - 32) as char)
    ensures !('a' <= FoldCase(c) <= 'z')
  {
  }

  /** Comparing without case is an equivalence, so keys group into classes. */
  lemma IgnoreCaseIsEquivalence(a: string, b: string, c: string)
    ensures EqualsIgnoreCase(a, a)
    ensures EqualsIgnoreCase(a, b) ==> EqualsIgnoreCase(b, a)
    ensures EqualsIgnoreCase(a, b) && EqualsIgnoreCase(b, c) ==> EqualsIgnoreCase(a, c)
  {
    EqualsIgnoreCaseIsUpperEquality(a, b);
    EqualsIgnoreCaseIsUpperEquality(b, a);
    EqualsIgnoreCaseIsUpperEquality(b, c);
    EqualsIgnoreCaseIsUpperEquality(a, c);
    EqualsIgnoreCaseIsUpperEquality(a, a);
  }

  /** Prefix matching does not see case on either side: re-casing the key or the prefix keeps the answer. */
  lemma StartsWithIgnoresCase(s: string, t: string, p: string, q: string)
    requires EqualsIgnoreCase(s, t) && EqualsIgnoreCase(p, q)
    ensures StartsWithIgnoreCase(s, p) <==> StartsWithIgnoreCase(t, q)
  {
    if |p| <= |s| {
      assert EqualsIgnoreCase(s[..|p|], t[..|q|]) by {
        forall i | 0 <= i < |p| ensures FoldCase(s[..|p|][i]) == FoldCase(t[..|q|][i]) {
          assert s[..|p|][i] == s[i] && t[..|q|][i] == t[i];
        }
      }
      IgnoreCaseIsEquivalence(s[..|p|], t[..|q|], q);
      IgnoreCaseIsEquivalence(s[..|p|], p, q);
      IgnoreCaseIsEquivalence(t[..|q|], s[..|p|], p);
      IgnoreCaseIsEquivalence(p, q, q);
    }
  }

  // ---------------------------------------------------------------- AppSettings

  /**
   * An instance property of the settings class, with its value's string form.
   * The constructor's binding flags filter on neither accessor, so get-only
   * and set-only properties are listed too; `readable` and `writable` say
   * whether it has a get and a set method.
   */
  datatype Property = Property(name: string, propertyType: TypeName, readable: bool, writable: bool, value: Option<string>)

  /** What `PropertyInfo.SetValue` throws for a property without a set method. */
  const SetMethodNotFound: string := "Property set method not found."

  /** What `PropertyInfo.GetValue` throws for a property without a get method. */
  const GetMethodNotFound: string := "Property get method not found."

  datatype AppSettings = AppSettings(typeName: TypeName, properties: seq<Property>)

  predicate UniqueNames(ps: seq<Property>) {
    forall i, j :: 0 <= i < j < |ps| ==> ps[i].name != ps[j].name
  }

  /** The position of the property named `key`, if there is one. */
  function IndexOf(ps: seq<Property>, key: string): (r: Option<nat>)
    ensures r.Some? ==> r.value < |ps| && ps[r.value].name == key
    ensures r.None? <==> forall i :: 0 <= i < |ps| ==> ps[i].name != key
    decreases |ps|
  {
    if |ps| == 0 then None
    else if ps[0].name == key then Some(0)
    else match IndexOf(ps[1..], key) case None => None case Some(i) => Some(i + 1)
  }

  /**
   * The constructor's property map: one entry per property name; two
   * properties with one name (a hiding property, say) make it throw.
   */
  function NewAppSettings(typeName: TypeName, ps: seq<Property>): (r: Result<AppSettings>)
    ensures r.Ok? <==> UniqueNames(ps)
    ensures r.Err? ==> r.error.Argument?
    ensures r.Ok? ==> r.value.properties == ps && r.value.typeName == typeName
  {
    if UniqueNames(ps) then Ok(AppSettings(typeName, ps))
    else Err(Argument("An item with the same key has already been added."))
  }

  /**
   * `TryGet`: an unknown key answers false; a property without a get method
   * makes `GetValue` throw; otherwise the value's string form, exactly when
   * the value is not null.
   */
  function TryGet(s: AppSettings, key: string): (r: Result<Option<string>>)
    ensures r.Err? <==> IndexOf(s.properties, key).Some? && !s.properties[IndexOf(s.properties, key).value].readable
    ensures r.Err? ==> r.error == Argument(GetMethodNotFound)
    ensures UniqueNames(s.properties) ==>
      (r.Ok? && r.value.Some? <==>
        exists i :: 0 <= i < |s.properties| && s.properties[i].name == key && s.properties[i].readable && s.properties[i].value.Some?)
    ensures r.Ok? && r.value.Some? ==>
      IndexOf(s.properties, key).Some? && r.value == s.properties[IndexOf(s.properties, key).value].value
  {
    match IndexOf(s.properties, key)
    case None => Ok(None)
    case Some(i) => if !s.properties[i].readable then Err(Argument(GetMethodNotFound)) else Ok(s.properties[i].value)
  }

  /**
   * `Set`: an unknown key changes nothing. Otherwise the value is converted
   * to the property's type (`convert` stands for `Convert.ChangeType`, and
   * whatever it throws, an InvalidCastException, a FormatException or an
   * OverflowException, comes out unchanged); a property without a set method
   * then makes `SetValue` throw; otherwise the converted value is stored.
   */
  function Set(s: AppSettings, key: string, value: Option<string>,
               convert: (Option<string>, TypeName) -> Result<Option<string>>): (r: Result<AppSettings>)
    ensures IndexOf(s.properties, key).None? ==> r == Ok(s)
    ensures IndexOf(s.properties, key).Some? ==>
      var i := IndexOf(s.properties, key).value;
      var converted := convert(value, s.properties[i].propertyType);
      && (r.Ok? <==> converted.Ok? && s.properties[i].writable)
      && (converted.Err? ==> r == Err(converted.error))
      && (converted.Ok? && !s.properties[i].writable ==> r == Err(Argument(SetMethodNotFound)))
      && (r.Ok? ==> r.value.typeName == s.typeName
                    && |r.value.properties| == |s.properties|
                    && r.value.properties[i] == s.properties[i].(value := converted.value)
                    && forall j :: 0 <= j < |s.properties| && j != i ==> r.value.properties[j] == s.properties[j])
  {
    match IndexOf(s.properties, key)
    case None => Ok(s)
    case Some(i) =>
      var p := s.properties[i];
      var v :- convert(value, p.propertyType);
      if !p.writable then Err(Argument(SetMethodNotFound))
      else Ok(s.(properties := s.properties[i := p.(value := v)]))
  }

  /** What `Set` stores, `TryGet` reads back when the property has a get method, and no other key's answer moves. */
  lemma SetThenTryGet(s: AppSettings, key: string, value: Option<string>,
                      convert: (Option<string>, TypeName) -> Result<Option<string>>, other: string)
    requires UniqueNames(s.properties)
    requires Set(s, key, value, convert).Ok?
    ensures var t := Set(s, key, value, convert).value;
      && UniqueNames(t.properties)
      && (IndexOf(s.properties, key).Some? && s.properties[IndexOf(s.properties, key).value].readable ==>
            TryGet(t, key) == Ok(convert(value, s.properties[IndexOf(s.properties, key).value].propertyType).value))
      && (IndexOf(s.properties, key).Some? && !s.properties[IndexOf(s.properties, key).value].readable ==>
            TryGet(t, key) == Err(Argument(GetMethodNotFound)))
      && (other != key ==> TryGet(t, other) == TryGet(s, other))
  {
    var t := Set(s, key, value, convert).value;
    assert forall j :: 0 <= j < |t.properties| ==> t.properties[j].name == s.properties[j].name;
    match IndexOf(s.properties, key)
    case None =>
    case Some(i) =>
      assert IndexOf(t.properties, key) == Some(i) by {
        UniqueIndex(t.properties, key, i);
      }
      match IndexOf(s.properties, other)
      case None =>
        assert IndexOf(t.properties, other).None?;
      case Some(k) =>
        UniqueIndex(t.properties, other, k);
  }

  lemma UniqueIndex(ps: seq<Property>, key: string, i: nat)
    requires UniqueNames(ps) && i < |ps| && ps[i].name == key
    ensures IndexOf(ps, key) == Some(i)
  {
  }

  // ---------------------------------------------------------------- child keys

  /** The prefix of the children of `parentPath`: empty at the root, else the path and the delimiter. */
  function ChildPrefix(parentPath: Option<string>): (r: string)
    ensures parentPath.None? ==> r == ""
    ensures parentPath.Some? ==> r == parentPath.value + [KeyDelimiter]
  {
    if parentPath.None? then "" else parentPath.value + [KeyDelimiter]
  }

  /** The first delimiter at or after `from`, or `|key|` when there is none. */
  function DelimiterFrom(key: string, from: nat): (j: nat)
    requires from <= |key|
    ensures from <= j <= |key|
    ensures j < |key| ==> key[j] == KeyDelimiter
    ensures forall k :: from <= k < j ==> key[k] != KeyDelimiter
    decreases |key| - from
  {
    if from == |key| || key[from] == KeyDelimiter then from else DelimiterFrom(key, from + 1)
  }

  /** `Segment`: the text from the end of the prefix up to, not including, the next delimiter. */
  function Segment(key: string, prefixLength: nat): (r: string)
    requires prefixLength <= |key|
    ensures KeyDelimiter !in r
    ensures prefixLength + |r| <= |key| && r == key[prefixLength..prefixLength + |r|]
    ensures prefixLength + |r| == |key| || key[prefixLength + |r|] == KeyDelimiter
  {
    var j := DelimiterFrom(key, prefixLength);
    key[prefixLength..j]
  }

  /** A child key followed by nothing or by a deeper path segments back to itself. */
  lemma SegmentOfChild(prefix: string, child: string, rest: string)
    requires KeyDelimiter !in child
    requires rest == [] || rest[0] == KeyDelimiter
    ensures Segment(prefix + child + rest, |prefix|) == child
  {
    var key := prefix + child + rest;
    var j := DelimiterFrom(key, |prefix|);
    forall k | |prefix| <= k < |prefix| + |child| ensures key[k] != KeyDelimiter {
      assert key[k] == child[k - |prefix|];
    }
    assert j <= |prefix| + |child| by {
      if |rest| > 0 {
        assert key[|prefix| + |child|] == rest[0];
      }
    }
    assert key[|prefix|..|prefix| + |child|] == child;
  }

  /** The segments of the property names that start with the prefix, in property order. */
  function ChildSegments(names: seq<string>, prefix: string): (r: seq<string>)
    ensures forall s :: s in r ==> exists k :: k in names && StartsWithIgnoreCase(k, prefix) && s == Segment(k, |prefix|)
    ensures forall k :: k in names && StartsWithIgnoreCase(k, prefix) ==> Segment(k, |prefix|) in r
    ensures |r| <= |names|
    decreases |names|
  {
    if |names| == 0 then []
    else
      var rest := ChildSegments(names[1..], prefix);
      assert forall k :: k in names[1..] ==> k in names;
      assert forall k :: k in names ==> k == names[0] || k in names[1..];
      if StartsWithIgnoreCase(names[0], prefix) then [Segment(names[0], |prefix|)] + rest else rest
  }

  /**
   * `ChildSegments` keeps multiplicity and order: a list of names gives the
   * segments of its parts one after the other, and one name gives its
   * segment once when it starts with the prefix and nothing otherwise.
   */
  lemma {:induction false} ChildSegmentsAppend(a: seq<string>, b: seq<string>, prefix: string)
    ensures ChildSegments(a + b, prefix) == ChildSegments(a, prefix) + ChildSegments(b, prefix)
    ensures |a| == 1 ==>
      ChildSegments(a, prefix) == if StartsWithIgnoreCase(a[0], prefix) then [Segment(a[0], |prefix|)] else []
    decreases |a|
  {
    if |a| == 0 {
      assert a + b == b;
    } else {
      var head := if StartsWithIgnoreCase(a[0], prefix) then [Segment(a[0], |prefix|)] else [];
      var rest, tail := ChildSegments(a[1..], prefix), ChildSegments(b, prefix);
      assert (a + b)[1..] == a[1..] + b;
      ChildSegmentsAppend(a[1..], b, prefix);
      ChildSegmentsHead(a + b, prefix);
      ChildSegmentsHead(a, prefix);
      SeqAssoc(head, rest, tail);
      if |a| == 1 {
        assert a[1..] == [];
      }
    }
  }

  lemma SeqAssoc<T>(x: seq<T>, y: seq<T>, z: seq<T>)
    ensures x + (y + z) == (x + y) + z
  {
  }

  lemma ChildSegmentsHead(names: seq<string>, prefix: string)
    requires |names| > 0
    ensures ChildSegments(names, prefix) ==
      (if StartsWithIgnoreCase(names[0], prefix) then [Segment(names[0], |prefix|)] else []) + ChildSegments(names[1..], prefix)
  {
    var rest := ChildSegments(names[1..], prefix);
    if !StartsWithIgnoreCase(names[0], prefix) {
      assert [] + rest == rest;
    }
  }

  /** `le` orders the keys as a comparer does: total and transitive. */
  ghost predicate TotalPreorder(le: (string, string) -> bool) {
    && (forall a, b :: le(a, b) || le(b, a))
    && (forall a, b, c :: le(a, b) && le(b, c) ==> le(a, c))
  }

  predicate Sorted(s: seq<string>, le: (string, string) -> bool) {
    forall i, j :: 0 <= i < j < |s| ==> le(s[i], s[j])
  }

  /** Stable insertion: `x` goes before the first element it does not follow. */
  function Insert(x: string, s: seq<string>, le: (string, string) -> bool): (r: seq<string>)
    requires TotalPreorder(le) && Sorted(s, le)
    ensures Sorted(r, le)
    ensures multiset(r) == multiset(s) + multiset{x}
    decreases |s|
  {
    if |s| == 0 then [x]
    else if le(x, s[0]) then [x] + s
    else
      var rest := Insert(x, s[1..], le);
      assert s == [s[0]] + s[1..];
      assert forall y :: y in rest ==> y == x || y in s[1..] by {
        forall y | y in rest ensures y == x || y in s[1..] {
          assert y in multiset(rest);
        }
      }
      assert forall i :: 0 <= i < |rest| ==> le(s[0], rest[i]) by {
        forall i | 0 <= i < |rest| ensures le(s[0], rest[i]) {
          assert rest[i] in rest;
          if rest[i] != x {
            var k :| 0 <= k < |s[1..]| && s[1..][k] == rest[i];
            assert s[k + 1] == rest[i];
          }
        }
      }
      [s[0]] + rest
  }

  /** `OrderBy` with the key comparer: a stable sort. */
  function SortKeys(s: seq<string>, le: (string, string) -> bool): (r: seq<string>)
    requires TotalPreorder(le)
    ensures Sorted(r, le)
    ensures multiset(r) == multiset(s)
    decreases |s|
  {
    if |s| == 0 then []
    else
      assert s == [s[0]] + s[1..];
      Insert(s[0], SortKeys(s[1..], le), le)
  }

  /**
   * `GetChildKeys`: the segments of the matching property names together
   * with the earlier keys, sorted by the key comparer; duplicates are kept.
   */
  function GetChildKeys(s: AppSettings, earlierKeys: seq<string>, parentPath: Option<string>, le: (string, string) -> bool): (r: seq<string>)
    requires TotalPreorder(le)
    ensures Sorted(r, le)
    ensures multiset(r) == multiset(ChildSegments(Names(s.properties), ChildPrefix(parentPath)) + earlierKeys)
  {
    SortKeys(ChildSegments(Names(s.properties), ChildPrefix(parentPath)) + earlierKeys, le)
  }

  function Names(ps: seq<Property>): (r: seq<string>)
    ensures |r| == |ps| && forall i :: 0 <= i < |ps| ==> r[i] == ps[i].name
  {
    seq(|ps|, i requires 0 <= i < |ps| => ps[i].name)
  }

  /** A property under the parent contributes its own child segment; one elsewhere contributes nothing. */
  lemma ChildKeyOfProperty(s: AppSettings, parent: string, child: string, rest: string, le: (string, string) -> bool)
    requires TotalPreorder(le)
    requires KeyDelimiter !in child && (rest == [] || rest[0] == KeyDelimiter)
    requires parent + [KeyDelimiter] + child + rest in Names(s.properties)
    ensures child in GetChildKeys(s, [], Some(parent), le)
  {
    var prefix := ChildPrefix(Some(parent));
    var key := prefix + child + rest;
    StartsWithIgnoreCaseExact(prefix, child + rest);
    assert key == prefix + (child + rest);
    SegmentOfChild(prefix, child, rest);
    var r := GetChildKeys(s, [], Some(parent), le);
    assert child in ChildSegments(Names(s.properties), prefix);
    assert child in multiset(r);
  }

  // ---------------------------------------------------------------- reload token

  /**
   * The provider's reload token: the current one, the ones fired so far in
   * order, the callbacks registered on the current one, and the callbacks
   * run so far in order.
   */
  datatype ReloadTokens = ReloadTokens(current: nat, fired: seq<nat>, registered: seq<nat>, notified: seq<nat>)

  predicate FreshTokens(t: ReloadTokens) {
    forall i :: 0 <= i < |t.fired| ==> t.fired[i] < t.current
  }

  /** `GetReloadToken().RegisterChangeCallback(callback)`: the callback waits on the current token. */
  function Subscribe(t: ReloadTokens, callback: nat): (r: ReloadTokens)
    ensures r.current == t.current && r.fired == t.fired && r.notified == t.notified
    ensures multiset(r.registered) == multiset(t.registered) + multiset{callback}
  {
    t.(registered := t.registered + [callback])
  }

  /**
   * `OnReload`: a fresh token replaces the current one, and the previous
   * one fires, running every callback registered on it; the fresh token has
   * none yet.
   */
  function OnReload(t: ReloadTokens): (r: ReloadTokens)
    ensures r.fired == t.fired + [t.current]
    ensures r.current != t.current
    ensures FreshTokens(t) ==> r.current !in t.fired && FreshTokens(r)
    ensures r.registered == [] && multiset(r.notified) == multiset(t.notified) + multiset(t.registered)
  {
    ReloadTokens(t.current + 1, t.fired + [t.current], [], t.notified + t.registered)
  }

  /** No token fires twice, however many reloads happen. */
  lemma {:induction false} TokensFireOnce(t: ReloadTokens, n: nat)
    requires FreshTokens(t) && forall i, j :: 0 <= i < j < |t.fired| ==> t.fired[i] < t.fired[j]
    ensures var r := Reloads(t, n);
      FreshTokens(r) && forall i, j :: 0 <= i < j < |r.fired| ==> r.fired[i] < r.fired[j]
    decreases n
  {
    if n > 0 {
      var t' := OnReload(t);
      assert forall i, j :: 0 <= i < j < |t'.fired| ==> t'.fired[i] < t'.fired[j] by {
        forall i, j | 0 <= i < j < |t'.fired| ensures t'.fired[i] < t'.fired[j] {
          if j == |t.fired| { assert t'.fired[i] == t.fired[i]; } else { assert t'.fired[j] == t.fired[j]; }
        }
      }
      TokensFireOnce(t', n - 1);
    }
  }

  function Reloads(t: ReloadTokens, n: nat): (r: ReloadTokens)
    ensures |r.fired| == |t.fired| + n
    decreases n
  {
    if n == 0 then t else Reloads(OnReload(t), n - 1)
  }

  /** Reloads after the first find no callback registered, so they run nothing more. */
  lemma {:induction false} LaterReloadsNotifyNobody(t: ReloadTokens, n: nat)
    requires t.registered == []
    ensures Reloads(t, n).notified == t.notified && Reloads(t, n).registered == []
    decreases n
  {
    if n > 0 {
      assert OnReload(t).notified == t.notified + [];
      LaterReloadsNotifyNobody(OnReload(t), n - 1);
    }
  }

  /**
   * A callback registered on the provider's token runs exactly once,
   * however many reloads follow: the first reload fires its token, and later
   * reloads fire fresh tokens it was never registered on.
   */
  lemma SubscriberNotifiedOnce(t: ReloadTokens, callback: nat, n: nat)
    requires callback !in t.registered && callback !in t.notified && n >= 1
    ensures multiset(Reloads(Subscribe(t, callback), n).notified)[callback] == 1
  {
    var first := OnReload(Subscribe(t, callback));
    assert Reloads(Subscribe(t, callback), n) == Reloads(first, n - 1);
    LaterReloadsNotifyNobody(first, n - 1);
    assert multiset(t.registered)[callback] == 0 && multiset(t.notified)[callback] == 0;
  }

  // ---------------------------------------------------------------- ScriptableObject provider

  /** A declared instance field: its name, the configuration key it carries (if any), and its value's string form. */
  datatype Field = Field(name: string, configurationKey: Option<string>, value: Option<string>)

  datatype Entry = Entry(key: string, value: string)

  /** The provider's Data holds the key, compared without case. */
  predicate ContainsKey(data: seq<Entry>, key: string) {
    exists i :: 0 <= i < |data| && EqualsIgnoreCase(data[i].key, key)
  }

  /** No two keys of Data are equal without regard to case. */
  predicate KeysUnique(data: seq<Entry>) {
    forall i, j :: 0 <= i < j < |data| ==> !EqualsIgnoreCase(data[i].key, data[j].key)
  }

  datatype LoadResult = LoadResult(data: seq<Entry>, skippedKeys: seq<string>)

  /**
   * `Load`: every field that carries a configuration key, in field order,
   * adds its value under that key unless Data already holds the key, in
   * which case it is skipped with a warning. Data is never cleared. A keyed
   * field whose value is null makes `ToString` throw.
   */
  function Load(data: seq<Entry>, fields: seq<Field>): (r: Result<LoadResult>)
    requires KeysUnique(data)
    ensures r.Ok? ==> data <= r.value.data && KeysUnique(r.value.data)
    ensures r.Ok? ==> forall i :: |data| <= i < |r.value.data| ==>
      exists k :: 0 <= k < |fields| && fields[k].configurationKey == Some(r.value.data[i].key) && fields[k].value == Some(r.value.data[i].value)
    ensures r.Ok? ==> forall k :: 0 <= k < |fields| && fields[k].configurationKey.Some? ==> ContainsKey(r.value.data, fields[k].configurationKey.value)
    ensures r.Err? ==> r.error == NullReference
    ensures (forall k :: 0 <= k < |fields| && fields[k].configurationKey.Some? ==> fields[k].value.Some?) ==> r.Ok?
    decreases |fields|
  {
    if |fields| == 0 then Ok(LoadResult(data, []))
    else
      var f := fields[0];
      if f.configurationKey.None? then Load(data, fields[1..])
      else if ContainsKey(data, f.configurationKey.value) then
        var rest :- Load(data, fields[1..]);
        Ok(LoadResult(rest.data, [f.configurationKey.value] + rest.skippedKeys))
      else if f.value.None? then Err(NullReference)
      else
        var entry := Entry(f.configurationKey.value, f.value.value);
        var data' := data + [entry];
        assert KeysUnique(data') by {
          forall i, j | 0 <= i < j < |data'| ensures !EqualsIgnoreCase(data'[i].key, data'[j].key) {
            if j == |data| {
              assert !EqualsIgnoreCase(data[i].key, entry.key);
            }
          }
        }
        var rest :- Load(data', fields[1..]);
        assert ContainsKey(rest.data, entry.key) by {
          assert rest.data[|data|] == data'[|data|];
          assert EqualsIgnoreCase(entry.key, entry.key);
        }
        Ok(rest)
  }

  lemma ContainsKeyMonotone(data: seq<Entry>, more: seq<Entry>, key: string)
    requires data <= more && ContainsKey(data, key)
    ensures ContainsKey(more, key)
  {
    var i :| 0 <= i < |data| && EqualsIgnoreCase(data[i].key, key);
    assert more[i] == data[i];
  }

  /**
   * The field at `k` is where `Load` throws: it carries a key, its value is
   * null, and neither Data nor an earlier keyed field holds that key,
   * ignoring case.
   */
  predicate ThrowsAt(data: seq<Entry>, fields: seq<Field>, k: int) {
    && 0 <= k < |fields|
    && fields[k].configurationKey.Some? && fields[k].value.None?
    && !ContainsKey(data, fields[k].configurationKey.value)
    && forall j :: 0 <= j < k && fields[j].configurationKey.Some? ==>
         !EqualsIgnoreCase(fields[j].configurationKey.value, fields[k].configurationKey.value)
  }

  lemma ContainsKeyAppend(data: seq<Entry>, e: Entry, key: string)
    ensures ContainsKey(data + [e], key) <==> ContainsKey(data, key) || EqualsIgnoreCase(e.key, key)
  {
    if ContainsKey(data, key) {
      var i :| 0 <= i < |data| && EqualsIgnoreCase(data[i].key, key);
      assert (data + [e])[i] == data[i];
    }
    if EqualsIgnoreCase(e.key, key) {
      assert (data + [e])[|data|] == e;
    }
    if ContainsKey(data + [e], key) {
      var i :| 0 <= i < |data + [e]| && EqualsIgnoreCase((data + [e])[i].key, key);
      if i < |data| { assert (data + [e])[i] == data[i]; }
    }
  }

  /** A key equal, ignoring case, to one Data holds is held too. */
  lemma ContainsKeyIgnoresCase(data: seq<Entry>, a: string, b: string)
    requires ContainsKey(data, a) && EqualsIgnoreCase(a, b)
    ensures ContainsKey(data, b)
  {
    var i :| 0 <= i < |data| && EqualsIgnoreCase(data[i].key, a);
    IgnoreCaseIsEquivalence(data[i].key, a, b);
  }

  /** `Load` throws exactly when some keyed field with a null value is reached before its key is held. */
  lemma {:induction false} LoadThrowsExactly(data: seq<Entry>, fields: seq<Field>)
    requires KeysUnique(data)
    ensures Load(data, fields).Err? <==> exists k :: ThrowsAt(data, fields, k)
    decreases |fields|
  {
    if |fields| == 0 {
      return;
    }
    var f := fields[0];
    var rest := fields[1..];
    if f.configurationKey.None? {
      LoadThrowsExactly(data, rest);
      ShiftThrowsAt(data, fields, data);
    } else if ContainsKey(data, f.configurationKey.value) {
      LoadThrowsExactly(data, rest);
      forall key | EqualsIgnoreCase(f.configurationKey.value, key) ensures ContainsKey(data, key) {
        ContainsKeyIgnoresCase(data, f.configurationKey.value, key);
      }
      ShiftThrowsAt(data, fields, data);
    } else if f.value.None? {
      assert ThrowsAt(data, fields, 0);
    } else {
      var entry := Entry(f.configurationKey.value, f.value.value);
      var data' := data + [entry];
      assert KeysUnique(data') by {
        forall i, j | 0 <= i < j < |data'| ensures !EqualsIgnoreCase(data'[i].key, data'[j].key) {
          if j == |data| {
            assert !EqualsIgnoreCase(data[i].key, entry.key);
          }
        }
      }
      LoadThrowsExactly(data', rest);
      assert Load(data, fields).Err? <==> Load(data', rest).Err?;
      forall key ensures ContainsKey(data', key) <==> ContainsKey(data, key) || EqualsIgnoreCase(entry.key, key) {
        ContainsKeyAppend(data, entry, key);
      }
      ShiftThrowsAt(data, fields, data');
    }
  }

  /**
   * Dropping the first field: a later field throws against `after` (Data once
   * the first field is handled) exactly when it throws against `data` with
   * the first field in front, given how `after` relates to the first key.
   */
  lemma ShiftThrowsAt(data: seq<Entry>, fields: seq<Field>, after: seq<Entry>)
    requires |fields| > 0
    requires fields[0].configurationKey.None? ==> after == data
    requires fields[0].configurationKey.Some? ==> forall key ::
      ContainsKey(after, key) <==> ContainsKey(data, key) || EqualsIgnoreCase(fields[0].configurationKey.value, key)
    requires fields[0].configurationKey.Some? ==> fields[0].value.Some? || ContainsKey(data, fields[0].configurationKey.value)
    ensures (exists k :: ThrowsAt(data, fields, k)) <==> (exists k :: ThrowsAt(after, fields[1..], k))
  {
    var rest := fields[1..];
    forall k | ThrowsAt(data, fields, k) ensures ThrowsAt(after, rest, k - 1) {
      assert k > 0;
      forall j | 0 <= j < k - 1 && rest[j].configurationKey.Some?
        ensures !EqualsIgnoreCase(rest[j].configurationKey.value, rest[k - 1].configurationKey.value)
      {
        assert rest[j] == fields[j + 1];
      }
    }
    forall k | ThrowsAt(after, rest, k) ensures ThrowsAt(data, fields, k + 1) {
      forall j | 0 <= j < k + 1 && fields[j].configurationKey.Some?
        ensures !EqualsIgnoreCase(fields[j].configurationKey.value, fields[k + 1].configurationKey.value)
      {
        if j > 0 {
          assert fields[j] == rest[j - 1];
        }
      }
    }
    if exists k :: ThrowsAt(data, fields, k) {
      var k :| ThrowsAt(data, fields, k);
      assert ThrowsAt(after, rest, k - 1);
    }
    if exists k :: ThrowsAt(after, rest, k) {
      var k :| ThrowsAt(after, rest, k);
      assert ThrowsAt(data, fields, k + 1);
    }
  }

  /**
   * The keyed field at `k` finds its key already held when it is reached:
   * by Data, or by an earlier keyed field, ignoring case.
   */
  predicate HeldBefore(data: seq<Entry>, fields: seq<Field>, k: int)
    requires 0 <= k < |fields| && fields[k].configurationKey.Some?
  {
    || ContainsKey(data, fields[k].configurationKey.value)
    || exists j :: 0 <= j < k && fields[j].configurationKey.Some?
                   && EqualsIgnoreCase(fields[j].configurationKey.value, fields[k].configurationKey.value)
  }

  /** The first-key-wins reading of the fields from `k` on: the entries of keyed fields whose key is not yet held. */
  function AddedFrom(data: seq<Entry>, fields: seq<Field>, k: nat): seq<Entry>
    decreases |fields| - k
  {
    if k >= |fields| then []
    else
      (if fields[k].configurationKey.Some? && fields[k].value.Some? && !HeldBefore(data, fields, k)
       then [Entry(fields[k].configurationKey.value, fields[k].value.value)] else [])
      + AddedFrom(data, fields, k + 1)
  }

  /** The keys of the keyed fields from `k` on whose key is already held, in field order. */
  function SkippedFrom(data: seq<Entry>, fields: seq<Field>, k: nat): seq<string>
    decreases |fields| - k
  {
    if k >= |fields| then []
    else
      (if fields[k].configurationKey.Some? && HeldBefore(data, fields, k) then [fields[k].configurationKey.value] else [])
      + SkippedFrom(data, fields, k + 1)
  }

  /**
   * Dropping the first field: whether a later field finds its key held
   * against `after` (Data once the first field is handled) is what it was
   * against `data` with the first field in front.
   */
  lemma {:induction false} ShiftFrom(data: seq<Entry>, fields: seq<Field>, after: seq<Entry>, k: nat)
    requires 1 <= k <= |fields|
    requires fields[0].configurationKey.None? ==> after == data
    requires fields[0].configurationKey.Some? ==> forall key ::
      ContainsKey(after, key) <==> ContainsKey(data, key) || EqualsIgnoreCase(fields[0].configurationKey.value, key)
    ensures AddedFrom(data, fields, k) == AddedFrom(after, fields[1..], k - 1)
    ensures SkippedFrom(data, fields, k) == SkippedFrom(after, fields[1..], k - 1)
    decreases |fields| - k
  {
    var rest := fields[1..];
    if k < |fields| {
      ShiftFrom(data, fields, after, k + 1);
      assert rest[k - 1] == fields[k];
      if fields[k].configurationKey.Some? {
        HeldBeforeShift(data, fields, after, k);
      }
    }
  }

  /** One step of `ShiftFrom`: field `k` finds its key held in both readings or in neither. */
  lemma HeldBeforeShift(data: seq<Entry>, fields: seq<Field>, after: seq<Entry>, k: nat)
    requires 1 <= k < |fields| && fields[k].configurationKey.Some?
    requires fields[0].configurationKey.None? ==> after == data
    requires fields[0].configurationKey.Some? ==> forall key ::
      ContainsKey(after, key) <==> ContainsKey(data, key) || EqualsIgnoreCase(fields[0].configurationKey.value, key)
    ensures HeldBefore(data, fields, k) <==> HeldBefore(after, fields[1..], k - 1)
  {
    var rest := fields[1..];
    var key := fields[k].configurationKey.value;
    assert rest[k - 1] == fields[k];
    if HeldBefore(data, fields, k) && !ContainsKey(data, key) {
      var j :| 0 <= j < k && fields[j].configurationKey.Some? && EqualsIgnoreCase(fields[j].configurationKey.value, key);
      if j > 0 { assert rest[j - 1] == fields[j]; }
    }
    if HeldBefore(after, rest, k - 1) && !ContainsKey(after, key) {
      var j :| 0 <= j < k - 1 && rest[j].configurationKey.Some? && EqualsIgnoreCase(rest[j].configurationKey.value, key);
      assert fields[j + 1] == rest[j];
    }
  }

  /**
   * `Load` is the first-key-wins reading of the fields: it appends, in field
   * order, the value of each keyed field whose key neither Data nor an
   * earlier keyed field holds, and reports exactly the other keyed fields'
   * keys as skipped, in field order.
   */
  lemma {:induction false} LoadFirstKeyWins(data: seq<Entry>, fields: seq<Field>)
    requires KeysUnique(data) && Load(data, fields).Ok?
    ensures Load(data, fields).value == LoadResult(data + AddedFrom(data, fields, 0), SkippedFrom(data, fields, 0))
    decreases |fields|
  {
    if |fields| == 0 {
      assert AddedFrom(data, fields, 0) == [] && SkippedFrom(data, fields, 0) == [];
    } else if fields[0].configurationKey.None? {
      var rest := fields[1..];
      assert Load(data, fields) == Load(data, rest);
      LoadFirstKeyWins(data, rest);
      ShiftFrom(data, fields, data, 1);
      assert AddedFrom(data, fields, 0) == AddedFrom(data, rest, 0);
      assert SkippedFrom(data, fields, 0) == SkippedFrom(data, rest, 0);
    } else if ContainsKey(data, fields[0].configurationKey.value) {
      LoadFirstKeyWinsSkipping(data, fields);
    } else {
      LoadFirstKeyWinsAdding(data, fields);
    }
  }

  /** `LoadFirstKeyWins` when the first field's key is already held. */
  lemma {:induction false} LoadFirstKeyWinsSkipping(data: seq<Entry>, fields: seq<Field>)
    requires KeysUnique(data) && Load(data, fields).Ok?
    requires |fields| > 0 && fields[0].configurationKey.Some? && ContainsKey(data, fields[0].configurationKey.value)
    ensures Load(data, fields).value == LoadResult(data + AddedFrom(data, fields, 0), SkippedFrom(data, fields, 0))
    decreases |fields|, 0
  {
    var key0 := fields[0].configurationKey.value;
    var rest := fields[1..];
    var r := Load(data, rest);
    assert Load(data, fields) == Ok(LoadResult(r.value.data, [key0] + r.value.skippedKeys));
    LoadFirstKeyWins(data, rest);
    var added := AddedFrom(data, rest, 0);
    var skipped := SkippedFrom(data, rest, 0);
    assert r.value.data == data + added && r.value.skippedKeys == skipped;
    forall key ensures ContainsKey(data, key) <==> ContainsKey(data, key) || EqualsIgnoreCase(key0, key) {
      if EqualsIgnoreCase(key0, key) {
        ContainsKeyIgnoresCase(data, key0, key);
      }
    }
    ShiftFrom(data, fields, data, 1);
    assert HeldBefore(data, fields, 0);
    assert AddedFrom(data, fields, 0) == added;
    assert SkippedFrom(data, fields, 0) == [key0] + skipped;
  }

  /** `LoadFirstKeyWins` when the first field adds its key. */
  lemma {:induction false} LoadFirstKeyWinsAdding(data: seq<Entry>, fields: seq<Field>)
    requires KeysUnique(data) && Load(data, fields).Ok?
    requires |fields| > 0 && fields[0].configurationKey.Some? && !ContainsKey(data, fields[0].configurationKey.value)
    ensures Load(data, fields).value == LoadResult(data + AddedFrom(data, fields, 0), SkippedFrom(data, fields, 0))
    decreases |fields|, 0
  {
    var f := fields[0];
    var rest := fields[1..];
    assert f.value.Some?;
    var entry := Entry(f.configurationKey.value, f.value.value);
    var data' := data + [entry];
    KeysUniqueAppend(data, entry);
    assert Load(data, fields) == Load(data', rest);
    LoadFirstKeyWins(data', rest);
    forall key ensures ContainsKey(data', key) <==> ContainsKey(data, key) || EqualsIgnoreCase(entry.key, key) {
      ContainsKeyAppend(data, entry, key);
    }
    ShiftFrom(data, fields, data', 1);
    FirstFieldAdded(data, fields);
  }

  /** Data without the key keeps its keys unique when an entry with that key is appended. */
  lemma KeysUniqueAppend(data: seq<Entry>, entry: Entry)
    requires KeysUnique(data) && !ContainsKey(data, entry.key)
    ensures KeysUnique(data + [entry])
  {
    var data' := data + [entry];
    forall i, j | 0 <= i < j < |data'| ensures !EqualsIgnoreCase(data'[i].key, data'[j].key) {
      if j == |data| {
        assert !EqualsIgnoreCase(data[i].key, entry.key);
      }
    }
  }

  /** A keyed first field with a value whose key Data lacks is the first entry the reading adds. */
  lemma FirstFieldAdded(data: seq<Entry>, fields: seq<Field>)
    requires |fields| > 0 && fields[0].configurationKey.Some? && fields[0].value.Some?
    requires !ContainsKey(data, fields[0].configurationKey.value)
    ensures var entry := Entry(fields[0].configurationKey.value, fields[0].value.value);
      && AddedFrom(data, fields, 0) == [entry] + AddedFrom(data, fields, 1)
      && SkippedFrom(data, fields, 0) == SkippedFrom(data, fields, 1)
      && data + AddedFrom(data, fields, 0) == (data + [entry]) + AddedFrom(data, fields, 1)
  {
    assert !HeldBefore(data, fields, 0);
  }

  /** The reading from `i` on adds the entry of every later keyed field whose key is not yet held. */
  lemma {:induction false} AddedFromHas(data: seq<Entry>, fields: seq<Field>, i: nat, k: nat)
    requires i <= k < |fields| && fields[k].configurationKey.Some? && fields[k].value.Some? && !HeldBefore(data, fields, k)
    ensures Entry(fields[k].configurationKey.value, fields[k].value.value) in AddedFrom(data, fields, i)
    decreases k - i
  {
    if i < k {
      AddedFromHas(data, fields, i + 1, k);
    }
  }

  /**
   * First key wins: a keyed field whose key neither Data nor an earlier
   * keyed field holds has a value, and that value is what Data holds under
   * the key after `Load`; every later field with the key, ignoring case, is
   * skipped.
   */
  lemma FirstKeyWins(data: seq<Entry>, fields: seq<Field>, k: nat, later: nat)
    requires KeysUnique(data) && Load(data, fields).Ok?
    requires k < later < |fields| && fields[k].configurationKey.Some? && !HeldBefore(data, fields, k)
    requires fields[later].configurationKey.Some?
    requires EqualsIgnoreCase(fields[k].configurationKey.value, fields[later].configurationKey.value)
    ensures fields[k].value.Some?
    ensures Entry(fields[k].configurationKey.value, fields[k].value.value) in Load(data, fields).value.data
    ensures HeldBefore(data, fields, later)
    ensures fields[later].configurationKey.value in Load(data, fields).value.skippedKeys
  {
    LoadThrowsExactly(data, fields);
    assert !ThrowsAt(data, fields, k);
    LoadFirstKeyWins(data, fields);
    AddedFromHas(data, fields, 0, k);
    SkippedFromHas(data, fields, 0, later);
  }

  /** The reading from `i` on skips every later keyed field whose key is held. */
  lemma {:induction false} SkippedFromHas(data: seq<Entry>, fields: seq<Field>, i: nat, k: nat)
    requires i <= k < |fields| && fields[k].configurationKey.Some? && HeldBefore(data, fields, k)
    ensures fields[k].configurationKey.value in SkippedFrom(data, fields, i)
    decreases k - i
  {
    if i < k {
      SkippedFromHas(data, fields, i + 1, k);
    }
  }

  /** A second `Load` adds nothing: every key is already there. */
  lemma {:induction false} LoadAgainAddsNothing(data: seq<Entry>, fields: seq<Field>)
    requires KeysUnique(data)
    requires forall k :: 0 <= k < |fields| && fields[k].configurationKey.Some? ==> ContainsKey(data, fields[k].configurationKey.value)
    ensures Load(data, fields).Ok? && Load(data, fields).value.data == data
    decreases |fields|
  {
    if |fields| > 0 {
      LoadAgainAddsNothing(data, fields[1..]);
    }
  }

  lemma LoadIdempotent(data: seq<Entry>, fields: seq<Field>)
    requires KeysUnique(data) && Load(data, fields).Ok?
    ensures var once := Load(data, fields).value.data;
      Load(once, fields).Ok? && Load(once, fields).value.data == once
  {
    LoadAgainAddsNothing(Load(data, fields).value.data, fields);
  }

  // ---------------------------------------------------------------- file sources

  datatype Source = FileSource(sourceId: nat, path: string, optional: bool, reloadOnChange: bool) | OtherSource(sourceId: nat)

  /** `DisableFileSourcesReloadOnChange`: every file source stops watching its file; nothing else changes. */
  function DisableFileSourcesReloadOnChange(sources: seq<Source>): (r: seq<Source>)
    ensures |r| == |sources|
    ensures forall i :: 0 <= i < |sources| ==>
      if sources[i].FileSource? then r[i] == sources[i].(reloadOnChange := false) else r[i] == sources[i]
  {
    seq(|sources|, i requires 0 <= i < |sources| =>
      if sources[i].FileSource? then sources[i].(reloadOnChange := false) else sources[i])
  }

  /** Afterwards no file source reloads on change, and applying it again changes nothing. */
  lemma DisableReloadIdempotent(sources: seq<Source>)
    ensures forall i :: 0 <= i < |sources| && DisableFileSourcesReloadOnChange(sources)[i].FileSource? ==>
      !DisableFileSourcesReloadOnChange(sources)[i].reloadOnChange
    ensures DisableFileSourcesReloadOnChange(DisableFileSourcesReloadOnChange(sources)) == DisableFileSourcesReloadOnChange(sources)
  {
  }
}

=== FILE: host_building.dfy ===
/**
 * Host-builder wiring: the generic host builder's callback lists and its
 * build-once guard, the Unity host builders that add the ScopeRoot and the
 * Unity-object registrations to it, the `MonoHostBuilder` wrapper, the
 * default services of the Unity host, and the builder extensions.
 *
 * A ConfigureServices or ConfigureAppConfiguration delegate is a datatype
 * value naming what it does; running a build folds those values over the
 * builder context and the service collection.
 */
module HostBuilding {
  import opened Common
  import opened Activation
  import Registration
  import LegacyRegistration
  import Configuration

  type Services = Registration.Services

  /** A ConfigureAppConfiguration delegate. */
  datatype AppConfigAction =
    | SetApplicationName(applicationName: string)
    | SetEnvironmentName(environmentName: string)
    | AddGlobalSettingsSource(settingsType: TypeName)   // the callback UseGlobalSettings registers
    | AddConfigSource(sourceId: nat)                     // any other configuration source

  /** A configuration source added to the configuration builder. */
  datatype ConfigSource = GlobalSettingsSource(settingsType: TypeName) | OtherSource(sourceId: nat)

  /** A ConfigureServices delegate. */
  datatype ServicesCallback =
    | AddScopeRoot                                     // services.AddScoped<ScopeRoot>()
    | RunUnityObjects(delegates: seq<seq<Registration.Verb>>, configurator: Registration.Configurator)
    | RunCollectionActions(actions: seq<Registration.Verb>, injectionMethodName: string)
    | Legacy(verb: LegacyRegistration.LegacyVerb, injectionMethodName: string)
    | RegisterGlobalSettings(settingsType: TypeName)   // the callback UseGlobalSettings registers
    | AddDescriptors(descriptors: Services)            // any other registrations

  /** `HostBuilderContext`: the hosting environment's names, the shared property bag, the configuration sources. */
  datatype Context = Context(
    applicationName: string,
    environmentName: string,
    properties: map<string, PropValue>,
    sources: seq<ConfigSource>)

  /**
   * The generic host builder: property bag, callback lists in registration
   * order, and the built flag. With the default service-provider factory the
   * container builder is the service collection itself, so a
   * `ConfigureContainer<IServiceCollection>` delegate is the descriptors it
   * adds to it.
   */
  datatype HostBuilder = HostBuilder(
    properties: map<string, PropValue>,
    appConfig: seq<AppConfigAction>,
    servicesActions: seq<ServicesCallback>,
    containerActions: seq<Services>,
    built: bool)

  function NewHostBuilder(): (b: HostBuilder)
    ensures !b.built && b.properties == map[] && b.appConfig == [] && b.servicesActions == [] && b.containerActions == []
  {
    HostBuilder(map[], [], [], [], false)
  }

  /** `ConfigureServices`: the delegate is appended; it runs at build time after the earlier ones. */
  function ConfigureServices(b: HostBuilder, cb: ServicesCallback): (r: HostBuilder)
    ensures r.servicesActions == b.servicesActions + [cb]
    ensures r.(servicesActions := b.servicesActions) == b
  {
    b.(servicesActions := b.servicesActions + [cb])
  }

  /** `ConfigureContainer<IServiceCollection>`: the delegate is appended; it runs at build time after every services delegate. */
  function ConfigureContainer(b: HostBuilder, descriptors: Services): (r: HostBuilder)
    ensures r.containerActions == b.containerActions + [descriptors]
    ensures r.(containerActions := b.containerActions) == b
  {
    b.(containerActions := b.containerActions + [descriptors])
  }

  /** `ConfigureAppConfiguration`. */
  function ConfigureAppConfiguration(b: HostBuilder, a: AppConfigAction): (r: HostBuilder)
    ensures r.appConfig == b.appConfig + [a]
    ensures r.(appConfig := b.appConfig) == b
  {
    b.(appConfig := b.appConfig + [a])
  }

  // ---------------------------------------------------------------- app configuration

  /** Property-bag key of the settings source (`UseGlobalSettings`). */
  const GlobalSettingsSourceKey: string := "GLOBALSETTINGS_SOURCE"

  function RunAppConfigAction(a: AppConfigAction, ctx: Context): Context {
    match a
    case SetApplicationName(n) => ctx.(applicationName := n)
    case SetEnvironmentName(n) => ctx.(environmentName := n)
    case AddGlobalSettingsSource(t) =>
      ctx.(sources := ctx.sources + [GlobalSettingsSource(t)],
           properties := if GlobalSettingsSourceKey in ctx.properties then ctx.properties
                         else ctx.properties[GlobalSettingsSourceKey := GlobalSettingsSourceValue(t)])
    case AddConfigSource(id) => ctx.(sources := ctx.sources + [OtherSource(id)])
  }

  /** The app-configuration delegates, run in registration order. */
  function RunAppConfig(actions: seq<AppConfigAction>, ctx: Context): (r: Context)
    ensures |r.sources| >= |ctx.sources|
    ensures ctx.properties.Keys <= r.properties.Keys
    decreases |actions|
  {
    if |actions| == 0 then ctx else RunAppConfig(actions[1..], RunAppConfigAction(actions[0], ctx))
  }

  lemma {:induction false} RunAppConfigSnoc(actions: seq<AppConfigAction>, a: AppConfigAction, ctx: Context)
    ensures RunAppConfig(actions + [a], ctx) == RunAppConfigAction(a, RunAppConfig(actions, ctx))
    decreases |actions|
  {
    if |actions| == 0 {
      assert actions + [a] == [a];
    } else {
      assert (actions + [a])[1..] == actions[1..] + [a];
      RunAppConfigSnoc(actions[1..], a, RunAppConfigAction(actions[0], ctx));
    }
  }

  /** `SetApplicationName` (`SetEnvironmentName` alike): an app-configuration delegate that sets the name. */
  function SetApplicationNameExt(b: HostBuilder, name: string): (r: HostBuilder)
    ensures r == ConfigureAppConfiguration(b, SetApplicationName(name))
  {
    ConfigureAppConfiguration(b, SetApplicationName(name))
  }

  function SetEnvironmentNameExt(b: HostBuilder, name: string): (r: HostBuilder)
    ensures r == ConfigureAppConfiguration(b, SetEnvironmentName(name))
  {
    ConfigureAppConfiguration(b, SetEnvironmentName(name))
  }

  /** The last `SetApplicationName` before the build decides the context's name; `SetEnvironmentName` likewise. */
  lemma LastNameWins(b: HostBuilder, name: string, ctx: Context)
    ensures RunAppConfig(SetApplicationNameExt(b, name).appConfig, ctx).applicationName == name
    ensures RunAppConfig(SetEnvironmentNameExt(b, name).appConfig, ctx).environmentName == name
  {
    RunAppConfigSnoc(b.appConfig, SetApplicationName(name), ctx);
    RunAppConfigSnoc(b.appConfig, SetEnvironmentName(name), ctx);
  }

  // ---------------------------------------------------------------- services

  const ScopeRootDescriptor: Descriptor := Descriptor(ScopeRootType, ByType(ScopeRootType), Scoped)

  /** Appending every verb to the configurator, in order. */
  function AddAll(c: Registration.Configurator, verbs: seq<Registration.Verb>): (r: Registration.Configurator)
    ensures r.injectionMethodName == c.injectionMethodName && r.actions == c.actions + verbs
    decreases |verbs|
  {
    if |verbs| == 0 then c
    else
      var r := AddAll(Registration.Add(c, verbs[0]), verbs[1..]);
      assert c.actions + [verbs[0]] + verbs[1..] == c.actions + verbs;
      r
  }

  /** The parts concatenated in order: the verbs the Unity-object delegates add, or the descriptors the container delegates add. */
  function Flatten<T>(parts: seq<seq<T>>): (r: seq<T>)
    ensures |parts| == 0 ==> r == []
    decreases |parts|
  {
    if |parts| == 0 then [] else parts[0] + Flatten(parts[1..])
  }

  lemma {:induction false} FlattenSnoc<T>(parts: seq<seq<T>>, last: seq<T>)
    ensures Flatten(parts + [last]) == Flatten(parts) + last
    decreases |parts|
  {
    if |parts| == 0 {
      assert parts + [last] == [last];
      assert ([last])[1..] == [];
    } else {
      assert (parts + [last])[0] == parts[0];
      assert (parts + [last])[1..] == parts[1..] + [last];
      FlattenSnoc(parts[1..], last);
    }
  }

  /** One ConfigureServices delegate run against the collection. */
  function RunServicesCallback(cb: ServicesCallback, ctx: Context, services: Services): (r: Result<Services>)
    ensures r.Ok? ==> services <= r.value
  {
    match cb
    case AddScopeRoot => Ok(services + [ScopeRootDescriptor])
    case RunUnityObjects(delegates, c) => Registration.Configure(AddAll(c, Flatten(delegates)), services)
    case RunCollectionActions(actions, name) => Registration.RunActions(name, actions, services)
    case Legacy(v, name) => LegacyRegistration.RunLegacy(name, v, services)
    case RegisterGlobalSettings(t) =>
      if GlobalSettingsSourceKey in ctx.properties && ctx.properties[GlobalSettingsSourceKey] == GlobalSettingsSourceValue(t)
      then Ok(services + [Descriptor(t, ByInstance("GlobalSettingsConfigurationSource.Settings"), Lifetime.Singleton)])
      else Ok(services)
    case AddDescriptors(ds) => Ok(services + ds)
  }

  /** The ConfigureServices delegates in registration order; the first exception ends the build. */
  function RunServicesCallbacks(cbs: seq<ServicesCallback>, ctx: Context, services: Services): (r: Result<Services>)
    ensures r.Ok? ==> services <= r.value
    decreases |cbs|
  {
    if |cbs| == 0 then Ok(services)
    else
      var next :- RunServicesCallback(cbs[0], ctx, services);
      RunServicesCallbacks(cbs[1..], ctx, next)
  }

  lemma {:induction false} RunServicesCallbacksSnoc(cbs: seq<ServicesCallback>, cb: ServicesCallback, ctx: Context, services: Services)
    ensures RunServicesCallbacks(cbs + [cb], ctx, services) ==
      (match RunServicesCallbacks(cbs, ctx, services)
       case Err(e) => Err(e)
       case Ok(s) => RunServicesCallback(cb, ctx, s))
    decreases |cbs|
  {
    if |cbs| == 0 {
      assert cbs + [cb] == [cb];
      assert ([cb])[1..] == [];
    } else {
      assert (cbs + [cb])[0] == cbs[0];
      assert (cbs + [cb])[1..] == cbs[1..] + [cb];
      match RunServicesCallback(cbs[0], ctx, services)
      case Err(_) =>
      case Ok(next) => RunServicesCallbacksSnoc(cbs[1..], cb, ctx, next);
    }
  }

  // ---------------------------------------------------------------- build

  datatype BuiltHost = BuiltHost(context: Context, services: Services)

  /**
   * `BuildInternal`: a second build throws; the first sets the built flag
   * before anything runs (so it stays set when the build fails), runs the
   * app-configuration delegates, then populates the default services, runs
   * the ConfigureServices delegates in order, and then the container
   * delegates on the same collection. The context shares the builder's
   * property bag.
   */
  function BuildInternal(b: HostBuilder, defaults: Services, initialNames: (string, string)): (r: (HostBuilder, Result<BuiltHost>))
    ensures b.built ==> r == (b, Err(InvalidOperation("Build can only be called once.")))
    ensures !b.built ==> r.0.built && r.0.appConfig == b.appConfig && r.0.servicesActions == b.servicesActions
    ensures !b.built ==> (r.1.Ok? <==>
      RunServicesCallbacks(b.servicesActions, RunAppConfig(b.appConfig, Context(initialNames.0, initialNames.1, b.properties, [])), defaults).Ok?)
    ensures r.1.Ok? ==> defaults <= r.1.value.services
    ensures r.1.Ok? ==>
      var added := Flatten(b.containerActions);
      |added| <= |r.1.value.services| && r.1.value.services[|r.1.value.services| - |added|..] == added
  {
    if b.built then (b, Err(InvalidOperation("Build can only be called once.")))
    else
      var ctx := RunAppConfig(b.appConfig, Context(initialNames.0, initialNames.1, b.properties, []));
      var b' := b.(built := true, properties := ctx.properties);
      match RunServicesCallbacks(b.servicesActions, ctx, defaults)
      case Err(e) => (b', Err(e))
      case Ok(services) =>
        var all := services + Flatten(b.containerActions);
        assert all[|all| - |Flatten(b.containerActions)|..] == Flatten(b.containerActions);
        (b', Ok(BuiltHost(ctx, all)))
  }

  /** A builder builds at most once: whatever the first build did, a second one throws. */
  lemma BuildOnce(b: HostBuilder, defaults: Services, names: (string, string), defaults2: Services, names2: (string, string))
    ensures BuildInternal(BuildInternal(b, defaults, names).0, defaults2, names2).1 == Err(InvalidOperation("Build can only be called once."))
  {
  }

  /** The delegate registered last runs last among the services delegates, on the collection the earlier ones produced, and before the container delegates. */
  lemma BuildRunsLastDelegateLast(b: HostBuilder, cb: ServicesCallback, defaults: Services, names: (string, string))
    requires !b.built
    ensures var ctx := RunAppConfig(b.appConfig, Context(names.0, names.1, b.properties, []));
      BuildInternal(ConfigureServices(b, cb), defaults, names).1 ==
        (match RunServicesCallbacks(b.servicesActions, ctx, defaults)
         case Err(e) => Err(e)
         case Ok(before) =>
           match RunServicesCallback(cb, ctx, before)
           case Err(e) => Err(e)
           case Ok(s) => Ok(BuiltHost(ctx, s + Flatten(b.containerActions))))
  {
    var ctx := RunAppConfig(b.appConfig, Context(names.0, names.1, b.properties, []));
    RunServicesCallbacksSnoc(b.servicesActions, cb, ctx, defaults);
  }

  /**
   * A container delegate adds its descriptors at the very end of a
   * successful build, and registering it before or after a services
   * delegate makes no difference: container delegates run after all of them.
   */
  lemma ContainerDelegateRunsLast(b: HostBuilder, ds: Services, cb: ServicesCallback, defaults: Services, names: (string, string))
    requires !b.built
    ensures var r := BuildInternal(ConfigureContainer(b, ds), defaults, names).1;
      && (r.Ok? <==> BuildInternal(b, defaults, names).1.Ok?)
      && (r.Ok? ==> r.value == BuildInternal(b, defaults, names).1.value.(services := BuildInternal(b, defaults, names).1.value.services + ds))
    ensures BuildInternal(ConfigureServices(ConfigureContainer(b, ds), cb), defaults, names)
         == BuildInternal(ConfigureContainer(ConfigureServices(b, cb), ds), defaults, names)
  {
    FlattenSnoc(b.containerActions, ds);
    var ctx := RunAppConfig(b.appConfig, Context(names.0, names.1, b.properties, []));
    match RunServicesCallbacks(b.servicesActions, ctx, defaults)
    case Err(_) =>
    case Ok(s) =>
      assert s + Flatten(b.containerActions + [ds]) == s + Flatten(b.containerActions) + ds;
  }

  // ---------------------------------------------------------------- default services and the shutdown timeout

  const ShutdownTimeoutKey: string := "shutdownTimeoutSeconds"

  /**
   * `configuration[key]` over the configuration's entries in provider
   * order: keys compare without case, and a later entry overrides an
   * earlier one.
   */
  function ConfigurationValue(configuration: seq<Configuration.Entry>, key: string): (r: Option<string>)
    ensures r.Some? <==> Configuration.ContainsKey(configuration, key)
    ensures r.Some? ==> exists i :: (0 <= i < |configuration|
      && Configuration.EqualsIgnoreCase(configuration[i].key, key) && configuration[i].value == r.value
      && forall j :: i < j < |configuration| ==> !Configuration.EqualsIgnoreCase(configuration[j].key, key))
    decreases |configuration|
  {
    if |configuration| == 0 then None
    else
      var last := configuration[|configuration| - 1];
      var before := configuration[..|configuration| - 1];
      assert configuration == before + [last];
      Configuration.ContainsKeyAppend(before, last, key);
      if Configuration.EqualsIgnoreCase(last.key, key) then Some(last.value)
      else ConfigurationValue(before, key)
  }

  /** Looking a key up does not see its case. */
  lemma {:induction false} ConfigurationValueIgnoresCase(configuration: seq<Configuration.Entry>, a: string, b: string)
    requires Configuration.EqualsIgnoreCase(a, b)
    ensures ConfigurationValue(configuration, a) == ConfigurationValue(configuration, b)
    decreases |configuration|
  {
    if |configuration| > 0 {
      var k := configuration[|configuration| - 1].key;
      Configuration.IgnoreCaseIsEquivalence(k, a, b);
      Configuration.IgnoreCaseIsEquivalence(k, b, a);
      Configuration.IgnoreCaseIsEquivalence(a, b, b);
      ConfigurationValueIgnoresCase(configuration[..|configuration| - 1], a, b);
    }
  }

  /** The configured `shutdownTimeoutSeconds` value, if any. */
  function ConfiguredTimeout(configuration: seq<Configuration.Entry>): (r: Option<string>)
    ensures forall key :: Configuration.EqualsIgnoreCase(key, ShutdownTimeoutKey) ==> r == ConfigurationValue(configuration, key)
  {
    forall key | Configuration.EqualsIgnoreCase(key, ShutdownTimeoutKey)
      ensures ConfigurationValue(configuration, ShutdownTimeoutKey) == ConfigurationValue(configuration, key)
    {
      ConfigurationValueIgnoresCase(configuration, ShutdownTimeoutKey, key);
    }
    ConfigurationValue(configuration, ShutdownTimeoutKey)
  }

  /** The registration the container hands out for `t`: the last one added. */
  function LastFor(services: Services, t: TypeName): (r: Option<Descriptor>)
    ensures r.Some? ==> r.value in services && r.value.serviceType == t
    ensures r.None? <==> forall i :: 0 <= i < |services| ==> services[i].serviceType != t
    decreases |services|
  {
    if |services| == 0 then None
    else if services[|services| - 1].serviceType == t then Some(services[|services| - 1])
    else
      var r := LastFor(services[..|services| - 1], t);
      assert forall i :: 0 <= i < |services| - 1 ==> services[..|services| - 1][i] == services[i];
      r
  }

  lemma LastForSnoc(services: Services, d: Descriptor, t: TypeName)
    ensures LastFor(services + [d], t) == if d.serviceType == t then Some(d) else LastFor(services, t)
  {
    assert (services + [d])[..|services|] == services;
  }

  /** Registrations of other types, added later, leave the one handed out for `t` alone. */
  lemma {:induction false} LastForAppend(services: Services, more: Services, t: TypeName)
    requires forall i :: 0 <= i < |more| ==> more[i].serviceType != t
    ensures LastFor(services + more, t) == LastFor(services, t)
    decreases |more|
  {
    if |more| == 0 {
      assert services + more == services;
    } else {
      var shorter := more[..|more| - 1];
      assert services + more == (services + shorter) + [more[|more| - 1]];
      LastForSnoc(services + shorter, more[|more| - 1], t);
      LastForAppend(services, shorter, t);
    }
  }

  /** The descriptor carries a HostOptions shutdown-timeout callback. */
  predicate SetsShutdownTimeout(d: Descriptor) {
    d.body.ConfigureOptions? && d.body.setting.ShutdownTimeoutFrom?
  }

  /**
   * The HostOptions shutdown timeout the options system ends with: every
   * HostOptions configure callback applied in registration order, starting
   * from the library default.
   */
  function EffectiveShutdownTimeout(services: Services, defaultSeconds: int): int
    decreases |services|
  {
    if |services| == 0 then defaultSeconds
    else
      var before := EffectiveShutdownTimeout(services[..|services| - 1], defaultSeconds);
      var last := services[|services| - 1];
      if SetsShutdownTimeout(last) then ApplyShutdownTimeout(last.body.setting.configured, before) else before
  }

  lemma EffectiveShutdownTimeoutSnoc(services: Services, x: Descriptor, d: int)
    ensures EffectiveShutdownTimeout(services + [x], d) ==
      if SetsShutdownTimeout(x) then ApplyShutdownTimeout(x.body.setting.configured, EffectiveShutdownTimeout(services, d))
      else EffectiveShutdownTimeout(services, d)
  {
    assert (services + [x])[..|services|] == services;
  }

  /** Descriptors without a HostOptions callback, added later, leave the timeout alone. */
  lemma {:induction false} EffectiveShutdownTimeoutAppend(services: Services, more: Services, d: int)
    requires forall i :: 0 <= i < |more| ==> !SetsShutdownTimeout(more[i])
    ensures EffectiveShutdownTimeout(services + more, d) == EffectiveShutdownTimeout(services, d)
    decreases |more|
  {
    if |more| == 0 {
      assert services + more == services;
    } else {
      var shorter := more[..|more| - 1];
      assert services + more == (services + shorter) + [more[|more| - 1]];
      EffectiveShutdownTimeoutSnoc(services + shorter, more[|more| - 1], d);
      EffectiveShutdownTimeoutAppend(services, shorter, d);
    }
  }

  const UnityLifetimeDescriptor: Descriptor := Descriptor("IHostLifetime", ByType("UnityLifetime"), Lifetime.Singleton)

  /** The host's defaults before the options and logging registrations. */
  function HostDefaults(): (r: Services)
    ensures LastFor(r, "IHostApplicationLifetime") == Some(Descriptor("IHostApplicationLifetime", ByType("ApplicationLifetime"), Lifetime.Singleton))
    ensures forall i :: 0 <= i < |r| ==> !SetsShutdownTimeout(r[i])
  {
    [Descriptor("IHostingEnvironment", ByInstance("HostingEnvironment"), Lifetime.Singleton),
     Descriptor("IHostEnvironment", ByInstance("HostingEnvironment"), Lifetime.Singleton),
     Descriptor("HostBuilderContext", ByInstance("HostBuilderContext"), Lifetime.Singleton),
     Descriptor("IConfiguration", ByOpaqueFactory("appConfiguration"), Lifetime.Singleton),
     Descriptor("IApplicationLifetime", ByOpaqueFactory("IHostApplicationLifetime"), Lifetime.Singleton),
     Descriptor("IHostApplicationLifetime", ByType("ApplicationLifetime"), Lifetime.Singleton)]
  }

  /**
   * The default services `PopulateServiceCollection` registers before any
   * delegate runs: the container hands out UnityLifetime as the host
   * lifetime, MonoHost as the host and an application lifetime, and the
   * shutdown timeout the options end with is the configured one when it
   * parses.
   */
  function UnityDefaults(configuration: seq<Configuration.Entry>): (r: Services)
    ensures HostDefaults() <= r
    ensures LastFor(r, "IHostLifetime") == Some(UnityLifetimeDescriptor)
    ensures LastFor(r, "IHost").Some? && LastFor(r, "IHost").value.body == ByOpaqueFactory("MonoHost")
    ensures LastFor(r, "IHostApplicationLifetime").Some?
  {
    var options := Descriptor("IConfigureOptions<HostOptions>", ConfigureOptions(ShutdownTimeoutFrom(ConfiguredTimeout(configuration))), Lifetime.Singleton);
    var host := Descriptor("IHost", ByOpaqueFactory("MonoHost"), Lifetime.Singleton);
    var logging := Descriptor("ILoggerFactory", ByType("LoggerFactory"), Lifetime.Singleton);
    TailLastFor(HostDefaults(), host, options, logging, "IHostLifetime");
    TailLastFor(HostDefaults(), host, options, logging, "IHost");
    TailLastFor(HostDefaults(), host, options, logging, "IHostApplicationLifetime");
    HostDefaults() + [UnityLifetimeDescriptor] + [host] + [options] + [logging]
  }

  /** What the registrations after the host's own defaults decide about one service type, one snoc at a time. */
  lemma TailLastFor(base: Services, host: Descriptor, options: Descriptor, logging: Descriptor, t: TypeName)
    requires t != options.serviceType && t != logging.serviceType
    ensures LastFor(base + [UnityLifetimeDescriptor] + [host] + [options] + [logging], t) ==
      if t == host.serviceType then Some(host)
      else if t == UnityLifetimeDescriptor.serviceType then Some(UnityLifetimeDescriptor)
      else LastFor(base, t)
  {
    var s1 := base + [UnityLifetimeDescriptor];
    var s2 := s1 + [host];
    var s3 := s2 + [options];
    LastForSnoc(base, UnityLifetimeDescriptor, t);
    LastForSnoc(s1, host, t);
    LastForSnoc(s2, options, t);
    LastForSnoc(s3, logging, t);
  }

  lemma TailTimeoutAt(base: Services, host: Descriptor, options: Descriptor, logging: Descriptor, d: int)
    requires forall i :: 0 <= i < |base| ==> !SetsShutdownTimeout(base[i])
    requires !SetsShutdownTimeout(host) && SetsShutdownTimeout(options) && !SetsShutdownTimeout(logging)
    ensures EffectiveShutdownTimeout(base + [UnityLifetimeDescriptor] + [host] + [options] + [logging], d)
      == ApplyShutdownTimeout(options.body.setting.configured, d)
  {
    var s1 := base + [UnityLifetimeDescriptor];
    var s2 := s1 + [host];
    var s3 := s2 + [options];
    EffectiveShutdownTimeoutAppend([], base, d);
    assert [] + base == base;
    EffectiveShutdownTimeoutSnoc(base, UnityLifetimeDescriptor, d);
    EffectiveShutdownTimeoutSnoc(s1, host, d);
    EffectiveShutdownTimeoutSnoc(s2, options, d);
    EffectiveShutdownTimeoutSnoc(s3, logging, d);
  }

  /** With the Unity defaults alone, the shutdown timeout is the configured one when it parses, else the library default. */
  lemma UnityDefaultsTimeout(configuration: seq<Configuration.Entry>, d: int)
    ensures EffectiveShutdownTimeout(UnityDefaults(configuration), d) == ApplyShutdownTimeout(ConfiguredTimeout(configuration), d)
  {
    var options := Descriptor("IConfigureOptions<HostOptions>", ConfigureOptions(ShutdownTimeoutFrom(ConfiguredTimeout(configuration))), Lifetime.Singleton);
    var host := Descriptor("IHost", ByOpaqueFactory("MonoHost"), Lifetime.Singleton);
    var logging := Descriptor("ILoggerFactory", ByType("LoggerFactory"), Lifetime.Singleton);
    TailTimeoutAt(HostDefaults(), host, options, logging, d);
  }

  /**
   * Whatever the defaults, a successful build keeps them as its prefix, and
   * what they decide about one service type or about the shutdown timeout
   * holds unless a later registration says otherwise.
   */
  lemma DefaultsDecideUnlessOverridden(b: HostBuilder, defaults: Services, names: (string, string), t: TypeName, d: int)
    requires !b.built
    ensures var r := BuildInternal(b, defaults, names).1;
      r.Ok? ==>
        && r.value.services[..|defaults|] == defaults
        && ((forall i :: |defaults| <= i < |r.value.services| ==> r.value.services[i].serviceType != t)
              ==> LastFor(r.value.services, t) == LastFor(defaults, t))
        && ((forall i :: |defaults| <= i < |r.value.services| ==> !SetsShutdownTimeout(r.value.services[i]))
              ==> EffectiveShutdownTimeout(r.value.services, d) == EffectiveShutdownTimeout(defaults, d))
  {
    var r := BuildInternal(b, defaults, names).1;
    if r.Ok? {
      var s := r.value.services;
      var more := s[|defaults|..];
      assert s == defaults + more;
      assert forall i :: 0 <= i < |more| ==> more[i] == s[|defaults| + i];
      if forall i :: |defaults| <= i < |s| ==> s[i].serviceType != t {
        LastForAppend(defaults, more, t);
      }
      if forall i :: |defaults| <= i < |s| ==> !SetsShutdownTimeout(s[i]) {
        EffectiveShutdownTimeoutAppend(defaults, more, d);
      }
    }
  }

  /**
   * A build with the Unity defaults: they come first, before anything a
   * delegate registers; as long as no delegate registers another host
   * lifetime or HostOptions callback, the host gets UnityLifetime and the
   * configured shutdown timeout.
   */
  lemma UnityDefaultsDecideTheBuild(b: HostBuilder, configuration: seq<Configuration.Entry>, names: (string, string), d: int)
    requires !b.built
    ensures var defaults := UnityDefaults(configuration);
      var r := BuildInternal(b, defaults, names).1;
      r.Ok? ==>
        && r.value.services[..|defaults|] == defaults
        && ((forall i :: |defaults| <= i < |r.value.services| ==> r.value.services[i].serviceType != "IHostLifetime")
              ==> LastFor(r.value.services, "IHostLifetime") == Some(UnityLifetimeDescriptor))
        && ((forall i :: |defaults| <= i < |r.value.services| ==> !SetsShutdownTimeout(r.value.services[i]))
              ==> EffectiveShutdownTimeout(r.value.services, d) == ApplyShutdownTimeout(ConfiguredTimeout(configuration), d))
  {
    DefaultsDecideUnlessOverridden(b, UnityDefaults(configuration), names, "IHostLifetime", d);
    UnityDefaultsTimeout(configuration, d);
  }

  predicate IsDigit(c: char) { '0' <= c <= '9' }

  predicate AllDigits(s: string) {
    forall i :: 0 <= i < |s| ==> IsDigit(s[i])
  }

  /** The decimal value of a digit string, most significant digit first. */
  function DigitsValue(s: string): nat
    requires AllDigits(s)
    decreases |s|
  {
    if |s| == 0 then 0 else DigitsValue(s[..|s| - 1]) * 10 + ((s[|s| - 1] as int) - ('0' as int))
  }

  /** The decimal digits of `n`, without leading zeros. */
  function ToDigits(n: nat): (r: string)
    ensures |r| > 0 && AllDigits(r)
    decreases n
  {
    if n < 10 then [('0' as int + n) as char] else ToDigits(n / 10) + [('0' as int + n % 10) as char]
  }

  /** The text without its leading zeros, down to a single digit. */
  function StripZeros(s: string): (r: string)
    ensures |r| <= |s| && (|s| > 0 ==> |r| > 0)
    decreases |s|
  {
    if |s| > 1 && s[0] == '0' then StripZeros(s[1..]) else s
  }

  /**
   * `int.TryParse(s, NumberStyles.None, InvariantCulture, out v)`: only
   * ASCII digits, at least one, no sign, no white space, no separators, and
   * the value must fit an int. An accepted text is the value's own decimal
   * digits, possibly after leading zeros.
   */
  function ParseIntNone(s: string): (r: Option<int>)
    ensures r.Some? ==> 0 <= r.value <= IntMax && AllDigits(s) && ToDigits(r.value) == StripZeros(s)
    ensures |s| > 0 && AllDigits(s) && DigitsValue(s) <= IntMax ==> r.Some?
  {
    if |s| > 0 && AllDigits(s) && DigitsValue(s) <= IntMax then
      CanonicalDigits(s);
      Some(DigitsValue(s))
    else None
  }

  /** Stripping leading zeros keeps a digit string's value and leaves no leading zero. */
  lemma {:induction false} StripZerosValue(s: string)
    requires |s| > 0 && AllDigits(s)
    ensures var t := StripZeros(s);
      AllDigits(t) && DigitsValue(t) == DigitsValue(s) && (|t| == 1 || t[0] != '0')
    decreases |s|
  {
    if |s| > 1 && s[0] == '0' {
      var rest := s[1..];
      assert AllDigits(rest) by {
        forall i | 0 <= i < |rest| ensures IsDigit(rest[i]) { assert rest[i] == s[i + 1]; }
      }
      StripZerosValue(rest);
      LeadingZeroValue(rest);
      assert s == "0" + rest;
    }
  }

  /** A digit string without leading zeros is exactly the decimal text of its value. */
  lemma {:induction false} NoLeadingZeroDigits(t: string)
    requires |t| > 0 && AllDigits(t) && (|t| == 1 || t[0] != '0')
    ensures ToDigits(DigitsValue(t)) == t
    ensures t[0] != '0' ==> DigitsValue(t) >= 1
    decreases |t|
  {
    var last := t[|t| - 1];
    var d := (last as int) - ('0' as int);
    var init := t[..|t| - 1];
    assert AllDigits(init) by {
      forall i | 0 <= i < |init| ensures IsDigit(init[i]) { assert init[i] == t[i]; }
    }
    if |t| == 1 {
      assert init == [];
      assert DigitsValue(t) == d;
      assert ToDigits(d) == [last];
    } else {
      assert init[0] == t[0];
      NoLeadingZeroDigits(init);
      var v := DigitsValue(t);
      assert v == DigitsValue(init) * 10 + d;
      assert v / 10 == DigitsValue(init) && v % 10 == d;
      assert ToDigits(v) == ToDigits(v / 10) + [('0' as int + v % 10) as char];
      assert t == init + [last];
    }
  }

  /** Every digit string is its value's decimal text after leading zeros. */
  lemma CanonicalDigits(s: string)
    requires |s| > 0 && AllDigits(s)
    ensures ToDigits(DigitsValue(s)) == StripZeros(s)
  {
    StripZerosValue(s);
    NoLeadingZeroDigits(StripZeros(s));
  }

  lemma {:induction false} DigitsValueOfToDigits(n: nat)
    ensures DigitsValue(ToDigits(n)) == n
    decreases n
  {
    var s := ToDigits(n);
    if n >= 10 {
      DigitsValueOfToDigits(n / 10);
      assert s[..|s| - 1] == ToDigits(n / 10);
    }
  }

  /** Every int the host could be configured with parses back from its decimal text. */
  lemma ParseToDigitsRoundTrip(n: nat)
    requires n <= IntMax
    ensures ParseIntNone(ToDigits(n)) == Some(n)
  {
    DigitsValueOfToDigits(n);
  }

  lemma {:induction false} LeadingZeroValue(s: string)
    requires AllDigits(s)
    ensures AllDigits("0" + s) && DigitsValue("0" + s) == DigitsValue(s)
    decreases |s|
  {
    var t := "0" + s;
    assert AllDigits(t) by {
      forall i | 0 <= i < |t| ensures IsDigit(t[i]) {
        if i > 0 { assert t[i] == s[i - 1]; }
      }
    }
    if |s| > 0 {
      assert t[..|t| - 1] == "0" + s[..|s| - 1];
      LeadingZeroValue(s[..|s| - 1]);
    }
  }

  /** Leading zeros are accepted and do not change the value. */
  lemma ParseIgnoresLeadingZero(s: string)
    requires |s| > 0 && AllDigits(s)
    ensures ParseIntNone("0" + s) == ParseIntNone(s)
  {
    LeadingZeroValue(s);
  }

  /**
   * The HostOptions callback: the configured `shutdownTimeoutSeconds`
   * replaces the current timeout only when it is present, non-empty and
   * parses; otherwise the timeout is left as it was.
   */
  function ApplyShutdownTimeout(configured: Option<string>, currentSeconds: int): (r: int)
    ensures configured.None? || |configured.value| == 0 ==> r == currentSeconds
    ensures configured.Some? && ParseIntNone(configured.value).None? ==> r == currentSeconds
    ensures configured.Some? && ParseIntNone(configured.value).Some? ==> r == ParseIntNone(configured.value).value
  {
    if configured.Some? && |configured.value| > 0 && ParseIntNone(configured.value).Some? then ParseIntNone(configured.value).value
    else currentSeconds
  }

  /** Configuring "n" for an int n sets the timeout to n seconds; "-n", " n" or "n.0" leave it alone. */
  lemma ShutdownTimeoutExamples(n: nat, current: int)
    requires n <= IntMax
    ensures ApplyShutdownTimeout(Some(ToDigits(n)), current) == n
    ensures ApplyShutdownTimeout(Some("-" + ToDigits(n)), current) == current
    ensures ApplyShutdownTimeout(Some(" " + ToDigits(n)), current) == current
    ensures ApplyShutdownTimeout(Some(ToDigits(n) + ".0"), current) == current
  {
    ParseToDigitsRoundTrip(n);
    assert !IsDigit(("-" + ToDigits(n))[0]);
    assert !IsDigit((" " + ToDigits(n))[0]);
    var t := ToDigits(n) + ".0";
    assert !IsDigit(t[|ToDigits(n)|]);
  }

  // ---------------------------------------------------------------- Unity host builders

  /**
   * `UnityHostBuilder` (both packages): a host builder plus the
   * Unity-object delegates and the configurator they fill.
   */
  datatype UnityHostBuilder = UnityHostBuilder(
    host: HostBuilder,
    delegates: seq<seq<Registration.Verb>>,
    configurator: Registration.Configurator)

  function NewUnityHostBuilder(injectionMethodName: string): (u: UnityHostBuilder)
    ensures u.delegates == [] && u.configurator == Registration.NewConfigurator(injectionMethodName) && u.host == NewHostBuilder()
  {
    UnityHostBuilder(NewHostBuilder(), [], Registration.NewConfigurator(injectionMethodName))
  }

  /** `ConfigureUnityObjects`: null throws; a delegate is appended. `None` is the null delegate. */
  function ConfigureUnityObjects(u: UnityHostBuilder, configureDelegate: Option<seq<Registration.Verb>>): (r: Result<UnityHostBuilder>)
    ensures r.Err? <==> configureDelegate.None?
    ensures r.Err? ==> r.error == ArgumentNull("configureDelegate")
    ensures r.Ok? ==> (r.value.delegates == u.delegates + [configureDelegate.value]
      && r.value.host == u.host && r.value.configurator == u.configurator)
  {
    if configureDelegate.None? then Err(ArgumentNull("configureDelegate"))
    else Ok(u.(delegates := u.delegates + [configureDelegate.value]))
  }

  /** The two ConfigureServices delegates `Build` appends before building. */
  function UnityBuildCallbacks(u: UnityHostBuilder): seq<ServicesCallback> {
    [AddScopeRoot, RunUnityObjects(u.delegates, u.configurator)]
  }

  /**
   * `Build`: the ScopeRoot registration and then the delegate that runs the
   * Unity-object delegates in order and `Configure`s the configurator are
   * appended, then the host is built (`BuildInternal` in the package with the
   * Unity defaults, `HostBuilder.Build` with the library's in the other).
   */
  function UnityBuild(u: UnityHostBuilder, defaults: Services, names: (string, string)): (r: (UnityHostBuilder, Result<BuiltHost>))
    ensures r.0.host.servicesActions == u.host.servicesActions + UnityBuildCallbacks(u)
    ensures u.host.built ==> r.1 == Err(InvalidOperation("Build can only be called once."))
    ensures r.0.host.built
  {
    var host := ConfigureServices(ConfigureServices(u.host, AddScopeRoot), RunUnityObjects(u.delegates, u.configurator));
    var (h, result) := BuildInternal(host, defaults, names);
    (u.(host := h), result)
  }

  /**
   * In a successful Unity build the ScopeRoot is registered after every
   * earlier delegate and before any Unity object, and the Unity objects are
   * the delegates' verbs run in order by one `Configure`.
   */
  lemma UnityBuildOrder(u: UnityHostBuilder, defaults: Services, names: (string, string))
    requires !u.host.built
    ensures var r := UnityBuild(u, defaults, names).1;
      var ctx := RunAppConfig(u.host.appConfig, Context(names.0, names.1, u.host.properties, []));
      r.Ok? ==>
        && RunServicesCallbacks(u.host.servicesActions, ctx, defaults).Ok?
        && var before := RunServicesCallbacks(u.host.servicesActions, ctx, defaults).value;
           && Registration.Configure(AddAll(u.configurator, Flatten(u.delegates)), before + [ScopeRootDescriptor]).Ok?
           && r.value.services == Registration.Configure(AddAll(u.configurator, Flatten(u.delegates)), before + [ScopeRootDescriptor]).value
                                  + Flatten(u.host.containerActions)
  {
    var ctx := RunAppConfig(u.host.appConfig, Context(names.0, names.1, u.host.properties, []));
    var h1 := ConfigureServices(u.host, AddScopeRoot);
    RunServicesCallbacksSnoc(u.host.servicesActions, AddScopeRoot, ctx, defaults);
    RunServicesCallbacksSnoc(h1.servicesActions, RunUnityObjects(u.delegates, u.configurator), ctx, defaults);
  }

  // ---------------------------------------------------------------- MonoHostBuilder

  /** `MonoHostBuilder`: a wrapped host builder, its collection builder, and the stored Unity-object delegates (`None` = null). */
  datatype MonoHostBuilder = MonoHostBuilder(
    host: HostBuilder,
    collection: Registration.Configurator,
    monoDelegates: seq<Option<seq<Registration.Verb>>>)

  function NewMonoHostBuilder(host: HostBuilder, injectionMethodName: string): (m: MonoHostBuilder)
    ensures m.host == host && m.monoDelegates == [] && m.collection == Registration.NewConfigurator(injectionMethodName)
  {
    MonoHostBuilder(host, Registration.NewConfigurator(injectionMethodName), [])
  }

  /** `ConfigureUnityObjects`: appended without a null check. */
  function MonoConfigureUnityObjects(m: MonoHostBuilder, configureDelegate: Option<seq<Registration.Verb>>): (r: MonoHostBuilder)
    ensures r.monoDelegates == m.monoDelegates + [configureDelegate]
    ensures r.host == m.host && r.collection == m.collection
  {
    m.(monoDelegates := m.monoDelegates + [configureDelegate])
  }

  /** `Properties` and the `Configure*` members forward to the wrapped builder. */
  function MonoConfigureServices(m: MonoHostBuilder, cb: ServicesCallback): (r: MonoHostBuilder)
    ensures r.host == ConfigureServices(m.host, cb) && r.host.properties == m.host.properties
    ensures r.collection == m.collection && r.monoDelegates == m.monoDelegates
  {
    m.(host := ConfigureServices(m.host, cb))
  }

  function MonoConfigureAppConfiguration(m: MonoHostBuilder, a: AppConfigAction): (r: MonoHostBuilder)
    ensures r.host == ConfigureAppConfiguration(m.host, a) && r.host.properties == m.host.properties
    ensures r.collection == m.collection && r.monoDelegates == m.monoDelegates
  {
    m.(host := ConfigureAppConfiguration(m.host, a))
  }

  /**
   * `Build` as written: the ScopeRoot, then the collection builder's actions,
   * then the wrapped build. The stored Unity-object delegates are never read.
   */
  function MonoBuildAsWritten(m: MonoHostBuilder, defaults: Services, names: (string, string)): (r: (HostBuilder, Result<BuiltHost>))
    ensures r.0.servicesActions == m.host.servicesActions
      + [AddScopeRoot, RunCollectionActions(m.collection.actions, m.collection.injectionMethodName)]
  {
    var host := ConfigureServices(ConfigureServices(m.host, AddScopeRoot),
                                  RunCollectionActions(m.collection.actions, m.collection.injectionMethodName));
    BuildInternal(host, defaults, names)
  }

  /** The verbs the non-null delegates add, in order. */
  function DelegateVerbs(ds: seq<Option<seq<Registration.Verb>>>): (r: seq<Registration.Verb>)
    ensures |ds| == 0 ==> r == []
    decreases |ds|
  {
    if |ds| == 0 then [] else (if ds[0].Some? then ds[0].value else []) + DelegateVerbs(ds[1..])
  }

  lemma {:induction false} DelegateVerbsSnoc(ds: seq<Option<seq<Registration.Verb>>>, d: Option<seq<Registration.Verb>>)
    ensures DelegateVerbs(ds + [d]) == DelegateVerbs(ds) + (if d.Some? then d.value else [])
    decreases |ds|
  {
    if |ds| == 0 {
      assert ds + [d] == [d];
      assert ([d])[1..] == [];
    } else {
      assert (ds + [d])[0] == ds[0];
      assert (ds + [d])[1..] == ds[1..] + [d];
      DelegateVerbsSnoc(ds[1..], d);
    }
  }

  /**
   * `Build` as evidently intended: the stored delegates fill the collection
   * builder (null ones skipped) before its actions run.
   */
  function MonoBuild(m: MonoHostBuilder, defaults: Services, names: (string, string)): (r: (HostBuilder, Result<BuiltHost>))
    ensures r.0.servicesActions == m.host.servicesActions
      + [AddScopeRoot, RunCollectionActions(m.collection.actions + DelegateVerbs(m.monoDelegates), m.collection.injectionMethodName)]
  {
    var actions := m.collection.actions + DelegateVerbs(m.monoDelegates);
    var host := ConfigureServices(ConfigureServices(m.host, AddScopeRoot), RunCollectionActions(actions, m.collection.injectionMethodName));
    BuildInternal(host, defaults, names)
  }

  /** As written, a Unity-object delegate makes no difference to what `Build` produces. */
  lemma MonoDelegatesIgnoredAsWritten(m: MonoHostBuilder, d: Option<seq<Registration.Verb>>, defaults: Services, names: (string, string))
    ensures MonoBuildAsWritten(MonoConfigureUnityObjects(m, d), defaults, names) == MonoBuildAsWritten(m, defaults, names)
  {
  }

  /** The input that shows it: a delegate adding a singleton on a fresh builder, and no registration of it after the build. */
  lemma MonoSingletonNeverRegisteredAsWritten(t: TypeName, name: string)
    ensures var m := MonoConfigureUnityObjects(NewMonoHostBuilder(NewHostBuilder(), name), Some([Registration.Singleton(t)]));
      var r := MonoBuildAsWritten(m, [], ("app", "Production")).1;
      r.Ok? && r.value.services == [ScopeRootDescriptor]
  {
    var ctx := Context("app", "Production", map[], []);
    var e: Services := [];
    var cbs := [AddScopeRoot, RunCollectionActions([], name)];
    RunServicesCallbacksSnoc([], AddScopeRoot, ctx, e);
    assert [] + [AddScopeRoot] == [AddScopeRoot];
    assert e + [ScopeRootDescriptor] == [ScopeRootDescriptor];
    RunServicesCallbacksSnoc([AddScopeRoot], RunCollectionActions([], name), ctx, e);
    assert [AddScopeRoot] + [RunCollectionActions([], name)] == cbs;
    assert [] + cbs == cbs;
  }

  /** With the delegates read, every delegate's verbs run after those already added, after the ScopeRoot. */
  lemma MonoBuildRunsDelegates(m: MonoHostBuilder, vs: seq<Registration.Verb>, defaults: Services, names: (string, string))
    ensures MonoBuild(MonoConfigureUnityObjects(m, Some(vs)), defaults, names) ==
      MonoBuildAsWritten(m.(collection := AddAll(m.collection, DelegateVerbs(m.monoDelegates) + vs)), defaults, names)
  {
    DelegateVerbsSnoc(m.monoDelegates, Some(vs));
    assert m.collection.actions + DelegateVerbs(m.monoDelegates + [Some(vs)])
      == AddAll(m.collection, DelegateVerbs(m.monoDelegates) + vs).actions;
  }

  /** The same input with the delegates read: the singleton is registered right after the ScopeRoot. */
  lemma MonoSingletonRegistered(t: TypeName, name: string)
    ensures var m := MonoConfigureUnityObjects(NewMonoHostBuilder(NewHostBuilder(), name), Some([Registration.Singleton(t)]));
      var r := MonoBuild(m, [], ("app", "Production")).1;
      r.Ok? && |r.value.services| == 2 && r.value.services[0] == ScopeRootDescriptor && r.value.services[1].serviceType == t
  {
    var m := MonoConfigureUnityObjects(NewMonoHostBuilder(NewHostBuilder(), name), Some([Registration.Singleton(t)]));
    assert DelegateVerbs(m.monoDelegates) == [Registration.Singleton(t)] by {
      DelegateVerbsSnoc([], Some([Registration.Singleton(t)]));
      assert [] + [Some([Registration.Singleton(t)])] == m.monoDelegates;
    }
    var actions := [Registration.Singleton(t)];
    assert [] + actions == actions;
    var ctx := Context("app", "Production", map[], []);
    var e: Services := [];
    var cbs := [AddScopeRoot, RunCollectionActions(actions, name)];
    RunServicesCallbacksSnoc([], AddScopeRoot, ctx, e);
    assert [] + [AddScopeRoot] == [AddScopeRoot];
    assert e + [ScopeRootDescriptor] == [ScopeRootDescriptor];
    RunServicesCallbacksSnoc([AddScopeRoot], RunCollectionActions(actions, name), ctx, e);
    assert [AddScopeRoot] + [RunCollectionActions(actions, name)] == cbs;
    assert [] + cbs == cbs;
    var one := Registration.RunAction(name, Registration.Singleton(t), [ScopeRootDescriptor]);
    assert one.Ok? && |one.value| == 2;
    assert Registration.RunActions(name, actions, [ScopeRootDescriptor]) == one by {
      assert actions[1..] == [];
    }
  }

  // ---------------------------------------------------------------- extensions

  /** `UseGlobalSettings<TSettings>` as written: the guard reads a key that only the build records. */
  function UseGlobalSettingsAsWritten(b: HostBuilder, settingsType: TypeName): (r: Result<HostBuilder>)
    ensures r.Err? <==> GlobalSettingsSourceKey in b.properties
    ensures r.Err? ==> r.error.InvalidOperation?
    ensures r.Ok? ==> (r.value.properties == b.properties
      && r.value.appConfig == b.appConfig + [AddGlobalSettingsSource(settingsType)]
      && r.value.servicesActions == b.servicesActions + [RegisterGlobalSettings(settingsType)])
  {
    if GlobalSettingsSourceKey in b.properties then Err(InvalidOperation("GlobalSettings already configured"))
    else Ok(ConfigureServices(ConfigureAppConfiguration(b, AddGlobalSettingsSource(settingsType)), RegisterGlobalSettings(settingsType)))
  }

  /** The input that shows it: two calls on a builder that has not been built are both accepted. */
  lemma UseGlobalSettingsTwiceAcceptedAsWritten(b: HostBuilder, t: TypeName, u: TypeName)
    requires GlobalSettingsSourceKey !in b.properties
    ensures UseGlobalSettingsAsWritten(b, t).Ok?
    ensures UseGlobalSettingsAsWritten(UseGlobalSettingsAsWritten(b, t).value, u).Ok?
  {
  }

  /** `UseGlobalSettings<TSettings>` with the key recorded when the call is made, so the guard sees earlier calls. */
  function UseGlobalSettings(b: HostBuilder, settingsType: TypeName): (r: Result<HostBuilder>)
    ensures r.Err? <==> GlobalSettingsSourceKey in b.properties
    ensures r.Err? ==> r.error.InvalidOperation?
    ensures r.Ok? ==> (GlobalSettingsSourceKey in r.value.properties
      && r.value.properties[GlobalSettingsSourceKey] == GlobalSettingsSourceValue(settingsType)
      && r.value.appConfig == b.appConfig + [AddGlobalSettingsSource(settingsType)]
      && r.value.servicesActions == b.servicesActions + [RegisterGlobalSettings(settingsType)])
  {
    if GlobalSettingsSourceKey in b.properties then Err(InvalidOperation("GlobalSettings already configured"))
    else
      var marked := b.(properties := b.properties[GlobalSettingsSourceKey := GlobalSettingsSourceValue(settingsType)]);
      Ok(ConfigureServices(ConfigureAppConfiguration(marked, AddGlobalSettingsSource(settingsType)), RegisterGlobalSettings(settingsType)))
  }

  /** A second call always throws. */
  lemma UseGlobalSettingsOnce(b: HostBuilder, t: TypeName, u: TypeName)
    requires UseGlobalSettings(b, t).Ok?
    ensures UseGlobalSettings(UseGlobalSettings(b, t).value, u).Err?
  {
  }

  /** The source's settings object becomes a TSettings singleton: on a fresh builder, the build registers it last. */
  lemma UseGlobalSettingsRegistersSettings(t: TypeName, defaults: Services, names: (string, string))
    ensures var b := UseGlobalSettings(NewHostBuilder(), t).value;
      var r := BuildInternal(b, defaults, names).1;
      r.Ok? && r.value.services == defaults + [Descriptor(t, ByInstance("GlobalSettingsConfigurationSource.Settings"), Lifetime.Singleton)]
      && r.value.context.sources == [GlobalSettingsSource(t)]
  {
    var b := UseGlobalSettings(NewHostBuilder(), t).value;
    var ctx0 := Context(names.0, names.1, b.properties, []);
    assert b.appConfig == [] + [AddGlobalSettingsSource(t)];
    RunAppConfigSnoc([], AddGlobalSettingsSource(t), ctx0);
    var ctx := RunAppConfig(b.appConfig, ctx0);
    assert ctx.properties == b.properties;
    assert b.servicesActions == [] + [RegisterGlobalSettings(t)];
    RunServicesCallbacksSnoc([], RegisterGlobalSettings(t), ctx, defaults);
  }

  /** Property-bag key of the legacy registration builder. */
  const MonoBehaviourBuilderKey: string := "MonoBehaviourBuilder"

  /** `UseMonoBehaviourServiceCollection`: a second call throws; the first stores exactly one builder under the key. */
  function UseMonoBehaviourServiceCollection(b: HostBuilder, injectionMethodName: string): (r: Result<HostBuilder>)
    ensures r.Err? <==> MonoBehaviourBuilderKey in b.properties
    ensures r.Err? ==> r.error.InvalidOperation?
    ensures r.Ok? ==> (r.value.properties == b.properties[MonoBehaviourBuilderKey := MonoBehaviourBuilderValue(injectionMethodName)]
      && r.value.servicesActions == b.servicesActions && r.value.appConfig == b.appConfig)
  {
    if MonoBehaviourBuilderKey in b.properties then Err(InvalidOperation("UseMonoBehaviourServiceCollection can not be called twice"))
    else Ok(b.(properties := b.properties[MonoBehaviourBuilderKey := MonoBehaviourBuilderValue(injectionMethodName)]))
  }

  lemma UseMonoBehaviourServiceCollectionOnce(b: HostBuilder, n1: string, n2: string)
    requires UseMonoBehaviourServiceCollection(b, n1).Ok?
    ensures UseMonoBehaviourServiceCollection(UseMonoBehaviourServiceCollection(b, n1).value, n2).Err?
  {
  }

  /** A legacy verb registers its ConfigureServices callback on the host builder straight away. */
  function LegacyAdd(b: HostBuilder, injectionMethodName: string, v: LegacyRegistration.LegacyVerb): (r: HostBuilder)
    ensures r == ConfigureServices(b, Legacy(v, injectionMethodName))
  {
    ConfigureServices(b, Legacy(v, injectionMethodName))
  }

  function LegacyAddAll(b: HostBuilder, injectionMethodName: string, vs: seq<LegacyRegistration.LegacyVerb>): (r: HostBuilder)
    ensures r.properties == b.properties && r.appConfig == b.appConfig
    ensures |r.servicesActions| == |b.servicesActions| + |vs|
    ensures r.servicesActions[..|b.servicesActions|] == b.servicesActions
    ensures forall i :: 0 <= i < |vs| ==> r.servicesActions[|b.servicesActions| + i] == Legacy(vs[i], injectionMethodName)
    decreases |vs|
  {
    if |vs| == 0 then b
    else
      var r := LegacyAddAll(LegacyAdd(b, injectionMethodName, vs[0]), injectionMethodName, vs[1..]);
      assert forall i :: 0 <= i < |vs| - 1 ==> r.servicesActions[|b.servicesActions| + 1 + i] == Legacy(vs[1..][i], injectionMethodName);
      r
  }

  /**
   * `ConfigureMonoBehaviours`: without a registered builder it throws; a null
   * delegate changes nothing; otherwise each verb the delegate calls adds one
   * ConfigureServices callback, in order. `None` is the null delegate.
   */
  function ConfigureMonoBehaviours(b: HostBuilder, configure: Option<seq<LegacyRegistration.LegacyVerb>>): (r: Result<HostBuilder>)
    ensures r.Err? <==> MonoBehaviourBuilderKey !in b.properties || !b.properties[MonoBehaviourBuilderKey].MonoBehaviourBuilderValue?
    ensures MonoBehaviourBuilderKey !in b.properties ==> r.Err? && r.error.Argument?
    ensures r.Ok? && configure.None? ==> r.value == b
    ensures r.Ok? && configure.Some? ==>
      var name := b.properties[MonoBehaviourBuilderKey].injectionMethodName;
      && r.value.properties == b.properties
      && |r.value.servicesActions| == |b.servicesActions| + |configure.value|
      && r.value.servicesActions[..|b.servicesActions|] == b.servicesActions
      && forall i :: 0 <= i < |configure.value| ==>
           r.value.servicesActions[|b.servicesActions| + i] == Legacy(configure.value[i], name)
  {
    if MonoBehaviourBuilderKey !in b.properties then
      Err(Argument("MonoBehaviour ServiceCollection Builder is not registered in HostBuilder. Add UseMonoBehaviourServiceCollection to the IHostBuilder"))
    else if !b.properties[MonoBehaviourBuilderKey].MonoBehaviourBuilderValue? then Err(InvalidCast)
    else if configure.None? then Ok(b)
    else Ok(LegacyAddAll(b, b.properties[MonoBehaviourBuilderKey].injectionMethodName, configure.value))
  }

  /**
   * The ConsoleLifetimeOptions value the options system ends with: each
   * SuppressStatusMessages configure callback overwrites the previous one.
   */
  function EffectiveSuppressStatusMessages(services: Services): Option<bool>
    decreases |services|
  {
    if |services| == 0 then None
    else
      var last := services[|services| - 1];
      if last.body.ConfigureOptions? && last.body.setting.SuppressStatusMessages? then Some(last.body.setting.suppress)
      else EffectiveSuppressStatusMessages(services[..|services| - 1])
  }

  /** `SuppressStatusMessages` (both packages): a ConsoleLifetimeOptions configure callback appended. */
  function SuppressStatusMessagesExt(services: Services, suppress: bool): (r: Services)
    ensures services <= r && |r| == |services| + 1
    ensures EffectiveSuppressStatusMessages(r) == Some(suppress)
  {
    services + [Descriptor("IConfigureOptions<ConsoleLifetimeOptions>", ConfigureOptions(SuppressStatusMessages(suppress)), Lifetime.Singleton)]
  }

  /** The `AddHostedService<TService, TImplementation>()` extension (both packages): a type registration plus the hosted wrapper. */
  function AddHostedServiceExt(services: Services, service: TypeName, impl: TypeName): (r: Services)
    ensures services <= r && |services| < |r| && r[|services|] == Descriptor(service, ByType(impl), Lifetime.Singleton)
    ensures Registration.HasHostedWrapper(r, service)
    ensures |r| == |services| + (if Registration.HasHostedWrapper(services + [r[|services|]], service) then 1 else 2)
  {
    Registration.AddHostedService(services, service, ByType(impl))
  }
}

=== FILE: host_manager.dfy ===
/**
 * The `HostManager` component that owns a host inside a Unity scene: the
 * built/started flags, which calls warn, which throw and which reset the
 * flags, the one-shot host events, and the inspector normalisation.
 *
 * How the host's own build, start and stop end is a parameter of each
 * operation; what the manager does is the new state, a list of effects and
 * an outcome.
 */
module HostManagement {
  import opened Common

  const DefaultInjectionMethodName: string := "AwakeServices"
  const DefaultHostApplicationName: string := "Unity Application"
  const DefaultGracefulShutdownTimeoutMs: int := 5000
  const MinGracefulShutdownTimeoutMs: int := 100

  /** The manager's serialized events; `HostBuilding` exists only in the newer manager. */
  datatype ManagerEvent = HostBuilding | HostBuilt | HostStarted | HostStopping | HostStopped

  /** The events raised from the host's lifetime tokens once a build has hooked them. */
  predicate LifetimeEvent(e: ManagerEvent) {
    e.HostStarted? || e.HostStopping? || e.HostStopped?
  }

  datatype ManagerEffect =
    | Warn(message: string)
    | AddServicesLookup                        // a `ConfigureServices` delegate registering the `ServicesLookup`
    | BuildHost
    | StartHost(awaited: bool)
    | CancelStartToken
    | StopHost
    | StopApplication                          // `IHostApplicationLifetime.StopApplication`
    | DisposeHost
    | Invoke(event: ManagerEvent, listeners: nat)
    | QuitApplication

  /**
   * Where a build attempt throws once the builder's `Build()` has been
   * entered, in the order the build reaches those points.
   */
  datatype BuildFailure =
    | InBuild(error: Error)              // `Build()` itself: a configuration delegate, a registration, the container
    | InLifetimeLookup(error: Error)     // resolving `IHostApplicationLifetime` from the built host
    | InBuiltListener(error: Error)      // a `hostBuilt` listener, after the lifetime is hooked

  /** The message of the builder's own guard against a second `Build()`. */
  const BuildCalledTwice: string := "Build can only be called once."

  datatype Manager = Manager(
    built: bool,
    started: bool,
    hostExists: bool,
    buildOnAwake: bool,
    controlUnityLifetime: bool,
    hooked: bool,                              // the lifetime callbacks have been registered
    builderSpent: bool,                        // the builder's `Build()` has been entered once
    persistentListeners: map<ManagerEvent, nat>, // set in the inspector; `RemoveAllListeners` keeps them
    runtimeListeners: map<ManagerEvent, nat>,    // added with `AddListener`; `RemoveAllListeners` drops them
    fired: set<ManagerEvent>)                  // the hooked host's lifetime tokens that have already fired

  datatype Step = Step(manager: Manager, effects: seq<ManagerEffect>, outcome: Result<()>)

  /** The manager as the scene creates it: nothing built, nothing started, a fresh builder, no token fired. */
  function NewManager(buildOnAwake: bool, controlUnityLifetime: bool, persistent: map<ManagerEvent, nat>, runtime: map<ManagerEvent, nat>): (m: Manager)
    ensures !m.built && !m.started && !m.hostExists && !m.hooked && !m.builderSpent && m.fired == {}
    ensures m.buildOnAwake == buildOnAwake && m.controlUnityLifetime == controlUnityLifetime
    ensures forall e :: ListenerCount(m, e) == (if e in persistent then persistent[e] else 0) + (if e in runtime then runtime[e] else 0)
    ensures Inv(m)
  {
    Manager(false, false, false, buildOnAwake, controlUnityLifetime, false, false, persistent, runtime, {})
  }

  /**
   * Between calls: only a built host is started; a built manager has spent
   * its builder on a host whose lifetime is hooked; hooking needs a host;
   * no token has fired before the lifetime is hooked.
   */
  predicate Inv(m: Manager) {
    (m.started ==> m.built)
    && (m.built ==> m.hostExists && m.hooked && m.builderSpent)
    && (m.hooked ==> m.hostExists)
    && (!m.hooked ==> m.fired == {})
  }

  /** The inspector's listeners of an event. */
  function PersistentCount(m: Manager, e: ManagerEvent): nat {
    if e in m.persistentListeners then m.persistentListeners[e] else 0
  }

  /** The listeners an invocation of the event reaches: the inspector's and the ones added at runtime. */
  function ListenerCount(m: Manager, e: ManagerEvent): nat {
    PersistentCount(m, e) + (if e in m.runtimeListeners then m.runtimeListeners[e] else 0)
  }

  /** `Services`: only a built host's provider is handed out. */
  function Services(m: Manager, provider: nat): (r: Result<nat>)
    ensures r.Ok? <==> m.built
    ensures r.Err? ==> r.error == InvalidOperation("Host must be built before accessing Services")
    ensures r.Ok? ==> r.value == provider
  {
    if !m.built then Err(InvalidOperation("Host must be built before accessing Services")) else Ok(provider)
  }

  /**
   * `BuildHost`: the built flag is set first and every failure clears it and
   * rethrows. The `hostBuilding` listeners run before the builder is touched
   * (`listenerFailure`). Then the `ServicesLookup` delegate is added and
   * `Build()` is entered, which spends the builder: a spent builder throws
   * "Build can only be called once.", and how a fresh one ends is `failure`.
   * A host that was built keeps its reference even when the lifetime lookup
   * or a later step fails; a failure in a `hostBuilt` listener comes after
   * the lifetime is hooked. Hooking registers on the new host's tokens, none
   * of which has fired yet. A success removes the built event's runtime
   * listeners; the inspector's stay.
   */
  function DoBuildHost(m: Manager, listenerFailure: Option<Error>, failure: Option<BuildFailure>): (r: Step)
    ensures |r.effects| >= 1 && r.effects[0] == Invoke(HostBuilding, ListenerCount(m, HostBuilding))
    ensures r.outcome.Ok? <==> listenerFailure.None? && failure.None? && !m.builderSpent
    ensures r.outcome.Ok? ==> r.manager.built && r.manager.builderSpent && r.manager.hostExists && r.manager.hooked
    ensures r.outcome.Ok? ==> r.effects[|r.effects| - 1] == Invoke(HostBuilt, ListenerCount(m, HostBuilt))
    ensures r.outcome.Ok? ==> r.manager.runtimeListeners == m.runtimeListeners[HostBuilt := 0]
                              && ListenerCount(r.manager, HostBuilt) == PersistentCount(m, HostBuilt)
    ensures r.outcome.Err? ==> !r.manager.built && r.manager.runtimeListeners == m.runtimeListeners
    ensures r.manager.persistentListeners == m.persistentListeners
    ensures BuildHost in r.effects && !m.builderSpent && (failure.None? || failure.value.InBuiltListener?) ==> r.manager.fired == {}
    ensures !(BuildHost in r.effects && !m.builderSpent && (failure.None? || failure.value.InBuiltListener?)) ==> r.manager.fired == m.fired
    ensures listenerFailure.Some? ==> r.manager == m.(built := false) && r.outcome == Err(listenerFailure.value)
                                      && BuildHost !in r.effects
    ensures listenerFailure.None? && m.builderSpent ==>
      r.manager == m.(built := false) && r.outcome == Err(InvalidOperation(BuildCalledTwice))
    ensures listenerFailure.None? && !m.builderSpent && failure.Some? ==> r.outcome == Err(failure.value.error)
    ensures r.manager.builderSpent <==> m.builderSpent || BuildHost in r.effects
    ensures r.manager.hostExists <==> m.hostExists || (BuildHost in r.effects && !m.builderSpent && !(failure.Some? && failure.value.InBuild?))
    ensures r.manager.hooked <==> m.hooked || (BuildHost in r.effects && !m.builderSpent && (failure.None? || failure.value.InBuiltListener?))
    ensures r.manager.started == m.started && r.manager.buildOnAwake == m.buildOnAwake
    ensures r.manager.controlUnityLifetime == m.controlUnityLifetime
  {
    var building := Invoke(HostBuilding, ListenerCount(m, HostBuilding));
    var entered := [building, AddServicesLookup, BuildHost];
    var spent := m.(built := false, builderSpent := true);
    if listenerFailure.Some? then Step(m.(built := false), [building], Err(listenerFailure.value))
    else if m.builderSpent then Step(m.(built := false), entered, Err(InvalidOperation(BuildCalledTwice)))
    else if failure.Some? && failure.value.InBuild? then Step(spent, entered, Err(failure.value.error))
    else if failure.Some? && failure.value.InLifetimeLookup? then Step(spent.(hostExists := true), entered, Err(failure.value.error))
    else if failure.Some? then
      Step(spent.(hostExists := true, hooked := true, fired := {}), entered + [Invoke(HostBuilt, ListenerCount(m, HostBuilt))], Err(failure.value.error))
    else
      Step(m.(built := true, builderSpent := true, hostExists := true, hooked := true,
              runtimeListeners := m.runtimeListeners[HostBuilt := 0], fired := {}),
           entered + [Invoke(HostBuilt, ListenerCount(m, HostBuilt))], Ok(()))
  }

  /** `BuildManually`: warns and does nothing when already built or when the host builds on Awake. */
  function BuildManually(m: Manager, listenerFailure: Option<Error>, failure: Option<BuildFailure>): (r: Step)
    ensures m.built ==> r == Step(m, [Warn("Host is already built")], Ok(()))
    ensures !m.built && m.buildOnAwake ==> r.manager == m && |r.effects| == 1 && r.effects[0].Warn? && r.outcome.Ok?
    ensures !m.built && !m.buildOnAwake ==> r == DoBuildHost(m, listenerFailure, failure)
  {
    if m.built then Step(m, [Warn("Host is already built")], Ok(()))
    else if m.buildOnAwake then Step(m, [Warn("buildOnAwake should be set to false to use BuildManually method")], Ok(()))
    else DoBuildHost(m, listenerFailure, failure)
  }

  /** `Awake`: creates a fresh builder and builds straight away when configured to. */
  function Awake(m: Manager, listenerFailure: Option<Error>, failure: Option<BuildFailure>): (r: Step)
    ensures !m.buildOnAwake ==> r == Step(m.(builderSpent := false), [], Ok(()))
    ensures m.buildOnAwake ==> r == DoBuildHost(m.(builderSpent := false), listenerFailure, failure)
  {
    var created := m.(builderSpent := false);
    if m.buildOnAwake then DoBuildHost(created, listenerFailure, failure) else Step(created, [], Ok(()))
  }

  /**
   * `StartHost`: a second start only warns; otherwise the started flag is set
   * and the host's start is fired without being awaited, so how it ends
   * does not reach the manager.
   */
  function DoStartHost(m: Manager): (r: Step)
    ensures m.started ==> r == Step(m, [Warn("The Host is already started")], Ok(()))
    ensures !m.started ==> r == Step(m.(started := true), [StartHost(false)], Ok(()))
  {
    if m.started then Step(m, [Warn("The Host is already started")], Ok(()))
    else Step(m.(started := true), [StartHost(false)], Ok(()))
  }

  /** `StartHostAsync`: as `StartHost`, but the start is awaited and a failure clears the started flag and rethrows. */
  function DoStartHostAsync(m: Manager, failure: Option<Error>): (r: Step)
    ensures m.started ==> r == Step(m, [Warn("The Host is already started")], Ok(()))
    ensures !m.started && failure.None? ==> r.manager == m.(started := true) && r.outcome.Ok?
    ensures !m.started && failure.Some? ==> r.manager == m && r.outcome == Err(failure.value)
    ensures !m.started ==> r.effects == [StartHost(true)]
  {
    if m.started then Step(m, [Warn("The Host is already started")], Ok(()))
    else if failure.Some? then Step(m, [StartHost(true)], Err(failure.value))
    else Step(m.(started := true), [StartHost(true)], Ok(()))
  }

  /** `StartManually`: throws unless the host is built. */
  function StartManually(m: Manager): (r: Step)
    ensures !m.built ==> r == Step(m, [], Err(InvalidOperation("Host must be build before start.")))
    ensures m.built ==> r == DoStartHost(m)
  {
    if !m.built then Step(m, [], Err(InvalidOperation("Host must be build before start."))) else DoStartHost(m)
  }

  /** Unity's `Start`: starts a built host; warns when the host should have been built on Awake but was not. */
  function UnityStart(m: Manager, failure: Option<Error>): (r: Step)
    ensures m.built ==> r == DoStartHostAsync(m, failure)
    ensures !m.built && m.buildOnAwake ==> r.manager == m && |r.effects| == 1 && r.effects[0].Warn? && r.outcome.Ok?
    ensures !m.built && !m.buildOnAwake ==> r == Step(m, [], Ok(()))
  {
    if m.built then DoStartHostAsync(m, failure)
    else if m.buildOnAwake then Step(m, [Warn("Host can not be started. Build on Awake is true, but the host wasn't built")], Ok(()))
    else Step(m, [], Ok(()))
  }

  /**
   * `StopManually` / `StopManuallyAsync`: throws only when the host is
   * neither built nor started; otherwise, when a host exists, the start token
   * is cancelled before the host is stopped.
   */
  function StopManually(m: Manager, failure: Option<Error>): (r: Step)
    ensures r.manager == m
    ensures failure.None? ==> (r.outcome.Err? <==> !m.built && !m.started)
    ensures !m.built && !m.started ==> r.effects == [] && r.outcome == Err(InvalidOperation("Host must be build and started before stop."))
    ensures (m.built || m.started) && m.hostExists ==> (r.effects == [CancelStartToken, StopHost]
      && r.outcome == (if failure.Some? then Err(failure.value) else Ok(())))
    ensures (m.built || m.started) && !m.hostExists ==> r == Step(m, [], Ok(()))
  {
    if !m.built && !m.started then Step(m, [], Err(InvalidOperation("Host must be build and started before stop.")))
    else if m.hostExists then Step(m, [CancelStartToken, StopHost], if failure.Some? then Err(failure.value) else Ok(()))
    else Step(m, [], Ok(()))
  }

  /**
   * `OnApplicationQuitting` (subscribed once the lifetime is hooked): cancel
   * the start token, stop the host within the graceful timeout, dispose it.
   * A failing stop ends the handler before the dispose.
   */
  function OnApplicationQuitting(m: Manager, failure: Option<Error>): (r: Step)
    requires m.hostExists
    ensures r.manager == m
    ensures failure.None? ==> r.effects == [CancelStartToken, StopHost, DisposeHost] && r.outcome.Ok?
    ensures failure.Some? ==> r.effects == [CancelStartToken, StopHost] && r.outcome == Err(failure.value)
  {
    if failure.Some? then Step(m, [CancelStartToken, StopHost], Err(failure.value))
    else Step(m, [CancelStartToken, StopHost, DisposeHost], Ok(()))
  }

  /**
   * A lifetime notification reaching the manager's event. Each token fires
   * once, so only its first notification does anything, and only once the
   * lifetime is hooked. Then the listeners are invoked and the runtime ones
   * removed (`RemoveAllListeners` keeps the inspector's); the stopped
   * notification also quits the application when the manager controls
   * Unity's lifetime. The quit callback is registered after the listeners'
   * one and a cancellation token runs its callbacks latest first, so the
   * quit comes first.
   */
  function Fire(m: Manager, e: ManagerEvent): (r: (Manager, seq<ManagerEffect>))
    requires LifetimeEvent(e)
    ensures !m.hooked || e in m.fired ==> r == (m, [])
    ensures m.hooked && e !in m.fired ==>
      r.0 == m.(runtimeListeners := m.runtimeListeners[e := 0], fired := m.fired + {e})
      && |r.1| >= 1 && r.1[|r.1| - 1] == Invoke(e, ListenerCount(m, e))
    ensures m.hooked && e !in m.fired ==> ListenerCount(r.0, e) == PersistentCount(m, e)
    ensures QuitApplication in r.1 <==> m.hooked && e !in m.fired && e == HostStopped && m.controlUnityLifetime
    ensures QuitApplication in r.1 ==> r.1 == [QuitApplication, Invoke(e, ListenerCount(m, e))]
    ensures QuitApplication !in r.1 ==> |r.1| <= 1
  {
    if !m.hooked || e in m.fired then (m, [])
    else
      (m.(runtimeListeners := m.runtimeListeners[e := 0], fired := m.fired + {e}),
       (if e == HostStopped && m.controlUnityLifetime then [QuitApplication] else []) + [Invoke(e, ListenerCount(m, e))])
  }

  /**
   * Each host event reaches its listeners at most once per host: the token
   * has fired, so a second notification invokes nobody and changes nothing,
   * although the inspector's listeners are still registered.
   */
  lemma EventsFireOnce(m: Manager, e: ManagerEvent)
    requires LifetimeEvent(e)
    ensures var first := Fire(m, e);
      Fire(first.0, e) == (first.0, [])
      && first.0.persistentListeners == m.persistentListeners
  {
  }

  /**
   * The built event is invoked once per build: a build that succeeds leaves
   * only the inspector's listeners, and a later manual build only warns.
   */
  lemma BuiltEventFiresOnce(m: Manager, listenerFailure: Option<Error>, failure: Option<BuildFailure>)
    requires !m.builderSpent
    ensures var built := DoBuildHost(m, None, None);
      && built.outcome.Ok?
      && ListenerCount(built.manager, HostBuilt) == PersistentCount(m, HostBuilt)
      && BuildManually(built.manager, listenerFailure, failure) == Step(built.manager, [Warn("Host is already built")], Ok(()))
  {
  }

  /**
   * What removing the listeners changes: once a host has notified an event,
   * the next host built by a fresh builder reaches only the inspector's
   * listeners of that event, as the runtime ones were removed.
   */
  lemma NextHostReachesPersistentListeners(m: Manager, e: ManagerEvent)
    requires LifetimeEvent(e) && m.hooked && e !in m.fired && m.buildOnAwake
    ensures var notified := Fire(m, e).0;
      var rebuilt := Awake(notified, None, None);
      && rebuilt.outcome.Ok?
      && Fire(rebuilt.manager, e).1[|Fire(rebuilt.manager, e).1| - 1] == Invoke(e, PersistentCount(m, e))
  {
    var notified := Fire(m, e).0;
    var rebuilt := Awake(notified, None, None);
    assert rebuilt.manager.fired == {};
    assert ListenerCount(rebuilt.manager, e) == PersistentCount(m, e);
  }

  /** A build attempt, however it ends, keeps the flags consistent. */
  lemma BuildKeepsInv(m: Manager, listenerFailure: Option<Error>, buildFailure: Option<BuildFailure>)
    requires Inv(m)
    ensures Inv(BuildManually(m, listenerFailure, buildFailure).manager)
    ensures !m.built ==> Inv(Awake(m, listenerFailure, buildFailure).manager)
  {
    if !m.built && !m.buildOnAwake {
      var r := DoBuildHost(m, listenerFailure, buildFailure);
      assert r.manager.hooked ==> r.manager.hostExists;
    }
  }

  /** Every operation keeps the flags consistent. */
  lemma OperationsKeepInv(m: Manager, listenerFailure: Option<Error>, buildFailure: Option<BuildFailure>, failure: Option<Error>)
    requires Inv(m)
    ensures Inv(BuildManually(m, listenerFailure, buildFailure).manager)
    ensures !m.built ==> Inv(Awake(m, listenerFailure, buildFailure).manager)
    ensures Inv(StartManually(m).manager)
    ensures Inv(UnityStart(m, failure).manager)
    ensures Inv(StopManually(m, failure).manager)
    ensures m.hostExists ==> Inv(OnApplicationQuitting(m, failure).manager)
    ensures forall e | LifetimeEvent(e) :: Inv(Fire(m, e).0)
  {
    BuildKeepsInv(m, listenerFailure, buildFailure);
    StartStopKeepInv(m, failure);
  }

  lemma StartStopKeepInv(m: Manager, failure: Option<Error>)
    requires Inv(m)
    ensures Inv(StartManually(m).manager)
    ensures Inv(UnityStart(m, failure).manager)
    ensures Inv(StopManually(m, failure).manager)
    ensures m.hostExists ==> Inv(OnApplicationQuitting(m, failure).manager)
  {
  }

  /** Since a started host is built, `StopManually` throws exactly when the host is not built. */
  lemma StopManuallyThrowsIffNotBuilt(m: Manager)
    requires Inv(m)
    ensures StopManually(m, None).outcome.Err? <==> !m.built
  {
  }

  /**
   * A `hostBuilding` listener that throws leaves the builder untouched, so the
   * build can be retried; a successful build is not repeated.
   */
  lemma BuildRetry(m: Manager, e: Error)
    requires !m.built && !m.buildOnAwake && !m.builderSpent
    ensures var failed := BuildManually(m, Some(e), None);
      failed.outcome == Err(e) && !failed.manager.built && !failed.manager.builderSpent
      && BuildManually(failed.manager, None, None).outcome.Ok? && BuildManually(failed.manager, None, None).manager.built
      && BuildManually(BuildManually(failed.manager, None, None).manager, None, None).effects == [Warn("Host is already built")]
  {
    var failed := BuildManually(m, Some(e), None);
    assert failed.manager == m.(built := false);
    var built := BuildManually(failed.manager, None, None);
    assert built.manager.built;
  }

  /**
   * A failure once `Build()` has been entered spends the builder: the next
   * attempt that gets past the `hostBuilding` listeners throws "Build can
   * only be called once.", however the build would have ended.
   */
  lemma NoRetryAfterBuildFailure(m: Manager, f: BuildFailure, later: Option<BuildFailure>)
    requires !m.built && !m.buildOnAwake && !m.builderSpent
    ensures var failed := BuildManually(m, None, Some(f));
      failed.outcome == Err(f.error) && !failed.manager.built && failed.manager.builderSpent
      && BuildManually(failed.manager, None, later).outcome == Err(InvalidOperation(BuildCalledTwice))
  {
  }

  /** The manager after a series of `BuildManually` calls, each ending as its pair says. */
  function BuildAttempts(m: Manager, attempts: seq<(Option<Error>, Option<BuildFailure>)>): Manager
    decreases |attempts|
  {
    if |attempts| == 0 then m
    else BuildAttempts(BuildManually(m, attempts[0].0, attempts[0].1).manager, attempts[1..])
  }

  /** Once the builder is spent without a host being built, no number of further attempts builds one. */
  lemma {:induction false} SpentBuilderNeverBuilds(m: Manager, attempts: seq<(Option<Error>, Option<BuildFailure>)>)
    requires m.builderSpent && !m.built
    ensures BuildAttempts(m, attempts).builderSpent && !BuildAttempts(m, attempts).built
    decreases |attempts|
  {
    if |attempts| > 0 {
      var next := BuildManually(m, attempts[0].0, attempts[0].1).manager;
      assert next.builderSpent && !next.built;
      SpentBuilderNeverBuilds(next, attempts[1..]);
    }
  }

  /** A failed awaited start clears the started flag, so the next Unity start tries again. */
  lemma FailedStartCanBeRetried(m: Manager, e: Error)
    requires m.built && !m.started
    ensures var failed := UnityStart(m, Some(e));
      failed.outcome.Err? && !failed.manager.started
      && UnityStart(failed.manager, None).effects == [StartHost(true)] && UnityStart(failed.manager, None).manager.started
  {
  }

  // ---------------------------------------------------------------- inspector normalisation

  datatype InspectorSettings = InspectorSettings(
    injectionMethodName: Option<string>,
    hostApplicationName: Option<string>,
    gracefulShutdownTimeoutMs: int)

  predicate IsNullOrEmpty(s: Option<string>) {
    s.None? || |s.value| == 0
  }

  /**
   * `OnValidate`: an empty injection name becomes "AwakeServices"; an empty
   * application name becomes the product name, or "Unity Application" when
   * that is empty too; a timeout of 100 ms or less becomes 5000 ms. Values
   * already acceptable are kept.
   */
  function OnValidate(s: InspectorSettings, productName: Option<string>): (r: InspectorSettings)
    ensures !IsNullOrEmpty(r.injectionMethodName) && !IsNullOrEmpty(r.hostApplicationName)
    ensures r.gracefulShutdownTimeoutMs > MinGracefulShutdownTimeoutMs
    ensures !IsNullOrEmpty(s.injectionMethodName) ==> r.injectionMethodName == s.injectionMethodName
    ensures IsNullOrEmpty(s.injectionMethodName) ==> r.injectionMethodName == Some(DefaultInjectionMethodName)
    ensures !IsNullOrEmpty(s.hostApplicationName) ==> r.hostApplicationName == s.hostApplicationName
    ensures IsNullOrEmpty(s.hostApplicationName) && !IsNullOrEmpty(productName) ==> r.hostApplicationName == productName
    ensures IsNullOrEmpty(s.hostApplicationName) && IsNullOrEmpty(productName) ==> r.hostApplicationName == Some(DefaultHostApplicationName)
    ensures s.gracefulShutdownTimeoutMs > MinGracefulShutdownTimeoutMs ==> r.gracefulShutdownTimeoutMs == s.gracefulShutdownTimeoutMs
    ensures s.gracefulShutdownTimeoutMs <= MinGracefulShutdownTimeoutMs ==> r.gracefulShutdownTimeoutMs == DefaultGracefulShutdownTimeoutMs
  {
    InspectorSettings(
      if IsNullOrEmpty(s.injectionMethodName) then Some(DefaultInjectionMethodName) else s.injectionMethodName,
      if !IsNullOrEmpty(s.hostApplicationName) then s.hostApplicationName
      else if IsNullOrEmpty(productName) then Some(DefaultHostApplicationName) else productName,
      if s.gracefulShutdownTimeoutMs <= MinGracefulShutdownTimeoutMs then DefaultGracefulShutdownTimeoutMs else s.gracefulShutdownTimeoutMs)
  }

  /** Validating validated settings changes nothing, whatever the product name. */
  lemma OnValidateIdempotent(s: InspectorSettings, p: Option<string>, q: Option<string>)
    ensures OnValidate(OnValidate(s, p), q) == OnValidate(s, p)
  {
  }
}

=== FILE: legacy_host_manager.dfy ===
/**
 * The older `HostManager` of the root package: the same built/started
 * flags, a build that keeps the event listeners, a synchronous start, and a
 * stop driven by the component being disabled.
 */
module LegacyHostManagement {
  import opened Common
  import opened HostManagement

  /**
   * `BuildHost`: the built flag is set first and cleared again when the build
   * throws. There is no building event: `Build()` is entered straight away
   * and spends the builder, whose own guard makes a second call throw "Build
   * can only be called once.". A built host keeps its reference even when
   * the lifetime lookup fails; once the lifetime is hooked (the quit request
   * hook too when bound to Unity's lifetime) the built event is invoked, and
   * its listeners stay registered. Hooking registers on the new host's
   * tokens, none of which has fired yet.
   */
  function LegacyBuildHost(m: Manager, failure: Option<BuildFailure>): (r: Step)
    ensures |r.effects| >= 1 && r.effects[0] == BuildHost
    ensures r.outcome.Ok? <==> failure.None? && !m.builderSpent
    ensures r.outcome.Ok? ==> r.manager == m.(built := true, builderSpent := true, hostExists := true, hooked := true, fired := {})
    ensures r.outcome.Ok? ==> r.effects == [BuildHost, Invoke(HostBuilt, ListenerCount(m, HostBuilt))]
    ensures r.outcome.Err? ==> !r.manager.built && r.manager.builderSpent
    ensures m.builderSpent ==> r.manager == m.(built := false) && r.outcome == Err(InvalidOperation(BuildCalledTwice))
    ensures !m.builderSpent && failure.Some? ==> r.outcome == Err(failure.value.error)
    ensures r.manager.hostExists <==> m.hostExists || (!m.builderSpent && !(failure.Some? && failure.value.InBuild?))
    ensures r.manager.hooked <==> m.hooked || (!m.builderSpent && (failure.None? || failure.value.InBuiltListener?))
    ensures !m.builderSpent && (failure.None? || failure.value.InBuiltListener?) ==> r.manager.fired == {}
    ensures !(!m.builderSpent && (failure.None? || failure.value.InBuiltListener?)) ==> r.manager.fired == m.fired
    ensures r.manager.persistentListeners == m.persistentListeners && r.manager.runtimeListeners == m.runtimeListeners
    ensures r.manager.started == m.started
    ensures r.manager.buildOnAwake == m.buildOnAwake && r.manager.controlUnityLifetime == m.controlUnityLifetime
  {
    var spent := m.(built := false, builderSpent := true);
    if m.builderSpent then Step(m.(built := false), [BuildHost], Err(InvalidOperation(BuildCalledTwice)))
    else if failure.Some? && failure.value.InBuild? then Step(spent, [BuildHost], Err(failure.value.error))
    else if failure.Some? && failure.value.InLifetimeLookup? then Step(spent.(hostExists := true), [BuildHost], Err(failure.value.error))
    else if failure.Some? then
      Step(spent.(hostExists := true, hooked := true, fired := {}), [BuildHost, Invoke(HostBuilt, ListenerCount(m, HostBuilt))], Err(failure.value.error))
    else Step(m.(built := true, builderSpent := true, hostExists := true, hooked := true, fired := {}),
              [BuildHost, Invoke(HostBuilt, ListenerCount(m, HostBuilt))], Ok(()))
  }

  /** `BuildManually`: the same guards as the newer manager, over this build. */
  function LegacyBuildManually(m: Manager, failure: Option<BuildFailure>): (r: Step)
    ensures m.built ==> r == Step(m, [Warn("Host is already built")], Ok(()))
    ensures !m.built && m.buildOnAwake ==> r.manager == m && |r.effects| == 1 && r.effects[0].Warn? && r.outcome.Ok?
    ensures !m.built && !m.buildOnAwake ==> r == LegacyBuildHost(m, failure)
  {
    if m.built then Step(m, [Warn("Host is already built")], Ok(()))
    else if m.buildOnAwake then Step(m, [Warn("buildOnAwake should be set to false to use BuildManually method")], Ok(()))
    else LegacyBuildHost(m, failure)
  }

  /** Without a building event, any failed build spends the builder: no manual retry can succeed. */
  lemma LegacyNoRetryAfterFailure(m: Manager, f: BuildFailure, later: Option<BuildFailure>)
    requires !m.built && !m.buildOnAwake && !m.builderSpent
    ensures var failed := LegacyBuildManually(m, Some(f));
      failed.outcome == Err(f.error) && !failed.manager.built
      && LegacyBuildManually(failed.manager, later).outcome == Err(InvalidOperation(BuildCalledTwice))
      && !LegacyBuildManually(failed.manager, later).manager.built
  {
  }

  /**
   * The handler a hooked build adds to `Application.wantsToQuit` when bound to
   * Unity's lifetime: it asks the host to stop and always lets Unity quit.
   */
  function WantsToQuit(m: Manager): (r: (seq<ManagerEffect>, bool))
    ensures r.1
    ensures StopApplication in r.0 <==> m.hooked && m.controlUnityLifetime
    ensures StopApplication !in r.0 ==> r.0 == []
    ensures StopApplication in r.0 ==> r.0 == [StopApplication]
  {
    if m.hooked && m.controlUnityLifetime then ([StopApplication], true) else ([], true)
  }

  /**
   * Bound to Unity's lifetime, a quit request and the host's stop close the
   * loop: the request stops the host, and the stopped notification quits
   * Unity before its listeners run.
   */
  lemma QuitRequestStopsHost(m: Manager)
    requires m.hooked && m.controlUnityLifetime && HostStopped !in m.fired
    ensures WantsToQuit(m) == ([StopApplication], true)
    ensures LegacyFire(m, HostStopped).1 == [QuitApplication, Invoke(HostStopped, ListenerCount(m, HostStopped))]
  {
  }

  /** `StartHost`: the start is synchronous, so a failure clears the started flag and rethrows. */
  function LegacyStartHost(m: Manager, failure: Option<Error>): (r: Step)
    ensures m.started ==> r == Step(m, [Warn("The Host is already started")], Ok(()))
    ensures !m.started ==> r.effects == [StartHost(true)] && (r.manager.started <==> failure.None?)
    ensures !m.started && failure.Some? ==> r.manager == m && r.outcome == Err(failure.value)
    ensures !m.started && failure.None? ==> r.manager == m.(started := true) && r.outcome.Ok?
  {
    DoStartHostAsync(m, failure)
  }

  /** `OnDisable`: stops the host only when one exists and it is built and started. */
  function OnDisable(m: Manager): (r: Step)
    ensures r.manager == m && r.outcome.Ok?
    ensures r.effects == [StopHost] <==> m.hostExists && m.built && m.started
    ensures r.effects != [StopHost] ==> r.effects == []
  {
    if m.hostExists && m.built && m.started then Step(m, [StopHost], Ok(())) else Step(m, [], Ok(()))
  }

  /**
   * A lifetime notification: only a token's first one does anything, and
   * only once the lifetime is hooked. The listeners are invoked and stay
   * registered; the stopped notification also quits when bound to Unity's
   * lifetime, and as that callback is registered last it runs first.
   */
  function LegacyFire(m: Manager, e: ManagerEvent): (r: (Manager, seq<ManagerEffect>))
    requires LifetimeEvent(e)
    ensures !m.hooked || e in m.fired ==> r == (m, [])
    ensures m.hooked && e !in m.fired ==>
      r.0 == m.(fired := m.fired + {e})
      && |r.1| >= 1 && r.1[|r.1| - 1] == Invoke(e, ListenerCount(m, e))
    ensures QuitApplication in r.1 <==> m.hooked && e !in m.fired && e == HostStopped && m.controlUnityLifetime
    ensures QuitApplication in r.1 ==> r.1[0] == QuitApplication
  {
    if !m.hooked || e in m.fired then (m, [])
    else (m.(fired := m.fired + {e}), (if e == HostStopped && m.controlUnityLifetime then [QuitApplication] else []) + [Invoke(e, ListenerCount(m, e))])
  }

  /**
   * The older manager differs from the newer one only in keeping the runtime
   * listeners after a notification: the same effects, the same tokens fired.
   */
  lemma LegacyFireKeepsListeners(m: Manager, e: ManagerEvent)
    requires LifetimeEvent(e)
    ensures LegacyFire(m, e).1 == Fire(m, e).1
    ensures m.hooked && e !in m.fired ==> Fire(m, e).0 == LegacyFire(m, e).0.(runtimeListeners := m.runtimeListeners[e := 0])
    ensures !(m.hooked && e !in m.fired) ==> Fire(m, e).0 == LegacyFire(m, e).0
  {
  }

  /** The older manager's operations keep the flags consistent too. */
  lemma LegacyOperationsKeepInv(m: Manager, buildFailure: Option<BuildFailure>, failure: Option<Error>)
    requires Inv(m)
    ensures Inv(LegacyBuildManually(m, buildFailure).manager)
    ensures Inv(UnityStart(m, failure).manager)
    ensures Inv(OnDisable(m).manager)
    ensures m.built ==> Inv(LegacyStartHost(m, failure).manager)
    ensures forall e | LifetimeEvent(e) :: Inv(LegacyFire(m, e).0)
  {
  }

  /** A disabled component stops a started host once per disable, and a host that never started not at all. */
  lemma DisableStopsOnlyStartedHost(m: Manager)
    requires Inv(m)
    ensures StopHost in OnDisable(m).effects <==> m.started
  {
  }

  /** `OnValidate`: only the injection name is normalised; an empty one becomes "AwakeServices". */
  function LegacyOnValidate(injectionMethodName: Option<string>): (r: Option<string>)
    ensures !IsNullOrEmpty(r)
    ensures !IsNullOrEmpty(injectionMethodName) ==> r == injectionMethodName
    ensures IsNullOrEmpty(injectionMethodName) ==> r == Some(DefaultInjectionMethodName)
  {
    if IsNullOrEmpty(injectionMethodName) then Some(DefaultInjectionMethodName) else injectionMethodName
  }

  /** Both managers normalise the injection name the same way. */
  lemma OnValidateAgrees(s: InspectorSettings, productName: Option<string>)
    ensures LegacyOnValidate(s.injectionMethodName) == OnValidate(s, productName).injectionMethodName
  {
  }
}

=== FILE: legacy_registration.dfy ===
/**
 * The two registration builders of the root package, both named
 * `MonoBehaviourServiceCollectionBuilder`. Unlike the newer builders they
 * hold no deferred list: every verb registers one ConfigureServices callback
 * on the host builder straight away (see `HostBuilding.LegacyAdd`), and the
 * host root comes from the container rather than from the builder context.
 *
 * The oldest revision (Runtime/Internals/MonoBehaviourServiceCollectionBuilder.cs)
 * offers only the type-based singleton and transient verbs; their factories
 * are exactly those of the later revision
 * (Runtime/Internals/UnityObjectServiceCollectionBuilder.cs).
 */
module LegacyRegistration {
  import opened Common
  import opened Activation
  import Registration

  /**
   * The component the instance singleton is given, as a C# reference: null,
   * a destroyed object (still a reference whose `GetType()` answers, though
   * Unity's `!` test treats it as absent), or a live object.
   */
  datatype ComponentRef = NullComponent | DestroyedComponent(runtimeType: TypeName) | LiveComponent(id: nat, runtimeType: TypeName)
  {
    /** The object as Unity sees it. */
    function AsObjRef(): ObjRef {
      if LiveComponent? then Live(id, runtimeType) else Missing
    }
  }

  datatype LegacyVerb =
    | SingletonInstance(component: ComponentRef, registeredAs: Option<TypeName>, useHostLifetime: bool)
    | HostedService(service: TypeName)
    | HostedServiceAs(service: TypeName, impl: TypeName)
    | SingletonInstanceAs(service: TypeName, impl: TypeName, component: ComponentRef, useHostLifetime: bool)
    | Singleton(service: TypeName)
    | SingletonAs(service: TypeName, impl: TypeName)
    | Transient(service: TypeName)
    | TransientAs(service: TypeName, impl: TypeName)
    | ScriptableObjectSingleton(service: TypeName)
    | ScriptableObjectSingletonAs(service: TypeName, impl: TypeName)
    | ScriptableObjectTransient(service: TypeName)
    | ScriptableObjectTransientAs(service: TypeName, impl: TypeName)
  {
    predicate IsScriptableObject() {
      ScriptableObjectSingleton? || ScriptableObjectSingletonAs? || ScriptableObjectTransient? || ScriptableObjectTransientAs?
    }

    /** The type of the object the factory creates. */
    function CreatedType(): TypeName
      requires !SingletonInstance?
    {
      if HostedServiceAs? || SingletonInstanceAs? || SingletonAs? || TransientAs?
         || ScriptableObjectSingletonAs? || ScriptableObjectTransientAs? then impl
      else service
    }
  }

  /** The verbs the oldest revision offers. */
  predicate InOldestRevision(v: LegacyVerb) {
    v.Singleton? || v.SingletonAs? || v.Transient? || v.TransientAs?
  }

  function LegacyLifetime(v: LegacyVerb): Lifetime {
    if v.Transient? || v.TransientAs? || v.ScriptableObjectTransient? || v.ScriptableObjectTransientAs? then Lifetime.Transient
    else Lifetime.Singleton
  }

  /**
   * The factory a verb registers, as written: the ScriptableObject verbs
   * create the instance through `ScriptableObject.CreateInstance`, whose
   * static type is ScriptableObject, so the generic InjectServices<T>
   * searches ScriptableObject itself for the injection method.
   */
  function LegacyPlanAsWritten(v: LegacyVerb, name: string): (p: Plan)
    requires !v.SingletonInstance?
    ensures p.injectionMethodName == name && !p.holdDisabled && !p.dontDestroyOnLoad
    ensures v.IsScriptableObject() <==> p.source.NewScriptableObject?
    ensures v.IsScriptableObject() ==>
      p.source.componentType == v.CreatedType() && p.injectType == Registration.ScriptableObjectType && !p.lifetimeHook
    ensures !v.IsScriptableObject() ==> p.injectType == v.CreatedType()
    ensures v.SingletonInstanceAs? ==> p.source == Given(v.component.AsObjRef()) && p.lifetimeHook == v.useHostLifetime
    ensures !v.IsScriptableObject() && !v.SingletonInstanceAs? ==> p.lifetimeHook
    ensures LegacyLifetime(v) == Lifetime.Transient && !v.IsScriptableObject() <==> p.source.OnNewGameObject?
    ensures p.source.OnNewGameObject? ==> p.source == OnNewGameObject(v.CreatedType() + " (hosted transient)", v.CreatedType())
    ensures p.source.OnContainerRoot? <==> v.HostedService? || v.HostedServiceAs? || v.Singleton? || v.SingletonAs?
    ensures p.source.OnContainerRoot? ==> p.source.componentType == v.CreatedType()
  {
    if v.IsScriptableObject() then Plan(NewScriptableObject(v.CreatedType()), Registration.ScriptableObjectType, name, false, false, false)
    else if v.SingletonInstanceAs? then Plan(Given(v.component.AsObjRef()), v.impl, name, false, v.useHostLifetime, false)
    else if v.Transient? || v.TransientAs? then
      Plan(OnNewGameObject(v.CreatedType() + " (hosted transient)", v.CreatedType()), v.CreatedType(), name, false, true, false)
    else Plan(OnContainerRoot(v.CreatedType()), v.CreatedType(), name, false, true, false)
  }

  /** The factory a verb registers, with the ScriptableObject verbs searching the created type for the injection method. */
  function LegacyPlan(v: LegacyVerb, name: string): (p: Plan)
    requires !v.SingletonInstance?
    ensures p.injectType == v.CreatedType()
    ensures p.injectionMethodName == name && !p.holdDisabled && !p.dontDestroyOnLoad
    ensures v.IsScriptableObject() ==> p.source == NewScriptableObject(v.CreatedType()) && !p.lifetimeHook
    ensures !v.IsScriptableObject() ==> p == LegacyPlanAsWritten(v, name)
  {
    if v.IsScriptableObject() then Plan(NewScriptableObject(v.CreatedType()), v.CreatedType(), name, false, false, false)
    else LegacyPlanAsWritten(v, name)
  }

  /**
   * The ConfigureServices callback of one verb run against the collection,
   * with the as-written factory unless `corrected` is set. The instance
   * singleton makes no null check: without an explicit type,
   * `component.GetType()` on a null component throws, while a destroyed one
   * still answers and is registered under its own type.
   */
  function RunLegacy(name: string, v: LegacyVerb, services: Registration.Services, corrected: bool := false): (r: Result<Registration.Services>)
    ensures r.Err? <==> v.SingletonInstance? && v.registeredAs.None? && v.component.NullComponent?
    ensures r.Err? ==> r.error == NullReference
    ensures r.Ok? ==> services < r.value && r.value[|services|].lifetime == LegacyLifetime(v)
    ensures r.Ok? && v.SingletonInstance? ==>
      r.value == services + [Descriptor(if v.registeredAs.Some? then v.registeredAs.value else v.component.runtimeType,
        ByFactory(Plan(Given(v.component.AsObjRef()), r.value[|services|].serviceType, name, false, v.useHostLifetime, false)), Lifetime.Singleton)]
    ensures r.Ok? && !v.SingletonInstance? && !corrected ==>
      r.value[|services|] == Descriptor(v.service, ByFactory(LegacyPlanAsWritten(v, name)), LegacyLifetime(v))
    ensures r.Ok? && !v.SingletonInstance? && corrected ==>
      r.value[|services|] == Descriptor(v.service, ByFactory(LegacyPlan(v, name)), LegacyLifetime(v))
    ensures r.Ok? && (v.HostedService? || v.HostedServiceAs?) ==> Registration.HasHostedWrapper(r.value, v.service)
  {
    if v.SingletonInstance? then
      if v.registeredAs.None? && v.component.NullComponent? then Err(NullReference)
      else
        var t := if v.registeredAs.Some? then v.registeredAs.value else v.component.runtimeType;
        Ok(services + [Descriptor(t, ByFactory(Plan(Given(v.component.AsObjRef()), t, name, false, v.useHostLifetime, false)), Lifetime.Singleton)])
    else
      var plan := if corrected then LegacyPlan(v, name) else LegacyPlanAsWritten(v, name);
      if v.HostedService? || v.HostedServiceAs? then Ok(Registration.AddHostedService(services, v.service, ByFactory(plan)))
      else Ok(services + [Descriptor(v.service, ByFactory(plan), LegacyLifetime(v))])
  }

  /**
   * Only a null component makes the instance singleton throw: a destroyed
   * one is registered under its runtime type, and its factory hands Unity's
   * absent object to the activation.
   */
  lemma DestroyedComponentRegistered(name: string, t: TypeName, useHostLifetime: bool, services: Registration.Services)
    ensures RunLegacy(name, SingletonInstance(NullComponent, None, useHostLifetime), services) == Err(NullReference)
    ensures RunLegacy(name, SingletonInstance(DestroyedComponent(t), None, useHostLifetime), services)
      == Ok(services + [Descriptor(t, ByFactory(Plan(Given(Missing), t, name, false, useHostLifetime, false)), Lifetime.Singleton)])
  {
  }

  /** The correction touches only the ScriptableObject verbs: every other verb registers the same callback either way. */
  lemma LegacyCorrectionOnlyChangesScriptableObjects(name: string, v: LegacyVerb, services: Registration.Services)
    ensures !v.IsScriptableObject() ==> RunLegacy(name, v, services, true) == RunLegacy(name, v, services)
    ensures v.IsScriptableObject() ==>
      RunLegacy(name, v, services).Ok? && RunLegacy(name, v, services, true).Ok?
      && RunLegacy(name, v, services).value[|services|].body.plan.injectType == Registration.ScriptableObjectType
      && RunLegacy(name, v, services, true).value[|services|].body.plan.injectType == v.CreatedType()
  {
  }

  /**
   * `SetupUnityComponent` of the oldest revision: injection when a method
   * exists, then always the stopping hook; no component is held disabled and
   * none kept across scene loads.
   */
  lemma OldestSetupAlwaysHooks(v: LegacyVerb, name: string, env: Env)
    requires InOldestRevision(v)
    ensures var p := LegacyPlan(v, name);
      && p.lifetimeHook && !p.holdDisabled && !p.dontDestroyOnLoad
      && (v.Singleton? || v.SingletonAs? ==> p.source == OnContainerRoot(v.CreatedType()))
      && (v.Transient? || v.TransientAs? ==> p.source == OnNewGameObject(v.CreatedType() + " (hosted transient)", v.CreatedType()))
      && InjectsBeforeHook(Activate(env, p).trace)
      && (Activate(env, p).result.Ok? ==> RegisterStoppingHook in Activate(env, p).trace)
  {
    InjectionBeforeStoppingHook(env, LegacyPlan(v, name));
    StoppingHookIffRequested(env, LegacyPlan(v, name));
  }

  /** A hosted verb of this builder asks the container for the host root, and never holds the component disabled. */
  lemma LegacyHostedUsesContainerRoot(t: TypeName, name: string)
    ensures LegacyPlan(HostedService(t), name).source == OnContainerRoot(t)
    ensures !LegacyPlan(HostedService(t), name).holdDisabled
  {
  }

  /**
   * As written, a ScriptableObject verb never calls an injection method as
   * long as the engine's ScriptableObject type declares none, whatever the
   * created type declares.
   */
  lemma ScriptableObjectNeverInjectedAsWritten(v: LegacyVerb, name: string, env: Env)
    requires v.IsScriptableObject()
    requires Registration.ScriptableObjectType !in env.declaredMethods
    ensures forall k :: 0 <= k < |Activate(env, LegacyPlanAsWritten(v, name)).trace| ==>
      !Activate(env, LegacyPlanAsWritten(v, name)).trace[k].Invoke?
  {
    var p := LegacyPlanAsWritten(v, name);
    assert FindInjection(env, p.injectType, name) == Ok(None);
    var setup := Setup(env, p, Live(env.created, v.CreatedType()));
    assert setup.effects == [];
    assert Activate(env, p) == Assemble(Obtain(env, p.source), false, setup);
  }

  /** `AwakeServices(ILogger logger)`, a private instance method the created type declares. */
  const AwakeWithLogger: Reflection.MethodInfo :=
    Reflection.MethodInfo("AwakeServices", false, false, true, true, false, false, false, false,
      [Reflection.Param("ILogger", Reflection.Reference)])

  /** A container holding an ILogger and a `Palette` ScriptableObject type that declares `AwakeWithLogger`. */
  const PaletteEnv: Env := Env(map["ILogger" := 7], map["Palette" := [AwakeWithLogger]], map[], 1)

  /**
   * The input that shows the discrepancy: `AddScriptableObjectSingleton<Palette>()`
   * registers a factory that creates the Palette but never calls its
   * AwakeServices, while the corrected factory resolves the ILogger and calls it.
   */
  lemma PaletteIsNotInjectedAsWritten()
    ensures Activate(PaletteEnv, LegacyPlanAsWritten(ScriptableObjectSingleton("Palette"), "AwakeServices")).trace
      == [CreateScriptableObject("Palette")]
    ensures Activate(PaletteEnv, LegacyPlan(ScriptableObjectSingleton("Palette"), "AwakeServices")).trace
      == [CreateScriptableObject("Palette"), Resolve("ILogger"), Invoke("AwakeServices", [7])]
  {
    var methods := [AwakeWithLogger];
    assert Reflection.Eligible(methods[0], "AwakeServices");
    assert Reflection.FirstEligibleAt(methods, "AwakeServices", 0);
    var found := Reflection.TryGetInjectionMethod(methods, "AwakeServices");
    assert found.Ok? && found.value.Some? && found.value.value.types == ["ILogger"];
    var plan := LegacyPlan(ScriptableObjectSingleton("Palette"), "AwakeServices");
    assert MethodsOf(PaletteEnv, "Palette") == methods;
    assert FindInjection(PaletteEnv, "Palette", "AwakeServices") == found;
    var inj := InjectServices(PaletteEnv, "Palette", "AwakeServices", Live(1, "Palette"));
    assert AllRegistered(PaletteEnv.services, ["ILogger"]);
    assert inj.outcome.Ok? && |inj.effects| == 2;
    assert inj.effects[..1][0] == Resolve("ILogger");
    assert inj.effects[1].args[0] == 7;
    assert inj.effects[1] == Invoke("AwakeServices", [7]);
    assert inj.effects == [Resolve("ILogger"), Invoke("AwakeServices", [7])];
    var setup := Setup(PaletteEnv, plan, Live(1, "Palette"));
    assert setup == inj;
    assert Activate(PaletteEnv, plan) == Assemble(Obtain(PaletteEnv, plan.source), false, setup);
    var asWritten := LegacyPlanAsWritten(ScriptableObjectSingleton("Palette"), "AwakeServices");
    assert Activate(PaletteEnv, asWritten) ==
      Assemble(Obtain(PaletteEnv, asWritten.source), false, Setup(PaletteEnv, asWritten, Live(1, "Palette")));
  }

  /** A ScriptableObject plan with no lifetime hook, whose type declares an injectable method, injects once and succeeds. */
  lemma NewScriptableObjectInjected(env: Env, p: Plan, t: TypeName)
    requires p.source == NewScriptableObject(t) && p.injectType == t && !p.lifetimeHook && !p.holdDisabled
    requires FindInjection(env, t, p.injectionMethodName).Ok? && FindInjection(env, t, p.injectionMethodName).value.Some?
    requires AllRegistered(env.services, FindInjection(env, t, p.injectionMethodName).value.value.types)
    ensures Activate(env, p).result == Ok(Live(env.created, t))
    ensures exists k :: 0 <= k < |Activate(env, p).trace| && Activate(env, p).trace[k].Invoke?
  {
    var obtained := Obtain(env, p.source);
    assert obtained == Step([CreateScriptableObject(t)], Ok(Live(env.created, t)));
    var inject := FindInjection(env, t, p.injectionMethodName).value.value;
    var setup := InjectServices(env, t, p.injectionMethodName, Live(env.created, t));
    assert setup.outcome.Ok? && setup.effects[|inject.types|].Invoke?;
    assert Setup(env, p, Live(env.created, t)) == setup;
    var a := Assemble(obtained, false, setup);
    assert Activate(env, p) == a;
    assert a.trace == obtained.effects + setup.effects;
    assert a.trace[1 + |inject.types|] == setup.effects[|inject.types|];
  }

  /**
   * With the created type searched, a ScriptableObject whose type declares an
   * injectable method gets it called once, with every parameter resolved.
   */
  lemma ScriptableObjectInjectedWhenDeclared(v: LegacyVerb, name: string, env: Env)
    requires v.IsScriptableObject()
    requires FindInjection(env, v.CreatedType(), name).Ok? && FindInjection(env, v.CreatedType(), name).value.Some?
    requires AllRegistered(env.services, FindInjection(env, v.CreatedType(), name).value.value.types)
    ensures Activate(env, LegacyPlan(v, name)).result == Ok(Live(env.created, v.CreatedType()))
    ensures exists k :: (0 <= k < |Activate(env, LegacyPlan(v, name)).trace|
      && Activate(env, LegacyPlan(v, name)).trace[k].Invoke?)
  {
    NewScriptableObjectInjected(env, LegacyPlan(v, name), v.CreatedType());
  }
}

=== FILE: logging.dfy ===
/**
 * The Unity logger: which messages reach Unity's console, through which
 * `Debug` call, with which tag and colour; and the provider's per-category
 * logger cache.
 */
module Logging {
  import opened Common

  /** `Microsoft.Extensions.Logging.LogLevel`: Trace = 0 … Critical = 5, None = 6; any other int is out of range. */
  const Trace: int := 0
  const DebugLevel: int := 1
  const Information: int := 2
  const Warning: int := 3
  const ErrorLevel: int := 4
  const Critical: int := 5
  const NoneLevel: int := 6

  /** The `UnityEngine.Debug` entry point a line goes to. */
  datatype Sink = Log | LogWarning | LogError

  datatype LogLine = LogLine(sink: Sink, text: string)

  datatype LoggerConfig = LoggerConfig(eventId: int)

  datatype Logger = Logger(name: string, config: LoggerConfig)

  /** `IsEnabled`: every level is enabled. */
  function IsEnabled(level: int): (r: bool)
    ensures r
  {
    true
  }

  function Tag(level: int): string
    requires Trace <= level <= Critical
  {
    if level == Information then "INFO"
    else if level == DebugLevel then "DEBUG"
    else if level == Trace then "TRACE"
    else if level == ErrorLevel then "ERROR"
    else if level == Warning then "WARN"
    else "FATAL"
  }

  function Colour(level: int): string
    requires Trace <= level <= Critical
  {
    if level == Information then "green"
    else if level == DebugLevel then "white"
    else if level == Trace then "gray"
    else if level == ErrorLevel then "red"
    else if level == Warning then "yellow"
    else "purple"
  }

  function SinkOf(level: int): Sink
    requires Trace <= level <= Critical
  {
    if level <= Information then Log else if level == Warning then LogWarning else LogError
  }

  function Format(level: int, name: string, message: string): string
    requires Trace <= level <= Critical
  {
    "<color=" + Colour(level) + ">" + Tag(level) + " [" + name + "] - " + message + "</color>"
  }

  /** A configured event id other than 0 lets through only messages carrying that id. */
  predicate PassesFilter(config: LoggerConfig, eventId: int) {
    config.eventId == 0 || config.eventId == eventId
  }

  /**
   * `Log`: a message the event-id filter drops, or one at level None,
   * produces nothing; a level outside the enumeration throws (after the
   * filter); otherwise one coloured line goes to the level's sink.
   * `message` is what the formatter returns for the state and exception.
   */
  function LogMessage(logger: Logger, level: int, eventId: int, message: string): (r: Result<Option<LogLine>>)
    ensures !PassesFilter(logger.config, eventId) ==> r == Ok(None)
    ensures PassesFilter(logger.config, eventId) && level == NoneLevel ==> r == Ok(None)
    ensures PassesFilter(logger.config, eventId) && !(Trace <= level <= NoneLevel) ==> r == Err(ArgumentOutOfRange("logLevel"))
    ensures r.Ok? && r.value.Some? <==> PassesFilter(logger.config, eventId) && Trace <= level <= Critical
    ensures r.Ok? && r.value.Some? ==>
      var line := r.value.value;
      && (line.sink == Log <==> level in {Trace, DebugLevel, Information})
      && (line.sink == LogWarning <==> level == Warning)
      && (line.sink == LogError <==> level in {ErrorLevel, Critical})
      && line.text == "<color=" + Colour(level) + ">" + Tag(level) + " [" + logger.name + "] - " + message + "</color>"
  {
    if !IsEnabled(level) then Ok(None)
    else if !PassesFilter(logger.config, eventId) then Ok(None)
    else if Trace <= level <= Critical then Ok(Some(LogLine(SinkOf(level), Format(level, logger.name, message))))
    else if level == NoneLevel then Ok(None)
    else Err(ArgumentOutOfRange("logLevel"))
  }

  /** The tag/colour table: INFO green, DEBUG white, TRACE gray, WARN yellow, ERROR red, FATAL purple. */
  lemma TagsAndColours()
    ensures Tag(Information) == "INFO" && Colour(Information) == "green"
    ensures Tag(DebugLevel) == "DEBUG" && Colour(DebugLevel) == "white"
    ensures Tag(Trace) == "TRACE" && Colour(Trace) == "gray"
    ensures Tag(Warning) == "WARN" && Colour(Warning) == "yellow"
    ensures Tag(ErrorLevel) == "ERROR" && Colour(ErrorLevel) == "red"
    ensures Tag(Critical) == "FATAL" && Colour(Critical) == "purple"
  {
  }

  /** Characters 7 and 9 of a line (inside the colour name) tell which level wrote it. */
  lemma ColourCharacters(level: int, name: string, message: string)
    requires Trace <= level <= Critical
    ensures var text := Format(level, name, message);
      |text| > 9 && text[..7] == "<color=" && text[7] == Colour(level)[0] && text[9] == Colour(level)[2]
  {
    var text := Format(level, name, message);
    var rest := Colour(level) + ">" + Tag(level) + " [" + name + "] - " + message + "</color>";
    assert text == "<color=" + rest;
    assert rest[0] == Colour(level)[0] && rest[2] == Colour(level)[2];
  }

  /** The text alone identifies the level: two levels never format the same line. */
  lemma FormatIdentifiesLevel(a: int, b: int, name1: string, name2: string, m1: string, m2: string)
    requires Trace <= a <= Critical && Trace <= b <= Critical
    requires Format(a, name1, m1) == Format(b, name2, m2)
    ensures a == b
  {
    ColourCharacters(a, name1, m1);
    ColourCharacters(b, name2, m2);
  }

  /** Only a line that passes the filter ever appears; with id filter 0, every enumerated level below None writes. */
  lemma UnfilteredLoggerWritesEveryLevel(name: string, level: int, eventId: int, message: string)
    requires Trace <= level <= Critical
    ensures LogMessage(Logger(name, LoggerConfig(0)), level, eventId, message).Ok?
    ensures LogMessage(Logger(name, LoggerConfig(0)), level, eventId, message).value.Some?
  {
  }

  // ---------------------------------------------------------------- provider

  /** `UnityLoggerProvider`: the configuration current now, the loggers by category, and whether it still follows changes. */
  datatype Provider = Provider(current: LoggerConfig, loggers: map<string, Logger>, subscribed: bool)

  /** Every cached logger carries its own category as its name. */
  predicate ProviderInv(p: Provider) {
    forall c :: c in p.loggers ==> p.loggers[c].name == c
  }

  function NewProvider(current: LoggerConfig): (r: Provider)
    ensures r.current == current && r.loggers == map[] && r.subscribed
    ensures ProviderInv(r)
  {
    Provider(current, map[], true)
  }

  /**
   * `CreateLogger`: a cached category returns its logger; a new one gets a
   * logger holding the configuration current at this moment. A null
   * category makes the dictionary throw.
   */
  function CreateLogger(p: Provider, category: Option<string>): (r: Result<(Provider, Logger)>)
    ensures category.None? <==> r.Err?
    ensures category.None? ==> r.error == ArgumentNull("key")
    ensures category.Some? && category.value in p.loggers ==> r == Ok((p, p.loggers[category.value]))
    ensures category.Some? && category.value !in p.loggers ==>
      && r.Ok?
      && r.value.1 == Logger(category.value, p.current)
      && r.value.0 == p.(loggers := p.loggers[category.value := r.value.1])
    ensures ProviderInv(p) && r.Ok? ==> ProviderInv(r.value.0) && r.value.1.name == category.value
  {
    match category
    case None => Err(ArgumentNull("key"))
    case Some(c) =>
      if c in p.loggers then Ok((p, p.loggers[c]))
      else
        var logger := Logger(c, p.current);
        Ok((p.(loggers := p.loggers[c := logger]), logger))
  }

  /** The change callback: only the current configuration moves, and only while subscribed. */
  function OnChange(p: Provider, updated: LoggerConfig): (r: Provider)
    ensures r.loggers == p.loggers && r.subscribed == p.subscribed
    ensures r.current == (if p.subscribed then updated else p.current)
  {
    if p.subscribed then p.(current := updated) else p
  }

  /** `Dispose`: the cache is emptied and changes are no longer followed. */
  function Dispose(p: Provider): (r: Provider)
    ensures r.loggers == map[] && !r.subscribed && r.current == p.current
    ensures ProviderInv(r)
  {
    p.(loggers := map[], subscribed := false)
  }

  /** Asking twice for one category returns one logger and leaves the provider as the first call left it. */
  lemma CreateLoggerTwiceSame(p: Provider, category: string)
    ensures var first := CreateLogger(p, Some(category)).value;
      var second := CreateLogger(first.0, Some(category)).value;
      second == first
  {
  }

  /** A cached logger keeps the configuration it was created with across a change; a new category sees the change. */
  lemma ChangeReachesOnlyNewLoggers(p: Provider, cached: string, newCategory: string, updated: LoggerConfig)
    requires cached in p.loggers && newCategory !in p.loggers && p.subscribed
    ensures CreateLogger(OnChange(p, updated), Some(cached)).value.1 == p.loggers[cached]
    ensures CreateLogger(OnChange(p, updated), Some(newCategory)).value.1.config == updated
  {
  }

  /** After `Dispose` the next logger for a category is created afresh, with the configuration of the moment of disposal. */
  lemma DisposeForgetsLoggers(p: Provider, category: string, updated: LoggerConfig)
    ensures var q := OnChange(Dispose(p), updated);
      CreateLogger(q, Some(category)).value.1 == Logger(category, p.current)
  {
  }
}

=== FILE: mono_host.dfy ===
/**
 * The host's start/stop orchestrator (`MonoHost`) and the scope wrapper
 * (`MonoBehaviourScope`).
 *
 * Awaits are sequential steps; a cancellation token is the boolean "was it
 * cancelled once WaitForStart returned"; each hosted service is described
 * by how its start and stop calls end. What the host does is a trace of
 * events.
 */
module Hosting {
  import opened Common

  /** A hosted service as the orchestrator sees it: its identity and how its calls end. */
  datatype HostedService = HostedService(id: nat, isBackground: bool, startError: Option<Error>, stopError: Option<Error>)

  /** The `IHostLifetime`: how WaitForStartAsync and StopAsync end. */
  datatype HostLifetime = HostLifetime(waitError: Option<Error>, stopError: Option<Error>)

  /** The application-lifetime argument: null, the library's `ApplicationLifetime`, or a replacement. */
  datatype LifetimeArg = NullLifetime | ApplicationLifetime | ReplacedLifetime

  /** The options argument: null, options whose Value is null, or the host options. */
  datatype OptionsArg = NullOptions | NullOptionsValue | HostOptions(shutdownTimeoutSeconds: int)

  datatype HostArgs = HostArgs(
    services: Option<nat>,
    contentRootProvider: nat,
    defaultProvider: nat,
    applicationLifetime: LifetimeArg,
    hasLogger: bool,
    hostLifetime: Option<HostLifetime>,
    options: OptionsArg)

  datatype MonoHost = MonoHost(
    services: nat,
    contentRootProvider: nat,
    defaultProvider: nat,
    hostLifetime: HostLifetime,
    shutdownTimeoutSeconds: int,
    hostedServices: Option<seq<HostedService>>,
    stopCalled: bool)

  /** All constructor arguments are acceptable. */
  predicate ValidArgs(a: HostArgs) {
    !a.applicationLifetime.NullLifetime? && a.services.Some? && a.applicationLifetime.ApplicationLifetime?
    && a.hasLogger && a.hostLifetime.Some? && a.options.HostOptions?
  }

  /**
   * The constructor checks its arguments in a fixed order: the application
   * lifetime for null, the services for null, the lifetime for being the
   * library's own, then logger, host lifetime and options for null.
   */
  function NewMonoHost(a: HostArgs): (r: Result<MonoHost>)
    ensures r.Ok? <==> ValidArgs(a)
    ensures a.applicationLifetime.NullLifetime? ==> r == Err(ArgumentNull("applicationLifetime"))
    ensures !a.applicationLifetime.NullLifetime? && a.services.None? ==> r == Err(ArgumentNull("services"))
    ensures a.applicationLifetime.ReplacedLifetime? && a.services.Some? ==> r.Err? && r.error.Argument?
    ensures a.applicationLifetime.ApplicationLifetime? && a.services.Some? && !a.hasLogger ==> r == Err(ArgumentNull("logger"))
    ensures a.applicationLifetime.ApplicationLifetime? && a.services.Some? && a.hasLogger && a.hostLifetime.None?
      ==> r == Err(ArgumentNull("hostLifetime"))
    ensures (a.applicationLifetime.ApplicationLifetime? && a.services.Some? && a.hasLogger && a.hostLifetime.Some?
             && !a.options.HostOptions?) ==> r == Err(ArgumentNull("options"))
    ensures r.Ok? ==> r.value.hostedServices.None? && !r.value.stopCalled && r.value.services == a.services.value
  {
    if a.applicationLifetime.NullLifetime? then Err(ArgumentNull("applicationLifetime"))
    else if a.services.None? then Err(ArgumentNull("services"))
    else if !a.applicationLifetime.ApplicationLifetime? then Err(Argument("Replacing IHostApplicationLifetime is not supported."))
    else if !a.hasLogger then Err(ArgumentNull("logger"))
    else if a.hostLifetime.None? then Err(ArgumentNull("hostLifetime"))
    else if !a.options.HostOptions? then Err(ArgumentNull("options"))
    else Ok(MonoHost(a.services.value, a.contentRootProvider, a.defaultProvider, a.hostLifetime.value,
                     a.options.shutdownTimeoutSeconds, None, false))
  }

  datatype HostEvent =
    | LogStarting
    | WaitForStart
    | ResolveHostedServices
    | StartService(serviceId: nat)
    | NotifyStarted
    | LogStarted
    | LogStopping
    | StopApplication
    | StopService(serviceId: nat)
    | NotifyStopped
    | StopHostLifetime
    | LogStopped
    | LogStoppedWithException

  const BackgroundServiceNotSupported: Error := NotSupported("Running BackgroundService is not supported in Unity")

  /** A service whose start completes and which is not a BackgroundService. */
  predicate StartsCleanly(s: HostedService) {
    s.startError.None? && !s.isBackground
  }

  /** The exception a service's start leaves behind when it does not start cleanly. */
  function StartError(s: HostedService): Error
    requires !StartsCleanly(s)
  {
    if s.startError.Some? then s.startError.value else BackgroundServiceNotSupported
  }

  /** How many services at the front of the list start cleanly. */
  function CleanPrefix(svcs: seq<HostedService>): (n: nat)
    ensures n <= |svcs|
    ensures forall j :: 0 <= j < n ==> StartsCleanly(svcs[j])
    ensures n < |svcs| ==> !StartsCleanly(svcs[n])
    decreases |svcs|
  {
    if |svcs| == 0 || !StartsCleanly(svcs[0]) then 0 else 1 + CleanPrefix(svcs[1..])
  }

  function StartEvents(svcs: seq<HostedService>): (r: seq<HostEvent>)
    ensures |r| == |svcs| && forall i :: 0 <= i < |svcs| ==> r[i] == StartService(svcs[i].id)
  {
    seq(|svcs|, i requires 0 <= i < |svcs| => StartService(svcs[i].id))
  }

  function StopEvents(svcs: seq<HostedService>): (r: seq<HostEvent>)
    ensures |r| == |svcs| && forall i :: 0 <= i < |svcs| ==> r[i] == StopService(svcs[i].id)
  {
    seq(|svcs|, i requires 0 <= i < |svcs| => StopService(svcs[i].id))
  }

  /**
   * The start loop: each service is started and awaited before the next;
   * the first one that fails, or that turns out to be a BackgroundService
   * once its start has completed, ends the loop with its exception.
   */
  function StartServices(svcs: seq<HostedService>): (r: (seq<HostEvent>, Option<Error>))
    ensures var n := CleanPrefix(svcs);
      && (r.1.None? <==> n == |svcs|)
      && (n == |svcs| ==> r.0 == StartEvents(svcs))
      && (n < |svcs| ==> r.0 == StartEvents(svcs[..n + 1]) && r.1 == Some(StartError(svcs[n])))
    decreases |svcs|
  {
    if |svcs| == 0 then ([], None)
    else if !StartsCleanly(svcs[0]) then ([StartService(svcs[0].id)], Some(StartError(svcs[0])))
    else
      var rest := StartServices(svcs[1..]);
      var n := CleanPrefix(svcs[1..]);
      assert n < |svcs| - 1 ==> svcs[1..][..n + 1] == svcs[..n + 2][1..];
      ([StartService(svcs[0].id)] + rest.0, rest.1)
  }

  const StartPrologue: seq<HostEvent> := [LogStarting, WaitForStart]

  /**
   * `StartAsync`: wait for the host lifetime, stop if cancelled, otherwise
   * resolve the hosted services from the container, record them and start
   * them in order; only when every one started is the application notified.
   * `resolved` is what `GetRequiredService` answers: the services, or the
   * exception it throws, in which case nothing is recorded.
   */
  function Start(h: MonoHost, cancelled: bool, resolved: Result<seq<HostedService>>): (r: (MonoHost, seq<HostEvent>, Result<()>))
    ensures h.hostLifetime.waitError.Some? ==> r == (h, StartPrologue, Err(h.hostLifetime.waitError.value))
    ensures h.hostLifetime.waitError.None? && cancelled ==> r == (h, StartPrologue, Err(OperationCanceled))
    ensures h.hostLifetime.waitError.None? && !cancelled && resolved.Err? ==>
      r == (h, StartPrologue + [ResolveHostedServices], Err(resolved.error))
    ensures h.hostLifetime.waitError.None? && !cancelled && resolved.Ok? ==>
      r.0 == h.(hostedServices := Some(resolved.value)) && |r.1| >= 3 && r.1[..3] == StartPrologue + [ResolveHostedServices]
    ensures r.2.Ok? <==> h.hostLifetime.waitError.None? && !cancelled && resolved.Ok? && CleanPrefix(resolved.value) == |resolved.value|
    ensures r.2.Ok? ==> r.1 == StartPrologue + [ResolveHostedServices] + StartEvents(resolved.value) + [NotifyStarted, LogStarted]
    ensures r.2.Err? ==> NotifyStarted !in r.1
    ensures h.hostLifetime.waitError.None? && !cancelled && resolved.Ok? && CleanPrefix(resolved.value) < |resolved.value| ==>
      r.1 == StartPrologue + [ResolveHostedServices] + StartEvents(resolved.value[..CleanPrefix(resolved.value) + 1])
      && r.2 == Err(StartError(resolved.value[CleanPrefix(resolved.value)]))
  {
    if h.hostLifetime.waitError.Some? then (h, StartPrologue, Err(h.hostLifetime.waitError.value))
    else if cancelled then (h, StartPrologue, Err(OperationCanceled))
    else if resolved.Err? then (h, StartPrologue + [ResolveHostedServices], Err(resolved.error))
    else
      var svcs := resolved.value;
      var h' := h.(hostedServices := Some(svcs));
      var (events, failure) := StartServices(svcs);
      if failure.Some? then (h', StartPrologue + [ResolveHostedServices] + events, Err(failure.value))
      else (h', StartPrologue + [ResolveHostedServices] + events + [NotifyStarted, LogStarted], Ok(()))
  }

  /** The list read back to front. */
  function Reverse<T>(s: seq<T>): (r: seq<T>)
    ensures |r| == |s| && forall i :: 0 <= i < |s| ==> r[i] == s[|s| - 1 - i]
  {
    seq(|s|, i requires 0 <= i < |s| => s[|s| - 1 - i])
  }

  /** The stop failures of the services, in the order the services are given. */
  function StopFailures(svcs: seq<HostedService>): (r: seq<Error>)
    ensures |r| <= |svcs|
    ensures |r| == 0 <==> forall i :: 0 <= i < |svcs| ==> svcs[i].stopError.None?
    decreases |svcs|
  {
    if |svcs| == 0 then []
    else (if svcs[0].stopError.Some? then [svcs[0].stopError.value] else []) + StopFailures(svcs[1..])
  }

  /** The services a stop visits: the resolved ones back to front, none if start never resolved them. */
  function StopOrder(h: MonoHost): seq<HostedService> {
    if h.hostedServices.Some? then Reverse(h.hostedServices.value) else []
  }

  /** Every failure a stop collects: the services' in stop order, then the host lifetime's. */
  function CollectedFailures(h: MonoHost): seq<Error> {
    StopFailures(StopOrder(h)) + (if h.hostLifetime.stopError.Some? then [h.hostLifetime.stopError.value] else [])
  }

  /**
   * `StopAsync`: mark stop as called, trigger ApplicationStopping, stop the
   * resolved services in reverse order collecting failures, always notify
   * Stopped and stop the host lifetime, then throw one aggregate of the
   * collected failures if there are any.
   */
  function Stop(h: MonoHost): (r: (MonoHost, seq<HostEvent>, Result<()>))
    ensures r.0 == h.(stopCalled := true)
    ensures var n := |StopOrder(h)|;
      && |r.1| == n + 5
      && r.1[..2] == [LogStopping, StopApplication]
      && r.1[2..2 + n] == StopEvents(StopOrder(h))
      && r.1[2 + n..4 + n] == [NotifyStopped, StopHostLifetime]
    ensures r.2.Err? <==> |CollectedFailures(h)| > 0
    ensures r.2.Err? ==> r.2.error == Aggregate(CollectedFailures(h)) && r.1[|r.1| - 1] == LogStoppedWithException
    ensures r.2.Ok? ==> r.1[|r.1| - 1] == LogStopped
  {
    var order := StopOrder(h);
    var failures := CollectedFailures(h);
    var trace := [LogStopping, StopApplication] + StopEvents(order) + [NotifyStopped, StopHostLifetime]
      + [if |failures| > 0 then LogStoppedWithException else LogStopped];
    (h.(stopCalled := true), trace, if |failures| > 0 then Err(Aggregate(failures)) else Ok(()))
  }

  /** Stop throws exactly when some resolved service's stop, or the host lifetime's stop, failed. */
  lemma StopFailsIffSomeStopFailed(h: MonoHost)
    ensures Stop(h).2.Err? <==>
      (h.hostedServices.Some? && exists i :: 0 <= i < |h.hostedServices.value| && h.hostedServices.value[i].stopError.Some?)
      || h.hostLifetime.stopError.Some?
  {
    if h.hostedServices.Some? {
      var hs := h.hostedServices.value;
      var order := StopOrder(h);
      if exists i :: 0 <= i < |hs| && hs[i].stopError.Some? {
        var i :| 0 <= i < |hs| && hs[i].stopError.Some?;
        assert order[|hs| - 1 - i] == hs[i];
      }
      if exists i :: 0 <= i < |order| && order[i].stopError.Some? {
        var i :| 0 <= i < |order| && order[i].stopError.Some?;
        assert order[i] == hs[|hs| - 1 - i];
      }
    }
  }

  /** Without a start that resolved services, stop calls no service's stop. */
  lemma StopWithoutServicesStopsNone(h: MonoHost)
    requires h.hostedServices.None?
    ensures forall i :: 0 <= i < |Stop(h).1| ==> !Stop(h).1[i].StopService?
  {
    var t := Stop(h).1;
    assert t[2..2] == [];
  }

  /** The stop events that undo the given start events: the same services, last started first stopped. */
  function Mirror(starts: seq<HostEvent>): (r: seq<HostEvent>)
    requires forall i :: 0 <= i < |starts| ==> starts[i].StartService?
    ensures |r| == |starts|
  {
    seq(|starts|, i requires 0 <= i < |starts| => StopService(starts[|starts| - 1 - i].serviceId))
  }

  lemma MirrorOfStartEvents(svcs: seq<HostedService>)
    ensures Mirror(StartEvents(svcs)) == StopEvents(Reverse(svcs))
  {
    var m := Mirror(StartEvents(svcs));
    var s := StopEvents(Reverse(svcs));
    forall i | 0 <= i < |svcs| ensures m[i] == s[i] {
      assert StartEvents(svcs)[|svcs| - 1 - i] == StartService(svcs[|svcs| - 1 - i].id);
    }
  }

  /** After a successful start, stop visits the services in exactly the reverse of the order start visited them. */
  lemma StopMirrorsStart(h: MonoHost, resolved: seq<HostedService>)
    requires Start(h, false, Ok(resolved)).2.Ok?
    ensures var started := Start(h, false, Ok(resolved));
      var n := |resolved|;
      |started.1| == n + 5 && started.1[3..3 + n] == StartEvents(resolved)
      && Stop(started.0).1[2..2 + n] == Mirror(StartEvents(resolved))
  {
    var r := Start(h, false, Ok(resolved));
    var n := |resolved|;
    assert r.0.hostedServices == Some(resolved);
    assert r.1 == StartPrologue + [ResolveHostedServices] + StartEvents(resolved) + [NotifyStarted, LogStarted];
    assert StopOrder(r.0) == Reverse(resolved);
    MirrorOfStartEvents(resolved);
  }

  /** A start that failed part-way started only a prefix of the services, yet the stop after it stops every one of them. */
  lemma StopAfterFailedStart(h: MonoHost, resolved: seq<HostedService>)
    requires h.hostLifetime.waitError.None? && CleanPrefix(resolved) < |resolved|
    ensures var started := Start(h, false, Ok(resolved));
      && started.2.Err?
      && |started.1| == 3 + CleanPrefix(resolved) + 1
      && forall k :: 0 <= k < |resolved| ==> StopService(resolved[k].id) in Stop(started.0).1
  {
    var started := Start(h, false, Ok(resolved));
    var stopped := Stop(started.0);
    var order := StopOrder(started.0);
    forall k | 0 <= k < |resolved|
      ensures StopService(resolved[k].id) in stopped.1
    {
      assert order[|resolved| - 1 - k] == resolved[k];
      assert stopped.1[2..2 + |resolved|][|resolved| - 1 - k] == StopService(resolved[k].id);
    }
  }

  /** A cancelled start records no services, so the following stop stops none. */
  lemma CancelledStartStopsNothing(h: MonoHost, resolved: Result<seq<HostedService>>)
    requires h.hostedServices.None?
    ensures var started := Start(h, true, resolved);
      started.2.Err? && started.0.hostedServices.None?
      && forall i :: 0 <= i < |Stop(started.0).1| ==> !Stop(started.0).1[i].StopService?
  {
    StopWithoutServicesStopsNone(h);
  }

  /**
   * When resolving the hosted services throws, start fails with that
   * exception before starting anything and records no services, so the
   * following stop stops none.
   */
  lemma FailedResolutionStopsNothing(h: MonoHost, error: Error)
    requires h.hostLifetime.waitError.None? && h.hostedServices.None?
    ensures var started := Start(h, false, Err(error));
      started.2 == Err(error) && started.0.hostedServices.None?
      && (forall i :: 0 <= i < |started.1| ==> !started.1[i].StartService?)
      && forall i :: 0 <= i < |Stop(started.0).1| ==> !Stop(started.0).1[i].StopService?
  {
    StopWithoutServicesStopsNone(h);
  }

  /** Failures are collected in the order the stops are attempted: collecting over two runs of services concatenates. */
  lemma {:induction false} StopFailuresAppend(a: seq<HostedService>, b: seq<HostedService>)
    ensures StopFailures(a + b) == StopFailures(a) + StopFailures(b)
    decreases |a|
  {
    if |a| > 0 {
      assert (a + b)[0] == a[0];
      assert (a + b)[1..] == a[1..] + b;
      StopFailuresAppend(a[1..], b);
    } else {
      assert a + b == b;
    }
  }

  /** A single service contributes its own stop failure and nothing else. */
  lemma StopFailuresOne(s: HostedService)
    ensures StopFailures([s]) == if s.stopError.Some? then [s.stopError.value] else []
  {
    assert [s][1..] == [];
  }

  /**
   * `DisposeAsync`: the content-root file provider always, the default
   * provider too when the environment's provider has been replaced, and the
   * service provider last; objects that are not disposable are passed over.
   */
  function Dispose(h: MonoHost, disposable: set<nat>): (r: seq<nat>)
    ensures h.contentRootProvider in disposable ==> |r| > 0 && r[0] == h.contentRootProvider
    ensures h.services in disposable ==> |r| > 0 && r[|r| - 1] == h.services
    ensures h.defaultProvider in disposable ==> h.defaultProvider in r
    ensures h.defaultProvider == h.contentRootProvider ==> |r| <= 2
    ensures forall x :: x in r ==> x in disposable && (x == h.contentRootProvider || x == h.defaultProvider || x == h.services)
  {
    var targets := if h.contentRootProvider == h.defaultProvider then [h.contentRootProvider, h.services]
                   else [h.contentRootProvider, h.defaultProvider, h.services];
    Disposables(targets, disposable)
  }

  function Disposables(targets: seq<nat>, disposable: set<nat>): (r: seq<nat>)
    ensures forall x :: x in r <==> x in targets && x in disposable
    ensures |r| <= |targets|
    ensures |targets| > 0 && targets[0] in disposable ==> |r| > 0 && r[0] == targets[0]
    ensures |targets| > 0 && targets[|targets| - 1] in disposable ==> |r| > 0 && r[|r| - 1] == targets[|targets| - 1]
    decreases |targets|
  {
    if |targets| == 0 then []
    else (if targets[0] in disposable then [targets[0]] else []) + Disposables(targets[1..], disposable)
  }

  /** When the environment keeps the default provider, it is disposed once, not twice. */
  lemma DisposeDefaultProviderOnce(h: MonoHost, disposable: set<nat>)
    requires h.contentRootProvider == h.defaultProvider && h.services != h.defaultProvider
    requires h.defaultProvider in disposable && h.services in disposable
    ensures Dispose(h, disposable) == [h.defaultProvider, h.services]
  {
  }

  // ---------------------------------------------------------------- scopes

  datatype ServiceScope = ServiceScope(scopeId: nat, provider: nat)

  /** `MonoBehaviourScope`: a service scope and the ScopeRoot resolved from it once, at construction. */
  datatype MonoBehaviourScope = MonoBehaviourScope(scope: ServiceScope, root: nat)

  /**
   * The constructor: a null scope throws; the ScopeRoot is required from
   * the scope's provider (`scopeRoots` maps a provider to the ScopeRoot it
   * resolves, when it has one).
   */
  function NewMonoBehaviourScope(serviceScope: Option<ServiceScope>, scopeRoots: map<nat, nat>): (r: Result<MonoBehaviourScope>)
    ensures serviceScope.None? ==> r == Err(ArgumentNull("serviceScope"))
    ensures serviceScope.Some? && serviceScope.value.provider !in scopeRoots ==> r.Err? && r.error.InvalidOperation?
    ensures r.Ok? <==> serviceScope.Some? && serviceScope.value.provider in scopeRoots
    ensures r.Ok? ==> r.value.scope == serviceScope.value && r.value.root == scopeRoots[serviceScope.value.provider]
  {
    if serviceScope.None? then Err(ArgumentNull("serviceScope"))
    else if serviceScope.value.provider !in scopeRoots then Err(InvalidOperation("No service for type ScopeRoot"))
    else Ok(MonoBehaviourScope(serviceScope.value, scopeRoots[serviceScope.value.provider]))
  }

  /** `ServiceProvider` is the wrapped scope's. */
  function ServiceProvider(s: MonoBehaviourScope): (p: nat)
    ensures p == s.scope.provider
  {
    s.scope.provider
  }

  datatype ScopeDisposal = DisposeServiceScope(scopeId: nat) | DisposeScopeRoot(root: nat)

  /** `Dispose`: the service scope first, the ScopeRoot second. */
  function DisposeScope(s: MonoBehaviourScope): (r: seq<ScopeDisposal>)
    ensures |r| == 2 && r[0] == DisposeServiceScope(s.scope.scopeId) && r[1] == DisposeScopeRoot(s.root)
  {
    [DisposeServiceScope(s.scope.scopeId), DisposeScopeRoot(s.root)]
  }

  /** The ScopeRoot a scope disposes is the one its own provider resolved when the scope was made. */
  lemma ScopeDisposesItsOwnRoot(serviceScope: ServiceScope, scopeRoots: map<nat, nat>)
    requires serviceScope.provider in scopeRoots
    ensures var s := NewMonoBehaviourScope(Some(serviceScope), scopeRoots);
      s.Ok? && ServiceProvider(s.value) == serviceScope.provider
      && DisposeScope(s.value) == [DisposeServiceScope(serviceScope.scopeId), DisposeScopeRoot(scopeRoots[serviceScope.provider])]
  {
  }
}

=== FILE: reflection.dfy ===
/**
 * The injection-method resolver. Unity components cannot have constructor
 * parameters, so a non-public instance method with a configured name (by
 * default `AwakeServices`) plays the constructor's part: the resolver picks
 * that method out of the methods a type declares and lists the service types
 * of its parameters.
 */
module Reflection {
  import opened Common

  /** How the CLR classifies a parameter type, as far as injection cares. */
  datatype ParamKind = Primitive | Enum | Str | Reference

  datatype Param = Param(paramType: TypeName, kind: ParamKind)

  /** The reflection facts about one method that the resolver reads. */
  datatype MethodInfo = MethodInfo(
    name: string,
    isPublic: bool,
    isStatic: bool,
    declaredHere: bool,       // declared by the type itself, not inherited
    returnsVoid: bool,
    isAbstract: bool,
    isVirtual: bool,
    isConstructor: bool,
    isGeneric: bool,          // ContainsGenericParameters
    params: seq<Param>)

  /** The selected method and the service types to resolve for it, in order. */
  datatype InjectMethod = InjectMethod(info: MethodInfo, types: seq<TypeName>)

  /** Returned by `GetMethods(NonPublic | Instance | DeclaredOnly)`. */
  predicate Scanned(m: MethodInfo) {
    !m.isPublic && !m.isStatic && m.declaredHere
  }

  /** A method the scan does not skip: right name (ordinal), void, concrete, non-generic, with parameters. */
  predicate Eligible(m: MethodInfo, name: string) {
    && Scanned(m)
    && m.name == name
    && m.returnsVoid
    && !m.isAbstract && !m.isVirtual && !m.isConstructor && !m.isGeneric
    && |m.params| > 0
  }

  /** Primitive, enum and string parameters cannot come from the container. */
  predicate Injectable(p: Param) {
    p.kind == Reference
  }

  predicate AllInjectable(ps: seq<Param>) {
    forall i :: 0 <= i < |ps| ==> Injectable(ps[i])
  }

  /** `methods[i]` is the first method of the scan order that is eligible. */
  predicate FirstEligibleAt(methods: seq<MethodInfo>, name: string, i: int) {
    && 0 <= i < |methods|
    && Eligible(methods[i], name)
    && forall j :: 0 <= j < i ==> !Eligible(methods[j], name)
  }

  /** `inject` is what the resolver reports for `m`: the method and its parameter types, same order. */
  predicate Describes(inject: InjectMethod, m: MethodInfo) {
    && inject.info == m
    && |inject.types| == |m.params|
    && forall k :: 0 <= k < |m.params| ==> inject.types[k] == m.params[k].paramType
  }

  const UnsupportedParameterMessage: string :=
    "Value types, enums, strings can not be injected into MonoBehavoiur parameterized Awake"

  /**
   * The parameter types of the selected method; NotSupportedException as soon
   * as one of them is a primitive, an enum or string.
   */
  function GetParametersTypes(ps: seq<Param>): (r: Result<seq<TypeName>>)
    ensures r.Ok? <==> AllInjectable(ps)
    ensures r.Ok? ==> |r.value| == |ps| && forall k :: 0 <= k < |ps| ==> r.value[k] == ps[k].paramType
    ensures r.Err? ==> r.error == NotSupported(UnsupportedParameterMessage)
  {
    if |ps| == 0 then Ok([])
    else if !Injectable(ps[0]) then Err(NotSupported(UnsupportedParameterMessage))
    else
      var rest :- GetParametersTypes(ps[1..]);
      Ok([ps[0].paramType] + rest)
  }

  /** The scan from position `k` on, every earlier method having been skipped. */
  function ScanFrom(methods: seq<MethodInfo>, name: string, k: nat): (r: Result<Option<InjectMethod>>)
    requires k <= |methods|
    requires forall j :: 0 <= j < k ==> !Eligible(methods[j], name)
    ensures r == Ok(None) <==> forall j :: k <= j < |methods| ==> !Eligible(methods[j], name)
    ensures r.Ok? && r.value.Some? ==>
      exists i :: k <= i < |methods| && FirstEligibleAt(methods, name, i) && Describes(r.value.value, methods[i])
    ensures r.Err? <==>
      exists i :: k <= i < |methods| && FirstEligibleAt(methods, name, i) && !AllInjectable(methods[i].params)
    ensures r.Err? ==> r.error == NotSupported(UnsupportedParameterMessage)
    decreases |methods| - k
  {
    if k == |methods| then Ok(None)
    else if !Eligible(methods[k], name) then ScanFrom(methods, name, k + 1)
    else
      var types :- GetParametersTypes(methods[k].params);
      Ok(Some(InjectMethod(methods[k], types)))
  }

  /**
   * `TryGetInjectionMethod`: the first eligible declared method wins; if its
   * parameters cannot be injected the lookup throws instead of trying later
   * candidates; with no eligible method the answer is "none", without error.
   */
  function TryGetInjectionMethod(methods: seq<MethodInfo>, name: string): (r: Result<Option<InjectMethod>>)
    ensures r == Ok(None) <==> forall j :: 0 <= j < |methods| ==> !Eligible(methods[j], name)
    ensures r.Ok? && r.value.Some? ==>
      exists i :: FirstEligibleAt(methods, name, i) && Describes(r.value.value, methods[i])
    ensures r.Err? <==> exists i :: FirstEligibleAt(methods, name, i) && !AllInjectable(methods[i].params)
    ensures r.Err? ==> r.error == NotSupported(UnsupportedParameterMessage)
  {
    ScanFrom(methods, name, 0)
  }

  /** A method the scan never returns: a public one, a static one, an inherited one, or one without parameters. */
  lemma SkippedMethodsNeverSelected(methods: seq<MethodInfo>, name: string, i: nat)
    requires i < |methods|
    requires !Scanned(methods[i]) || |methods[i].params| == 0 || methods[i].name != name
    ensures TryGetInjectionMethod(methods, name).Ok? && TryGetInjectionMethod(methods, name).value.Some? ==>
      TryGetInjectionMethod(methods, name).value.value.info != methods[i]
  {
    var r := TryGetInjectionMethod(methods, name);
    if r.Ok? && r.value.Some? {
      var w :| FirstEligibleAt(methods, name, w) && Describes(r.value.value, methods[w]);
      assert Eligible(methods[w], name);
      assert !Eligible(methods[i], name);
    }
  }
}

=== FILE: registration.dfy ===
/**
 * The registration builders of the two newer packages (`UnityObjectsConfigurator`
 * and `UnityCollectionBuilder`, which differ only in how they expose their
 * actions) and the `AddHostedService` extension their hosted verbs go through.
 *
 * Each `Add*` verb only appends a deferred action; the action, when it runs
 * against a service collection, validates its arguments and appends the
 * descriptors whose factory `Activation.Activate` describes.
 */
module Registration {
  import opened Common
  import opened Activation

  /** The service collection: descriptors in registration order. */
  type Services = seq<Descriptor>

  const HostedServiceType: TypeName := "IHostedService"
  const ScriptableObjectType: TypeName := "ScriptableObject"

  /** `HostedServiceWrapper<TService>`, which forwards start and stop to the TService singleton. */
  function WrapperOf(service: TypeName): TypeName {
    "HostedServiceWrapper<" + service + ">"
  }

  /** The collection already holds the hosted-service registration of `WrapperOf(service)`. */
  predicate HasHostedWrapper(services: Services, service: TypeName) {
    exists k :: 0 <= k < |services| && services[k].serviceType == HostedServiceType
      && services[k].ImplementationType() == Some(WrapperOf(service))
  }

  /**
   * `services.AddHostedService<HostedServiceWrapper<TService>>()`, a
   * `TryAddEnumerable`: the singleton IHostedService registration is appended
   * unless one with the same implementation type is already there.
   */
  function AddHostedWrapper(services: Services, service: TypeName): (r: Services)
    ensures HasHostedWrapper(r, service)
    ensures services <= r
    ensures |r| == |services| + (if HasHostedWrapper(services, service) then 0 else 1)
    ensures |r| > |services| ==> r[|services|] == Descriptor(HostedServiceType, ByType(WrapperOf(service)), Lifetime.Singleton)
  {
    if HasHostedWrapper(services, service) then services
    else
      var r := services + [Descriptor(HostedServiceType, ByType(WrapperOf(service)), Lifetime.Singleton)];
      assert r[|services|].ImplementationType() == Some(WrapperOf(service));
      r
  }

  lemma AddHostedWrapperIdempotent(services: Services, service: TypeName)
    ensures AddHostedWrapper(AddHostedWrapper(services, service), service) == AddHostedWrapper(services, service)
  {
  }

  /**
   * `AddHostedService<TService, TImplementation>`: a singleton TService
   * (built from `body`, a type or a factory) followed by the hosted wrapper
   * that lets the host start it.
   */
  function AddHostedService(services: Services, service: TypeName, body: Body): (r: Services)
    ensures services <= r && |services| < |r| <= |services| + 2
    ensures r[|services|] == Descriptor(service, body, Lifetime.Singleton)
    ensures HasHostedWrapper(r, service)
  {
    var withService := services + [Descriptor(service, body, Lifetime.Singleton)];
    assert services <= withService;
    AddHostedWrapper(withService, service)
  }

  /** The registration verbs, one per `Add*` member of the builder interface. */
  datatype Verb =
    | SingletonInstance(component: ObjRef, registeredAs: Option<TypeName>, useHostLifetime: bool)
    | Singleton(service: TypeName)                                   // attached to the host root
    | DetachedSingleton(service: TypeName)                           // on its own GameObject
    | HostedService(service: TypeName)
    | HostedServiceAs(service: TypeName, impl: TypeName)
    | SingletonInstanceAs(service: TypeName, impl: TypeName, component: ObjRef, useHostLifetime: bool)
    | SingletonAs(service: TypeName, impl: TypeName)
    | Transient(service: TypeName)
    | TransientAs(service: TypeName, impl: TypeName)
    | ScriptableObjectSingleton(scriptableObject: ObjRef, service: TypeName)
    | ScriptableObjectSingletonOf(service: TypeName, scriptableObject: ObjRef)
    | ScriptableObjectSingletonAs(service: TypeName, impl: TypeName, scriptableObject: ObjRef)
    | PrefabSingleton(service: TypeName, resourcesPath: Option<string>, prefabLoaded: bool)
    | PrefabTransient(service: TypeName, resourcesPath: Option<string>, prefabLoaded: bool)
    | PrefabScoped(service: TypeName, resourcesPath: Option<string>, prefabLoaded: bool)
  {
    /** The service type the verb registers: the given type, or the component's runtime type. */
    function ServiceType(): TypeName {
      if SingletonInstance? then
        (if registeredAs.Some? then registeredAs.value else if component.Live? then component.runtimeType else "")
      else service
    }

    predicate IsPrefab() { PrefabSingleton? || PrefabTransient? || PrefabScoped? }
    predicate IsScriptableObject() {
      ScriptableObjectSingleton? || ScriptableObjectSingletonOf? || ScriptableObjectSingletonAs?
    }
    predicate IsHosted() { HostedService? || HostedServiceAs? }
  }

  /**
   * The lifetime each verb promises by its name: singletons, hosted services
   * and ScriptableObjects are Singleton, transients Transient, the scoped
   * prefab Scoped.
   */
  function VerbLifetime(v: Verb): Lifetime {
    match v
    case Transient(_) => Lifetime.Transient
    case TransientAs(_, _) => Lifetime.Transient
    case PrefabTransient(_, _, _) => Lifetime.Transient
    case PrefabScoped(_, _, _) => Scoped
    case _ => Lifetime.Singleton
  }

  /**
   * The factory a verb registers. The untyped ScriptableObject singleton
   * searches the object's own type for the injection method.
   */
  function PlanOf(v: Verb, name: string): (p: Plan)
    ensures p.injectionMethodName == name
    ensures p.holdDisabled <==> v.HostedService?
    ensures p.dontDestroyOnLoad <==> v.DetachedSingleton?
    ensures v.IsScriptableObject() ==> p.source.Given? && !p.lifetimeHook
    ensures v.ScriptableObjectSingleton? && v.scriptableObject.Live? ==> p.injectType == v.scriptableObject.runtimeType
  {
    match v
    case SingletonInstance(c, _, hook) => Plan(Given(c), v.ServiceType(), name, false, hook, false)
    case Singleton(t) => Plan(OnContextRoot(t), t, name, false, true, false)
    case DetachedSingleton(t) => Plan(OnNewGameObject(t + " (hosted singleton)", t), t, name, false, true, true)
    case HostedService(t) => Plan(OnContextRoot(t), t, name, true, true, false)
    case HostedServiceAs(_, impl) => Plan(OnContextRoot(impl), impl, name, false, true, false)
    case SingletonInstanceAs(_, impl, c, hook) => Plan(Given(c), impl, name, false, hook, false)
    case SingletonAs(_, impl) => Plan(OnContextRoot(impl), impl, name, false, true, false)
    case Transient(t) => Plan(OnNewGameObject(t + " (hosted transient)", t), t, name, false, true, false)
    case TransientAs(_, impl) => Plan(OnNewGameObject(impl + " (hosted transient)", impl), impl, name, false, true, false)
    case ScriptableObjectSingleton(so, t) => Plan(Given(so), if so.Live? then so.runtimeType else t, name, false, false, false)
    case ScriptableObjectSingletonOf(t, so) => Plan(Given(so), t, name, false, false, false)
    case ScriptableObjectSingletonAs(_, impl, so) => Plan(Given(so), impl, name, false, false, false)
    case PrefabSingleton(t, _, loaded) => Plan(FromPrefab(t, loaded, UnderHostRoot), t, name, false, true, false)
    case PrefabTransient(t, _, loaded) => Plan(FromPrefab(t, loaded, Unparented), t, name, false, true, false)
    case PrefabScoped(t, _, loaded) => Plan(FromPrefab(t, loaded, UnderScopeRoot), t, name, false, true, false)
  }

  /**
   * The factory as written: for `AddScriptableObjectSingleton(ScriptableObject, Type)`
   * the generic InjectServices<T> sees the static type of its argument, so it
   * searches ScriptableObject itself rather than the object's own type.
   */
  function PlanOfAsWritten(v: Verb, name: string): (p: Plan)
    ensures !v.ScriptableObjectSingleton? ==> p == PlanOf(v, name)
    ensures v.ScriptableObjectSingleton? ==> p == PlanOf(v, name).(injectType := ScriptableObjectType)
  {
    if v.ScriptableObjectSingleton? then Plan(Given(v.scriptableObject), ScriptableObjectType, name, false, false, false)
    else PlanOf(v, name)
  }

  /** As written, the untyped ScriptableObject verb never calls an injection method, whatever the object's type declares. */
  lemma UntypedScriptableObjectNeverInjectedAsWritten(so: ObjRef, t: TypeName, name: string, env: Env)
    requires ScriptableObjectType !in env.declaredMethods
    ensures var a := Activate(env, PlanOfAsWritten(ScriptableObjectSingleton(so, t), name));
      forall k :: 0 <= k < |a.trace| ==> !a.trace[k].Invoke?
  {
    var p := PlanOfAsWritten(ScriptableObjectSingleton(so, t), name);
    assert FindInjection(env, p.injectType, name) == Ok(None);
    assert Setup(env, p, so).effects == [];
    assert Activate(env, p) == Assemble(Obtain(env, p.source), false, Setup(env, p, so));
  }

  /** With the object's own type searched, its injection method is called once, all parameters resolved. */
  lemma UntypedScriptableObjectInjectedWhenDeclared(so: ObjRef, t: TypeName, name: string, env: Env)
    requires so.Live?
    requires FindInjection(env, so.runtimeType, name).Ok? && FindInjection(env, so.runtimeType, name).value.Some?
    requires AllRegistered(env.services, FindInjection(env, so.runtimeType, name).value.value.types)
    ensures Activate(env, PlanOf(ScriptableObjectSingleton(so, t), name)).result == Ok(so)
    ensures var a := Activate(env, PlanOf(ScriptableObjectSingleton(so, t), name));
      exists k :: 0 <= k < |a.trace| && a.trace[k].Invoke?
  {
    var p := PlanOf(ScriptableObjectSingleton(so, t), name);
    assert p == Plan(Given(so), so.runtimeType, name, false, false, false);
    assert Obtain(env, p.source) == Step([], Ok(so));
    var setup := Setup(env, p, so);
    var inject := FindInjection(env, so.runtimeType, name).value.value;
    assert setup.effects[|inject.types|].Invoke?;
    var a := Assemble(Obtain(env, p.source), false, setup);
    assert Activate(env, p) == a;
    assert a.trace == setup.effects;
  }

  /**
   * The factory the pipeline installs for a verb: the one the code as
   * written registers, or, with `corrected`, the one that searches the
   * untyped ScriptableObject's own type for its injection method.
   */
  function FactoryPlan(v: Verb, name: string, corrected: bool): Plan {
    if corrected then PlanOf(v, name) else PlanOfAsWritten(v, name)
  }

  /**
   * One deferred action run against the collection: the argument checks,
   * then the registration. Hosted verbs go through `AddHostedService`,
   * the others add one descriptor. The factory is the as-written one unless
   * `corrected` is set.
   */
  function RunAction(name: string, v: Verb, services: Services, corrected: bool := false): (r: Result<Services>)
    ensures (v.SingletonInstance? || v.SingletonInstanceAs?) ==>
      (r.Err? <==> v.component.Missing?)
    ensures v.IsScriptableObject() ==> (r.Err? <==> v.scriptableObject.Missing?)
    ensures v.IsPrefab() ==> (r.Err? <==> IsNullOrWhiteSpace(v.resourcesPath))
    ensures !(v.SingletonInstance? || v.SingletonInstanceAs? || v.IsScriptableObject() || v.IsPrefab()) ==> r.Ok?
    ensures r.Err? ==> r.error.ArgumentNull?
    ensures r.Ok? ==> services < r.value
    ensures r.Ok? ==> r.value[|services|].serviceType == v.ServiceType()
    ensures r.Ok? ==> r.value[|services|].lifetime == VerbLifetime(v)
    ensures r.Ok? && !corrected ==> r.value[|services|].body == ByFactory(PlanOfAsWritten(v, name))
    ensures r.Ok? && corrected ==> r.value[|services|].body == ByFactory(PlanOf(v, name))
    ensures r.Ok? ==> (|r.value| > |services| + 1 ==> v.IsHosted())
    ensures r.Ok? && v.IsHosted() ==> HasHostedWrapper(r.value, v.service)
  {
    var plan := FactoryPlan(v, name, corrected);
    match v
    case SingletonInstance(c, _, _) =>
      if c.Missing? then Err(ArgumentNull("component"))
      else Ok(services + [Descriptor(v.ServiceType(), ByFactory(plan), Lifetime.Singleton)])
    case SingletonInstanceAs(t, _, c, _) =>
      if c.Missing? then Err(ArgumentNull("component"))
      else Ok(services + [Descriptor(t, ByFactory(plan), Lifetime.Singleton)])
    case HostedService(t) => Ok(AddHostedService(services, t, ByFactory(plan)))
    case HostedServiceAs(t, _) => Ok(AddHostedService(services, t, ByFactory(plan)))
    case ScriptableObjectSingleton(so, t) => RegisterScriptableObject(v, so, plan, services)
    case ScriptableObjectSingletonOf(t, so) => RegisterScriptableObject(v, so, plan, services)
    case ScriptableObjectSingletonAs(t, _, so) => RegisterScriptableObject(v, so, plan, services)
    case PrefabSingleton(t, path, _) => RegisterPrefab(v, path, plan, services)
    case PrefabTransient(t, path, _) => RegisterPrefab(v, path, plan, services)
    case PrefabScoped(t, path, _) => RegisterPrefab(v, path, plan, services)
    case _ => Ok(services + [Descriptor(v.service, ByFactory(plan), VerbLifetime(v))])
  }

  function RegisterScriptableObject(v: Verb, so: ObjRef, plan: Plan, services: Services): Result<Services> {
    if so.Missing? then Err(ArgumentNull("scriptableObject"))
    else Ok(services + [Descriptor(v.ServiceType(), ByFactory(plan), VerbLifetime(v))])
  }

  function RegisterPrefab(v: Verb, path: Option<string>, plan: Plan, services: Services): Result<Services> {
    if IsNullOrWhiteSpace(path) then Err(ArgumentNull("resourcesPath"))
    else Ok(services + [Descriptor(v.ServiceType(), ByFactory(plan), VerbLifetime(v))])
  }

  /** The correction touches only the untyped ScriptableObject verb, and there only the factory's injection type. */
  lemma CorrectionOnlyChangesUntypedScriptableObject(name: string, v: Verb, services: Services)
    ensures !v.ScriptableObjectSingleton? ==> RunAction(name, v, services, true) == RunAction(name, v, services)
    ensures RunAction(name, v, services, true).Ok? <==> RunAction(name, v, services).Ok?
    ensures v.ScriptableObjectSingleton? && RunAction(name, v, services).Ok? ==>
      var asWritten := RunAction(name, v, services).value;
      RunAction(name, v, services, true).value ==
        services + [asWritten[|services|].(body := ByFactory(asWritten[|services|].body.plan.(injectType := PlanOf(v, name).injectType)))]
  {
  }

  /** A builder: the injection-method name its factories use and the deferred actions, in insertion order. */
  datatype Configurator = Configurator(injectionMethodName: string, actions: seq<Verb>)

  /** A new builder holds no action. */
  function NewConfigurator(injectionMethodName: string): (c: Configurator)
    ensures c.injectionMethodName == injectionMethodName && |c.actions| == 0
  {
    Configurator(injectionMethodName, [])
  }

  /** Any `Add*` verb: exactly one action appended, nothing run yet. */
  function Add(c: Configurator, v: Verb): (r: Configurator)
    ensures r.injectionMethodName == c.injectionMethodName
    ensures |r.actions| == |c.actions| + 1 && r.actions[..|c.actions|] == c.actions && r.actions[|c.actions|] == v
  {
    Configurator(c.injectionMethodName, c.actions + [v])
  }

  /** Running `actions` in order against `services`; the first failing action ends the run with its exception. */
  function RunActions(name: string, actions: seq<Verb>, services: Services, corrected: bool := false): (r: Result<Services>)
    ensures r.Ok? ==> services <= r.value
    ensures r.Ok? ==> |r.value| >= |services| + |actions|
    ensures |actions| > 0 && RunAction(name, actions[0], services, corrected).Err? ==> r == RunAction(name, actions[0], services, corrected)
  {
    if |actions| == 0 then Ok(services)
    else
      var next :- RunAction(name, actions[0], services, corrected);
      RunActions(name, actions[1..], next, corrected)
  }

  /** `Configure` (`UnityObjectsConfigurator`) and the host's loop over `ConfigureActions` (`UnityCollectionBuilder`). */
  function Configure(c: Configurator, services: Services, corrected: bool := false): (r: Result<Services>)
    ensures r.Ok? ==> services <= r.value && |r.value| >= |services| + |c.actions|
  {
    RunActions(c.injectionMethodName, c.actions, services, corrected)
  }

  /** Actions run in insertion order: the action added last runs after all the earlier ones. */
  lemma {:induction false} RunActionsSnoc(name: string, actions: seq<Verb>, v: Verb, services: Services)
    ensures RunActions(name, actions + [v], services) ==
      (match RunActions(name, actions, services)
       case Err(e) => Err(e)
       case Ok(s) => RunAction(name, v, s))
  {
    if |actions| == 0 {
      assert actions + [v] == [v];
      assert ([v])[1..] == [];
    } else {
      assert (actions + [v])[0] == actions[0];
      assert (actions + [v])[1..] == actions[1..] + [v];
      match RunAction(name, actions[0], services)
      case Err(_) =>
      case Ok(next) => RunActionsSnoc(name, actions[1..], v, next);
    }
  }

  lemma ConfigureAfterAdd(c: Configurator, v: Verb, services: Services)
    ensures Configure(Add(c, v), services) ==
      (match Configure(c, services)
       case Err(e) => Err(e)
       case Ok(s) => RunAction(c.injectionMethodName, v, s))
  {
    RunActionsSnoc(c.injectionMethodName, c.actions, v, services);
  }

  /**
   * Through the whole pipeline: `AddScriptableObjectSingleton(so, t)` then
   * `Configure` registers one singleton whose resolutions, as written, never
   * call an injection method (ScriptableObject declares none); with the
   * correction the object's declared method is called.
   */
  lemma ConfiguredScriptableObjectInjection(so: ObjRef, t: TypeName, name: string, env: Env)
    requires so.Live? && ScriptableObjectType !in env.declaredMethods
    ensures var r := Configure(Add(NewConfigurator(name), ScriptableObjectSingleton(so, t)), []);
      && r.Ok? && |r.value| == 1 && r.value[0].body == ByFactory(PlanOfAsWritten(ScriptableObjectSingleton(so, t), name))
      && var a := Activate(env, r.value[0].body.plan);
         forall k :: 0 <= k < |a.trace| ==> !a.trace[k].Invoke?
    ensures var r := Configure(Add(NewConfigurator(name), ScriptableObjectSingleton(so, t)), [], true);
      && r.Ok? && |r.value| == 1 && r.value[0].body == ByFactory(PlanOf(ScriptableObjectSingleton(so, t), name))
      && (FindInjection(env, so.runtimeType, name).Ok? && FindInjection(env, so.runtimeType, name).value.Some?
          && AllRegistered(env.services, FindInjection(env, so.runtimeType, name).value.value.types) ==>
            exists k :: 0 <= k < |Activate(env, r.value[0].body.plan).trace| && Activate(env, r.value[0].body.plan).trace[k].Invoke?)
  {
    var v := ScriptableObjectSingleton(so, t);
    var c := Add(NewConfigurator(name), v);
    assert c.actions == [v];
    assert c.actions[1..] == [];
    var one := RunAction(name, v, []);
    assert one.Ok? && |one.value| == 1;
    assert RunActions(name, c.actions[1..], one.value) == Ok(one.value);
    assert Configure(c, []) == one;
    var fixed := RunAction(name, v, [], true);
    assert fixed.Ok? && |fixed.value| == 1;
    assert RunActions(name, c.actions[1..], fixed.value, true) == Ok(fixed.value);
    assert Configure(c, [], true) == fixed;
    UntypedScriptableObjectNeverInjectedAsWritten(so, t, name, env);
    if FindInjection(env, so.runtimeType, name).Ok? && FindInjection(env, so.runtimeType, name).value.Some?
       && AllRegistered(env.services, FindInjection(env, so.runtimeType, name).value.value.types) {
      UntypedScriptableObjectInjectedWhenDeclared(so, t, name, env);
    }
  }

  /**
   * Adding a verb whose arguments are missing succeeds; the exception
   * appears only when the builder's actions run.
   */
  lemma ValidationIsDeferred(c: Configurator, services: Services)
    requires Configure(c, services).Ok?
    ensures var bad := Add(c, SingletonInstance(Missing, None, false));
      |bad.actions| == |c.actions| + 1 && Configure(bad, services) == Err(ArgumentNull("component"))
  {
    ConfigureAfterAdd(c, SingletonInstance(Missing, None, false), services);
  }

  /** The factory every verb registers uses the builder's injection-method name, and only the single-type hosted verb holds its component disabled. */
  lemma PlanFollowsVerb(v: Verb, name: string)
    ensures PlanOf(v, name).injectionMethodName == name
    ensures PlanOf(v, name).holdDisabled <==> v.HostedService?
    ensures PlanOf(v, name).dontDestroyOnLoad <==> v.DetachedSingleton?
    ensures !PlanOf(v, name).lifetimeHook <==>
      ((v.SingletonInstance? || v.SingletonInstanceAs?) && !v.useHostLifetime) || v.IsScriptableObject()
    ensures v.PrefabScoped? ==> PlanOf(v, name).source.FromPrefab? && PlanOf(v, name).source.parent == UnderScopeRoot
  {
  }

  /**
   * For the single-type hosted verb, every resolution of the registered
   * factory disables the component before it is injected and enables it
   * only as the last step of a successful resolution.
   */
  lemma HostedComponentDisabledDuringSetup(name: string, t: TypeName, services: Services, env: Env)
    ensures var r := RunAction(name, HostedService(t), services);
      && r.Ok?
      && r.value[|services|].body.ByFactory?
      && var plan := r.value[|services|].body.plan;
         var a := Activate(env, plan);
         && (Obtain(env, plan.source).outcome.Ok? ==> a.trace[|Obtain(env, plan.source).effects|] == SetEnabled(false))
         && (forall k :: 0 <= k < |a.trace| && a.trace[k] == SetEnabled(true) ==> a.result.Ok? && k == |a.trace| - 1)
         && (a.result.Ok? ==> a.trace[|a.trace| - 1] == SetEnabled(true))
         && InjectsBeforeHook(a.trace)
  {
    var plan := PlanOf(HostedService(t), name);
    if Obtain(env, plan.source).outcome.Ok? {
      DisabledBeforeInjection(env, plan);
    }
    EnabledOnlyAtSuccessfulEnd(env, plan);
    InjectionBeforeStoppingHook(env, plan);
  }
}

=== FILE: services_lookup.dfy ===
/**
 * `ServicesLookup`: a read-only record of every registration in the
 * service collection, taken when the host is built.
 */
module Lookup {
  import opened Common
  import opened Activation

  /** What the lookup keeps of one descriptor. */
  datatype Description = Description(serviceType: TypeName, implementationType: Option<TypeName>, lifetime: Lifetime)

  function Describe(d: Descriptor): Description {
    Description(d.serviceType, d.ImplementationType(), d.lifetime)
  }

  /** The constructor: one description per descriptor, in collection order. */
  function NewServicesLookup(collection: seq<Descriptor>): (r: seq<Description>)
    ensures |r| == |collection|
    ensures forall i :: 0 <= i < |collection| ==>
      && r[i].serviceType == collection[i].serviceType
      && r[i].implementationType == collection[i].ImplementationType()
      && r[i].lifetime == collection[i].lifetime
  {
    seq(|collection|, i requires 0 <= i < |collection| => Describe(collection[i]))
  }

  function CountOf(descriptions: seq<Description>, t: TypeName): nat
    decreases |descriptions|
  {
    if |descriptions| == 0 then 0
    else (if descriptions[0].serviceType == t then 1 else 0) + CountOf(descriptions[1..], t)
  }

  /** `GetDescriptions<T>`: the descriptions registered for `t`, each as often as registered, in order. */
  function GetDescriptions(descriptions: seq<Description>, t: TypeName): (r: seq<Description>)
    ensures forall i :: 0 <= i < |r| ==> r[i].serviceType == t
    ensures forall i :: 0 <= i < |descriptions| && descriptions[i].serviceType == t ==> descriptions[i] in r
    ensures |r| == CountOf(descriptions, t)
    decreases |descriptions|
  {
    if |descriptions| == 0 then []
    else
      var rest := GetDescriptions(descriptions[1..], t);
      assert forall i :: 1 <= i < |descriptions| ==> descriptions[i] == descriptions[1..][i - 1];
      if descriptions[0].serviceType == t then [descriptions[0]] + rest else rest
  }

  /** The filter keeps the collection's order: filtering a concatenation concatenates the filtered parts. */
  lemma {:induction false} GetDescriptionsKeepsOrder(a: seq<Description>, b: seq<Description>, t: TypeName)
    ensures GetDescriptions(a + b, t) == GetDescriptions(a, t) + GetDescriptions(b, t)
    decreases |a|
  {
    if |a| > 0 {
      assert (a + b)[1..] == a[1..] + b;
      GetDescriptionsKeepsOrder(a[1..], b, t);
    } else {
      assert a + b == b;
    }
  }

  /** The descriptors registered for `t`, in collection order. */
  function RegisteredFor(collection: seq<Descriptor>, t: TypeName): (r: seq<Descriptor>)
    ensures forall i :: 0 <= i < |r| ==> r[i].serviceType == t
    decreases |collection|
  {
    if |collection| == 0 then []
    else if collection[0].serviceType == t then [collection[0]] + RegisteredFor(collection[1..], t)
    else RegisteredFor(collection[1..], t)
  }

  /** Filtering the descriptions by type is describing the descriptors registered for that type. */
  lemma {:induction false} GetDescriptionsDescribesRegistered(collection: seq<Descriptor>, t: TypeName)
    ensures GetDescriptions(NewServicesLookup(collection), t) == NewServicesLookup(RegisteredFor(collection, t))
    decreases |collection|
  {
    if |collection| > 0 {
      var d := NewServicesLookup(collection);
      assert d[1..] == NewServicesLookup(collection[1..]);
      GetDescriptionsDescribesRegistered(collection[1..], t);
      if collection[0].serviceType == t {
        var rest := RegisteredFor(collection[1..], t);
        assert NewServicesLookup([collection[0]] + rest) == [Describe(collection[0])] + NewServicesLookup(rest);
      }
    }
  }

  /** Every registration is accounted for under exactly one service type. */
  lemma {:induction false} CountsAddUp(descriptions: seq<Description>, t: TypeName)
    ensures |GetDescriptions(descriptions, t)| + |OthersThan(descriptions, t)| == |descriptions|
    decreases |descriptions|
  {
    if |descriptions| > 0 {
      CountsAddUp(descriptions[1..], t);
    }
  }

  function OthersThan(descriptions: seq<Description>, t: TypeName): (r: seq<Description>)
    ensures forall i :: 0 <= i < |r| ==> r[i].serviceType != t
    decreases |descriptions|
  {
    if |descriptions| == 0 then []
    else if descriptions[0].serviceType != t then [descriptions[0]] + OthersThan(descriptions[1..], t)
    else OthersThan(descriptions[1..], t)
  }
}
